=== FILE: README.md ===
# Founder-equity calculator backend: a Dafny model

This project models the stateful and rule-based core of an Express/SQLite
backend for a founder-equity calculator.

- **Analytics ingestion store** (`AnalyticsStore`). This is the visitor
  resolver keyed by session id, which counts visits. It also covers:
  - the feature-usage upsert keyed by (visitor, feature name);
  - the append-only page-view, event and conversion logs;
  - the request middleware that drives them;
  - the case-insensitive bot classifier and the page-title lookup.
- **Analytics reports** (`AnalyticsReports`). These are the grouped
  queries of the analytics service: top pages, top events, the conversion
  funnel, feature usage and daily statistics.
- **Read-only SQL console guard** (`QueryGuard`). This is the prefix and
  keyword check in front of the custom-query endpoint.
- **Equity reports** (`EquityAnalytics`):
  - the contributor-type and equity-range classifiers;
  - the weighted contribution `cash + 100·time + assets`;
  - the equity distribution, equity splits, founder patterns and equity
    ranges reports.
- **Workspace handlers** (`Workspaces`):
  - create and delete;
  - the update transformer. It revises the workspace row, replaces
    founders, reserved pools, adjustments and factor allocations, rewrites
    the ratings, and upserts visited-question marks.
- **User handlers** (`Users`): session get-or-create, the email change with
  its uniqueness check, and the user lookup.

Supporting modules:

- `Js`: JavaScript values, truthiness, property access, `Object.entries`
  and iteration.
- `JsNumbers`: `parseInt` and `parseFloat`.
- `Text`: `includes`, `trim`, `toUpperCase`, and case-insensitive ASCII
  matching.
- `Json`: `JSON.stringify` and a reader for its output.
- `Rows`: SQL over row sequences, meaning `WHERE`, `GROUP BY` with
  `COUNT(*)`/`COUNT(DISTINCT)`, `ORDER BY`, `LIMIT`, and selecting or
  deleting by key.

How the environment is modelled:

- Tables are sequences of immutable rows.
- `uuidv4` is a fresh-id oracle: a counter `nextId` above every id in the
  store.
- `CURRENT_TIMESTAMP` and `datetime('now', …)` become an abstract instant
  `now` or a window start `since`.
- A failing database statement in the analytics service is a boolean `up`
  parameter. Because that service swallows every error, none of its
  operations has an error outcome.
- The route handlers take every statement to succeed. An exception thrown
  by the handler's own code is the 500 outcome.
- The email rule of the request validator is an abstract predicate
  `isEmail` on text.

## Model

| member | source | states |
|---|---|---|
| AnalyticsStore.AnyMatchIff | middleware/analytics.js:174 | `patterns.some(p => p.test(ua))` holds iff some pattern of the list matches |
| AnalyticsStore.IsBotIffCorePattern | middleware/analytics.js:168-175 | a user agent is a crawler iff it contains, ignoring case, one of bot, crawler, spider, scraper or facebookexternalhit; the five named *bot patterns add nothing |
| AnalyticsStore.BotSuffixSubsumed | middleware/analytics.js:170-172 | any pattern ending in "bot" can only match where /bot/i matches |
| AnalyticsStore.EmptyAgentIsHuman | middleware/analytics.js:12 | a missing user agent, stored as "", is never a crawler |
| AnalyticsStore.GooglebotIsBot | middleware/analytics.js:168-175 | a Googlebot user agent in mixed case is classified as a crawler |
| AnalyticsStore.PageTitle | middleware/analytics.js:158-166 | the four known URLs map to their titles, and every other URL maps to "Unknown Page" |
| AnalyticsStore.PageTitleNeedsExactUrl | middleware/analytics.js:165 | a URL with a query string is not looked up by its path: "/calculator?ref=home" is an unknown page |
| AnalyticsStore.ResolveKnownSession | middleware/analytics.js:48-56 | for a known session id: the existing visitor id is returned; its visit count goes up by exactly one; its last visit becomes now; no other row or table changes |
| AnalyticsStore.ResolveNewSession | middleware/analytics.js:57-69 | for an unseen session id: exactly one visitor is appended, with a fresh id, the request's attributes, the bot verdict for its user agent and a count of one; nothing else changes |
| AnalyticsStore.ResolveFailSoft | middleware/analytics.js:71-74 | a failing store still yields an id that no row carries, and leaves every table as it was |
| AnalyticsStore.ResolvePreservesValid | middleware/analytics.js:45-75 | resolving keeps ids unique and issued, and keeps one visitor per session id |
| AnalyticsStore.ResolveTwiceSameVisitor | middleware/analytics.js:45-75 | two requests of one session resolve to the same visitor and leave exactly one row for the session |
| AnalyticsStore.StoredMetadata | middleware/analytics.js:110 | metadata is stored, serialised, exactly when it is truthy |
| AnalyticsStore.StoredMetadataRoundTrip | middleware/analytics.js:110 | stored metadata reads back as the payload it came from |
| AnalyticsStore.PageViewAppends | middleware/analytics.js:78-87 | a page view appends exactly one row with a fresh id and the given fields, with no deduplication; a failing store changes nothing |
| AnalyticsStore.EventAppends | middleware/analytics.js:90-115 | an event appends exactly one row with a fresh id; the row carries the visitor, session, type, category, action, label, value and page URL sent and the time now; its metadata is present iff the request's metadata is truthy; a failing store changes nothing |
| AnalyticsStore.EventMetadataReadsBack | middleware/analytics.js:110 | the metadata text an event stores for truthy metadata parses back to that metadata |
| AnalyticsStore.BareEventIsNull | middleware/analytics.js:94-99 | an event that names only its type stores NULL in every optional column |
| AnalyticsStore.ConversionAppends | middleware/analytics.js:118-127 | a conversion appends exactly one row, even for a step already logged; a failing store changes nothing |
| AnalyticsStore.FeatureUsageExisting | middleware/analytics.js:133-144 | an existing (visitor, feature name) row gains exactly one use and a new last-used time; every other row and table stays as it was |
| AnalyticsStore.FeatureUsageNew | middleware/analytics.js:133-151 | a (visitor, name) pair with no row, or a use with no name at all, gets exactly one new row, with a fresh id, that name or NULL, and a count of one |
| AnalyticsStore.FeatureUsagePreservesValid | middleware/analytics.js:130-155 | the upsert keeps one row per (visitor, named feature) and keeps ids unique |
| AnalyticsStore.FeatureUsageCountStep | middleware/analytics.js:130-155 | a stored use of a named feature raises the pair's count by one; a failed one leaves it unchanged |
| AnalyticsStore.UseRepeatedlyCounts | middleware/analytics.js:130-155 | starting from no row for a named feature, n uses leave one row for it with count n (none when n is 0); n uses with no name leave n new rows of count one; the invariant holds throughout |
| AnalyticsStore.UnnamedUsesAlwaysInsert | middleware/analytics.js:133-151 | a missing feature name is bound as NULL, which `feature_name = ?` never matches, so every such use inserts its own row with the next fresh id and one use |
| AnalyticsStore.ClientIp | middleware/analytics.js:11 | the client address is the first truthy of `req.ip`, the socket address and the forwarded-for header; otherwise it is the header value |
| AnalyticsStore.MiddlewarePageViewRule | middleware/analytics.js:24-36 | a page view is logged iff the request is a GET whose URL does not start with "/api/" (and the store accepts it); the row carries the resolved visitor, the URL and its title; the invariant holds afterwards |
| AnalyticsStore.MiddlewareResolvesVisitor | middleware/analytics.js:10-24 | for every request: a stored session gives its visitor's id and one more visit, with no row added; an unseen session gets one new visitor row built from the request (address, user agent or "", referrer or "", URL, bot verdict, one visit); a failing store still attaches an unused id and adds no row |
| AnalyticsStore.ApiRequestsLogNoPageView | middleware/analytics.js:27 | API calls and non-GET requests never add a page view |
| AnalyticsReports.FunnelRank | middleware/analytics.js:227-234 | the funnel's CASE ranks the four named steps 1-4 and every other step, NULL included, 5 |
| AnalyticsReports.ReportsFailSoft | middleware/analytics.js:191-194 | when the query fails, every report is the empty list |
| AnalyticsReports.EmptyStoreEmptyReports | middleware/analytics.js:178-278 | empty tables give empty reports |
| AnalyticsReports.TopPagesShape | middleware/analytics.js:197-215 | top pages: at most `limit` rows, views descending, one row per (URL, title) in the window; each row counts exactly that page's views, with 1 ≤ distinct visitors ≤ views |
| AnalyticsReports.TopPagesKeepsMostViewed | middleware/analytics.js:197-215 | top pages holds exactly min(`limit`, number of pages viewed in the window) rows, and a page left out has no more views than any page kept |
| AnalyticsReports.TopEventsShape | middleware/analytics.js:242-260 | top events: at most `limit` rows, count descending, one row per (type, action) in the window, each counting exactly that pair's events |
| AnalyticsReports.TopEventsKeepsMostFrequent | middleware/analytics.js:242-260 | top events holds exactly min(`limit`, number of (type, action) pairs in the window) rows, and a pair left out has no more events than any pair kept |
| AnalyticsReports.FunnelShape | middleware/analytics.js:217-240 | the funnel lists every step in the window once, in rank order; each row is its step's group; the counts add up to the conversions in the window |
| AnalyticsReports.FunnelLandingFirst | middleware/analytics.js:228-229 | the landing row precedes every other row |
| AnalyticsReports.FeatureRowsAreGroups | middleware/analytics.js:262-278 | each feature row is its feature's group: distinct users and summed usage |
| AnalyticsReports.FeatureStatsOrder | middleware/analytics.js:272 | feature rows are ordered by distinct users, most first, and no feature appears twice |
| AnalyticsReports.FeatureStatsCover | middleware/analytics.js:271 | every feature in the table has its row |
| AnalyticsReports.FeatureStatsCounts | middleware/analytics.js:264-271 | under the store invariant, a named feature's distinct users equal its rows; the NULL group has between one and as many distinct users as rows; every total is the sum of the group's usage counts |
| AnalyticsReports.DailyRowsAreGroups | middleware/analytics.js:178-195 | each daily row aggregates the visitors first seen on that day within the window |
| AnalyticsReports.DailyStatsOrder | middleware/analytics.js:188-189 | each day with first visits appears once, latest day first |
| AnalyticsReports.DailyStatsCounts | middleware/analytics.js:183-185 | per day: distinct visitors are between 1 and the day's rows; total visits are the sum of the visit counts; human visitors are at most the day's rows |
| QueryGuard.Status | routes/analytics.js:232-261 | 200 exactly when the query runs; 403 exactly for the two refusals of the guard |
| QueryGuard.Judge | routes/analytics.js:237-260 | a query that passes the guard runs as sent, never in its normalised form |
| QueryGuard.MissingQueryIff | routes/analytics.js:230-234 | 400 comes first, and exactly when `query` is not a non-empty string |
| QueryGuard.AllowedPrefixIff | routes/analytics.js:238-239 | the prefix check holds iff the normalised query starts with SELECT or WITH |
| QueryGuard.BlockedKeywordIff | routes/analytics.js:248-251 | the keyword check holds iff the normalised query contains one of the seven keywords anywhere |
| QueryGuard.ExecuteIff | routes/analytics.js:232-260 | a query runs iff it is a non-empty string whose trimmed upper-case form starts with SELECT or WITH and contains none of the blocked keywords |
| QueryGuard.DecisionDependsOnlyOnNormalized | routes/analytics.js:237 | two queries with the same trimmed upper-case form get the same verdict |
| QueryGuard.SurroundingWhitespaceIrrelevant | routes/analytics.js:237 | whitespace around a query never changes the verdict |
| QueryGuard.CaseIrrelevant | routes/analytics.js:237 | a query, its ASCII lower-case form and its upper-case form normalise alike |
| QueryGuard.CreatedAtColumnIsBlocked | routes/analytics.js:248-257 | "select created_at" is refused: the keyword check is a substring test, and CREATE occurs in created_at |
| QueryGuard.LowerCaseSelectRuns | routes/analytics.js:237-260 | "  select 1" passes and runs exactly as sent |
| EquityAnalytics.ClassifyIff | routes/analytics.js:128-137 | the first-match CASE gives each founder exactly one of the eight types, namely the one whose (cash, time, assets) signal pattern the founder shows |
| EquityAnalytics.TripleIff | routes/analytics.js:129 | "Triple Contributor" applies iff cash > 0, time > 30 and assets > 0 |
| EquityAnalytics.LabelInjective | routes/analytics.js:129-136 | the eight type labels are distinct |
| EquityAnalytics.BucketIff | routes/analytics.js:288-295 | a percentage lands in a range exactly when it lies between that range's bounds: ≥90, ≥70, ≥50, ≥30, ≥10, else 0-9% |
| EquityAnalytics.BucketMonotone | routes/analytics.js:288-295 | a larger percentage never lands in a lower range |
| EquityAnalytics.BucketLabelInjective | routes/analytics.js:289-294 | the six range labels are distinct |
| EquityAnalytics.RoundIsClose | routes/analytics.js:62-66 | ROUND to d places is within half a unit of the d-th place, and keeps the sign |
| EquityAnalytics.RoundMonotone | routes/analytics.js:279-281 | ROUND never reverses the order of two values |
| EquityAnalytics.Share | routes/analytics.js:62-66 | `100.0 * part / NULLIF(total, 0)` is NULL exactly when the total is 0; otherwise it is the percentage of the total |
| EquityAnalytics.SharesSumToHundred | routes/analytics.js:65-66 | the exact equity shares of a team with a non-zero total add up to 100 |
| EquityAnalytics.ShareBounded | routes/analytics.js:65-66 | with non-negative contributions, every share lies between 0 and 100 |
| EquityAnalytics.JoinedIff | routes/analytics.js:67-69 | the join holds exactly the (workspace, founder) pairs of completed workspaces and their founders |
| EquityAnalytics.FounderPatternsShape | routes/analytics.js:124-147 | one row per contributor type present, ordered by founder count descending; each row counts exactly its type's founders; the counts add up to the joined founders |
| EquityAnalytics.EquityDistributionShape | routes/analytics.js:51-71 | the distribution is a permutation of the joined rows, ordered by company name and then position |
| EquityAnalytics.EquityShareIff | routes/analytics.js:65-66 | a founder's total equity percentage is NULL iff the team total is 0; otherwise it is within 0.005 of the exact share |
| EquityAnalytics.SplitRows | routes/analytics.js:205-216 | a split row exists exactly for each completed workspace with at least two founders |
| EquityAnalytics.EquitySplitsShape | routes/analytics.js:203-225 | the splits hold one row per completed workspace with at least two founders, exactly as many rows as such workspaces; they are ordered by founder count and then total contribution, both descending; each counts the workspace's founders (at least two) and totals their weighted contributions |
| EquityAnalytics.EligibleIff | routes/analytics.js:279-285 | a founder enters the range histogram iff the workspace is complete, the founder's contribution is positive and the team total is non-zero (so the percentage is not NULL) |
| EquityAnalytics.EquityCalcs | routes/analytics.js:275-286 | the histogram's input holds each eligible founder's percentage, rounded to one place |
| EquityAnalytics.EquityRangesOrdered | routes/analytics.js:272-302 | one row per range present, ordered by average descending |
| EquityAnalytics.EquityRangesCount | routes/analytics.js:272-302 | each row counts exactly the founders whose percentage falls in its range; every eligible founder's range has a row; the counts add up to the eligible founders |
| EquityAnalytics.EquityRangeAverages | routes/analytics.js:297 | a range's rounded average lies within that range's bounds; rounding can reach the next range's least value but not pass it |
| Workspaces.CreateValidation | routes/workspaces.js:115-126 | 400 exactly when userId or name is empty or companyName is present and not a string, and then nothing is written; otherwise 201 |
| Workspaces.CreateInserts | routes/workspaces.js:128-143 | a valid create adds exactly one workspace, with a fresh id, the owner and name sent, and companyName defaulting to ''; it appends one ratings row for the new workspace, with a fresh id and the schema defaults, after the rows already there; nothing else changes |
| Workspaces.DeleteNotFoundIff | routes/workspaces.js:337-352 | delete answers 404 iff no workspace has the id, and then changes nothing; otherwise the workspaces left are exactly those with another id, none added, and no other table changes |
| Workspaces.DeletePreservesValid | routes/workspaces.js:341 | deleting keeps workspace ids unique |
| Workspaces.UpdateStatus | routes/workspaces.js:152-334 | the update answers 200, 404 or 500; 404 iff the workspace is unknown, and then nothing changes; a founder name whose amounts cannot be looked up, or reserved pools that are truthy but not iterable, give 500 |
| Workspaces.UpdateFailsIff | routes/workspaces.js:184-266 | for a known workspace, 500 comes exactly when some founder name visited cannot be turned into a property name, the reserved pools are not iterable, or a supplied factor list is not iterable, holds a null or undefined factor, or holds a truthy allocation that cannot be turned into text |
| Workspaces.UpdateRevisesWorkspace | routes/workspaces.js:166-181 | only the row of the workspace is revised: name keeps the stored value when falsy, companyName becomes '', foundingTeamSize 0 and the completion flag false when falsy |
| Workspaces.UpdateReplacesFounders | routes/workspaces.js:184-202 | with founders supplied, the workspace's founders are the names the index loop visits up to the first whose amounts cannot be looked up; if there is one, the loop throws there, the rows before it stay and the update answers 500; the i-th row has position i, and cash, time and assets are looked up by the name's string form and default to 0; other workspaces keep theirs |
| Workspaces.FounderNamesOf | routes/workspaces.js:186-187 | the loop over `founders.length` visits an array's elements and a string's characters in order, an array-like object's members "0", "1", ... up to its `length`, and nothing for a number or `true` |
| Js.Lookup | routes/workspaces.js:195-197 | `table?.[key]` is `undefined` for a nullish table; otherwise it throws exactly when `String(key)` throws, and else gives the object's own member under that name, or `undefined` |
| Workspaces.UpdateReplacesPools | routes/workspaces.js:184-217 | with reservedPools supplied, the workspace's pools are exactly the accepted pools, under their trimmed name with weight defaulting to 0; other workspaces keep theirs; when the founders loop throws, no pool changes |
| Workspaces.PoolAcceptedIff | routes/workspaces.js:210 | a pool is stored exactly when its poolName is a string whose trim is non-empty |
| Workspaces.UpdateRewritesRatings | routes/workspaces.js:184-235 | with ratings supplied and no earlier statement throwing, each of the three ratings of the workspace becomes 3 when falsy; other rows are unchanged; when the founders or pools statements throw, no rating changes |
| Workspaces.ZeroRatingStoredAsThree | routes/workspaces.js:229-231 | a rating of 0 is stored as 3 once the statements before the ratings have run |
| Workspaces.UpdateReplacesAdjustments | routes/workspaces.js:184-247 | with adjustments supplied and no earlier statement throwing, the workspace's adjustments are exactly the entries of the object, with distinct categories; other workspaces keep theirs; when the founders or pools statements throw, no adjustment changes |
| Workspaces.InsertFactorsContents | routes/workspaces.js:255-263 | the rows inserted for a factor list are the (factor name, founder, allocation) triples of its allocations whose value is truthy and parses to a positive number |
| Workspaces.InsertFactorsThrows | routes/workspaces.js:252-263 | the inner loops throw exactly when the list holds a null or undefined factor, or an allocation that is truthy but cannot be turned into text for `parseFloat` |
| Workspaces.UpdateReplacesFactors | routes/workspaces.js:184-266 | a slot other than the four factor types of the workspace keeps its rows; on success, each supplied type's rows are replaced and each absent type keeps its rows; when the founders or pools statements throw, no factor changes |
| Workspaces.UpdateMarksQuestions | routes/workspaces.js:269-300 | marks are never removed or unset; on success every truthy entry of each truthy part map is marked visited under its parsed index, and nothing else changes: a mark of a question no truthy entry asks for stays as it was, an asked one is at most set visited, and every added mark is a visited mark of this workspace for an asked (part, index); on failure the marks are as before |
| Workspaces.MarkEntriesOnly | routes/workspaces.js:276-295 | one part's loop touches only the questions its truthy entries name: other marks unchanged, asked ones at most set visited, added marks visited and asked |
| Workspaces.MarkQuestionsOnly | routes/workspaces.js:269-297 | both parts' loops together touch only the questions asked by truthy entries of truthy part maps |
| Workspaces.UnparsedIndexAlwaysInserts | routes/workspaces.js:279-295 | an index that does not parse is bound as NULL, which no lookup matches, so each such entry inserts a new mark |
| Workspaces.UpdatePreservesValid | routes/workspaces.js:152-334 | the update keeps workspace ids unique and at most one mark per (workspace, part, index) |
| JsNumbers.ParseIntOfIndex | routes/workspaces.js:276-281 | `parseInt` reads an array index key back as the index |
| JsNumbers.ParseIntSkipsBlanks | routes/workspaces.js:281 | leading whitespace never changes what `parseInt` reads |
| JsNumbers.ParseDecimalReadsDecimal | routes/workspaces.js:257-260 | `parseFloat` reads back the decimal form of a number |
| JsNumbers.NoLeadingDigitIsNaN | routes/workspaces.js:257 | text with no digit after blanks and sign is NaN to both parsers |
| JsNumbers.ParseDecimalOfNumber | routes/workspaces.js:257-260 | `parseFloat` of a number's decimal text is that number |
| JsNumbers.ParseFloatOfSingleton | routes/workspaces.js:257-260 | `parseFloat` of a one-element array is `parseFloat` of the element, since the array's string form is the element's |
| Json.MetadataRoundTrip | middleware/analytics.js:110 | reading back `JSON.stringify(v)` gives v |
| Json.StringifyInjective | middleware/analytics.js:110 | distinct metadata values are stored as distinct texts |
| Users.StartSessionRejectsIff | routes/users.js:11-18 | the session call answers 400 exactly when an email is present and is not an email, and then writes nothing; otherwise 200 |
| Users.StartSessionWithEmail | routes/users.js:25-37 | with an email: a user already holding it is returned and nothing is written; otherwise exactly one user is added, carrying the email under a fresh id; sessions are untouched |
| Users.StartSessionResumes | routes/users.js:40-55 | without an email and with a known session id, the session's user is returned and nothing is written |
| Users.StartSessionAnonymous | routes/users.js:39-52 | without an email and with an unknown session id, exactly one anonymous user and one session row for that id and user are added |
| Users.StartSessionPreservesValid | routes/users.js:9-64 | the session call keeps user ids unique, emails unique, session ids unique, and every session's user present |
| Users.StartSessionIdempotent | routes/users.js:25-55 | repeating a session call changes nothing and returns the same user |
| Users.ChangeEmailStatusIff | routes/users.js:69-85 | the email change answers 400 exactly when the email is not an email, and 409 exactly when another user id holds it; neither writes anything |
| Users.ChangeEmailToOwn | routes/users.js:82-85 | setting a user's email to the one they already hold is no conflict |
| Users.ChangeEmailEffect | routes/users.js:87-93 | a successful change sets the email of that user id and of no one else; the reply is the updated user, or no user for an unknown id |
| Users.ChangeEmailPreservesValid | routes/users.js:67-99 | the email change keeps emails unique |
| Users.GetUserIff | routes/users.js:102-116 | the lookup answers 404 exactly when no user has the id; otherwise it returns that user and writes nothing |
| Users.CreatedUserReadable | routes/users.js:25-55 | a user returned by the session call can be read back under its id |

## Left out

- The analytics routes outside these reports are not modelled, because they are plain aggregate reads with no rule to state. These are: overview, factors, company-size, activity-timeline and factors-simple.
- The tracking routes only forward to the analytics service with `parseInt(...) || default` defaults, so they are not modelled.
- The workspace GET handler and the final re-read after an update only read rows back, so they are not modelled.
- The server plumbing is not modelled (helmet, compression, CORS, logging, listen and shutdown). The session-id middleware is only the `sessionId` parameter.
- The browser tracking script and the CORS proxy are not modelled: both are client code or network I/O.
- `database/database.js` (the schema) is not part of this model. A column the handlers never write is `None`, standing for its schema default. The exceptions are defaults the model spells out: a visitor's visit count starts at 1, and a new feature-usage row has usage count 1 and last-used time `now`. A feature name, event type or funnel step the request leaves out is bound as NULL and stored; whether the schema refuses NULL there is not known to this model.
- Deleting a workspace leaves its child rows alone. Any cascade is the schema's business.
- Database failures inside the route handlers, and their 500 answers, are not modelled; every statement there succeeds. The analytics service's failures are modelled through `up`.
- Concurrency is not modelled. `Promise.all` and interleaved read-then-write upserts are left out, and requests run one after another.
- Timestamps are not modelled: `created_at`, `updated_at` and session `expires_at`. In the analytics store they are the abstract instant `now`.
- The 30-day windows are the `since` parameter.
- Ordering ties, which SQL leaves unspecified, are broken by the model's insertion sort.
- `GROUP BY w.id` in the splits report is one group per workspace row, since workspace ids are unique.
- `GROUP_CONCAT` breakdown text of the splits report is not modelled.
- The `AVG` columns of the founder-patterns report are not modelled.
- The distribution report's separate cash, time and assets percentages are modelled, but only the total share carries a stated property.
- SQLite arithmetic and `ROUND` work on doubles; the model works on exact reals. ROUND is taken as half away from zero.
- Report rows carry numeric columns, not the stored JavaScript values. SQLite's conversion of stored text to numbers is not modelled.
- `ORDER BY company_name` uses the BINARY collation, which compares UTF-8 bytes. It is modelled as the order of Dafny characters, which are Unicode scalar values; UTF-8 preserves that order, so the two agree.
- `parseInt` and `parseFloat` read decimal text only. Hex prefixes, exponents and "Infinity" are not modelled.
- JavaScript numbers in request bodies are integers in the model.
- `Object.entries` lists keys in insertion order. Its integer-key-first rule is not modelled.
- Js.Lookup: a founder name is looked up among the object's own members only. In JavaScript, names such as "constructor" or "toString" find inherited functions, which are truthy and would be stored; the model gives them the default 0.
- Js.Lookup: property access on arrays and strings (e.g. `[1, 2]["0"]`) is not modelled and gives `undefined`.
- Js.Converts: an object with its own `toString` member is taken to make `String(v)` throw. That holds for request bodies, which are JSON and so never carry a callable member; JavaScript would call a callable one.
- FounderNamesOf: a string's characters are Unicode scalar values. JavaScript indexes a string by UTF-16 code unit, so a character outside the Basic Multilingual Plane is two names there (two surrogate halves) and one name here.
- FeatureRow: the `avg_usage_per_user` column (`AVG(usage_count)`) is not modelled. For a named feature it equals `totalUsage / uniqueUsers` by AnalyticsReports.FeatureStatsCounts.
- FounderNames: a `length` member that is a string, array or object is coerced to a number by JavaScript's `<`; the model visits no index for it.
- Json.Stringify: keys are written in the order stored. JavaScript writes integer-like keys first, in numeric order.
- Json.Stringify: numbers are integers written in plain decimal. JavaScript writes magnitudes of 1e21 and above in exponent form.
- express-validator is modelled by its outcome. `isEmail` is an abstract predicate. A non-string email is taken as invalid, whereas the library would test its string form.
- `toUpperCase` covers ASCII and the few non-ASCII characters whose upper-case form contains an ASCII letter.

=== FILE: AnalyticsReports.dfy ===
/** The dashboard reports over the analytics store: daily visitor stats,
    top pages, the conversion funnel, top events and feature usage. Each is
    a grouped `SELECT` over one table, built from the `Rows` combinators.

    A report's trailing time window is the instant `since`, the earliest
    timestamp it covers. A failing query is `up = false`, and the report is
    then empty. */
module AnalyticsReports {
  import opened Js
  import opened Rows
  import S = AnalyticsStore

  const SecondsPerDay: nat := 86400

  /** `DATE(t)`: the calendar day of an instant, counted in days. */
  function Day(t: S.Time): nat
  {
    t / SecondsPerDay
  }

  // ---------------------------------------------------------------------
  // Windows, keys and orders
  // ---------------------------------------------------------------------

  function VisitorWindow(s: S.Store, since: S.Time): seq<S.Visitor>
  {
    Where(s.visitors, (v: S.Visitor) => v.firstVisit >= since)
  }

  function PageWindow(s: S.Store, since: S.Time): seq<S.PageView>
  {
    Where(s.pageViews, (p: S.PageView) => p.timestamp >= since)
  }

  function EventWindow(s: S.Store, since: S.Time): seq<S.UserEvent>
  {
    Where(s.events, (e: S.UserEvent) => e.timestamp >= since)
  }

  function ConversionWindow(s: S.Store, since: S.Time): seq<S.Conversion>
  {
    Where(s.conversions, (c: S.Conversion) => c.timestamp >= since)
  }

  function FirstDay(v: S.Visitor): nat { Day(v.firstVisit) }
  function VisitorOf(v: S.Visitor): S.Id { v.id }
  predicate IsHuman(v: S.Visitor) { !v.isBot }
  function TotalVisitsOf(v: S.Visitor): int { v.totalVisits }

  function PageOf(p: S.PageView): (string, string) { (p.pageUrl, p.pageTitle) }
  function PageVisitor(p: S.PageView): S.Id { p.visitorId }

  /** `GROUP BY event_type, event_action`: a missing action is its own group. */
  function EventOf(e: S.UserEvent): (Option<string>, Option<string>) { (e.eventType, e.eventAction) }
  function EventVisitor(e: S.UserEvent): S.Id { e.visitorId }

  function StepOf(c: S.Conversion): Option<string> { c.funnelStep }
  function ConversionVisitor(c: S.Conversion): S.Id { c.visitorId }

  function FeatureNameOf(f: S.FeatureUsage): Option<string> { f.featureName }
  function FeatureVisitor(f: S.FeatureUsage): S.Id { f.visitorId }
  function UsageOf(f: S.FeatureUsage): int { f.usageCount }

  /** `ORDER BY COUNT(DISTINCT ...) DESC`. */
  predicate MoreDistinct<K>(a: Group<K>, b: Group<K>) { a.distinct >= b.distinct }

  /** `ORDER BY date DESC`. */
  predicate LaterDay(a: Group<nat>, b: Group<nat>) { a.key >= b.key }

  /** The funnel's `CASE funnel_step` ordering; a `NULL` step matches no
      `WHEN` and falls to the `ELSE`. */
  function FunnelRank(step: Option<string>): (rank: nat)
    ensures 1 <= rank <= 5
    ensures rank == 5 <==> step.None? || step.value !in {"landing", "started_calc", "completed_calc", "downloaded_report"}
  {
    match step
    case None => 5
    case Some(name) =>
      if name == "landing" then 1
      else if name == "started_calc" then 2
      else if name == "completed_calc" then 3
      else if name == "downloaded_report" then 4
      else 5
  }

  predicate EarlierStep(a: Group<Option<string>>, b: Group<Option<string>>) { FunnelRank(a.key) <= FunnelRank(b.key) }

  lemma MoreDistinctPreorder<K(!new)>()
    ensures TotalPreorder(MoreDistinct<K>)
  {
  }

  lemma LaterDayPreorder()
    ensures TotalPreorder(LaterDay)
  {
  }

  lemma EarlierStepPreorder()
    ensures TotalPreorder(EarlierStep)
  {
  }

  // ---------------------------------------------------------------------
  // Reports
  // ---------------------------------------------------------------------

  /** Page views per (URL, title) in the window: `count` is `views`,
      `distinct` is `unique_visitors`; most viewed first, at most `limit`. */
  function TopPages(s: S.Store, since: S.Time, limit: int, up: bool): seq<Group<(string, string)>>
  {
    if !up then []
    else
      MoreCountPreorder<(string, string)>();
      TopGroups(PageWindow(s, since), PageOf, PageVisitor, MoreCount, limit)
  }

  /** Events per (type, action) in the window: `count` is `event_count`,
      `distinct` is `unique_users`; most frequent first, at most `limit`. */
  function TopEvents(s: S.Store, since: S.Time, limit: int, up: bool): seq<Group<(Option<string>, Option<string>)>>
  {
    if !up then []
    else
      MoreCountPreorder<(Option<string>, Option<string>)>();
      TopGroups(EventWindow(s, since), EventOf, EventVisitor, MoreCount, limit)
  }

  /** Conversions per funnel step in the window: `count` is `events`,
      `distinct` is `users`; in funnel order. */
  function ConversionFunnel(s: S.Store, since: S.Time, up: bool): seq<Group<Option<string>>>
  {
    if !up then []
    else
      EarlierStepPreorder();
      TopGroups(ConversionWindow(s, since), StepOf, ConversionVisitor, EarlierStep, -1)
  }

  /** One row of the feature report, without its `AVG(usage_count)` column.
      A `NULL` feature name is a group of its own. */
  datatype FeatureRow = FeatureRow(featureName: Option<string>, uniqueUsers: nat, totalUsage: int)

  function FeatureRowOf(fs: seq<S.FeatureUsage>, g: Group<Option<string>>): FeatureRow
  {
    FeatureRow(g.key, g.distinct, SumKey(fs, FeatureNameOf, UsageOf, g.key))
  }

  /** The feature groups, most distinct users first. */
  function FeatureGroups(s: S.Store): seq<Group<Option<string>>>
  {
    MoreDistinctPreorder<Option<string>>();
    TopGroups(s.features, FeatureNameOf, FeatureVisitor, MoreDistinct, -1)
  }

  /** Usage per feature over the whole table. */
  function FeatureUsageStats(s: S.Store, up: bool): seq<FeatureRow>
  {
    if !up then []
    else
      var gs := FeatureGroups(s);
      seq(|gs|, i requires 0 <= i < |gs| => FeatureRowOf(s.features, gs[i]))
  }

  /** One row of the daily report. */
  datatype DailyRow = DailyRow(date: nat, uniqueVisitors: nat, totalVisits: int, humanVisitors: nat)

  function DailyRowOf(vs: seq<S.Visitor>, g: Group<nat>): DailyRow
  {
    DailyRow(g.key, g.distinct, SumKey(vs, FirstDay, TotalVisitsOf, g.key),
             CountKey(Where(vs, IsHuman), FirstDay, g.key))
  }

  /** The visitor groups by first-visit day, latest first. */
  function DayGroups(s: S.Store, since: S.Time): seq<Group<nat>>
  {
    LaterDayPreorder();
    TopGroups(VisitorWindow(s, since), FirstDay, VisitorOf, LaterDay, -1)
  }

  /** Visitors first seen in the window, per day of first visit. */
  function DailyStats(s: S.Store, since: S.Time, up: bool): seq<DailyRow>
  {
    if !up then []
    else
      var gs := DayGroups(s, since);
      seq(|gs|, i requires 0 <= i < |gs| => DailyRowOf(VisitorWindow(s, since), gs[i]))
  }

  // ---------------------------------------------------------------------
  // Properties
  // ---------------------------------------------------------------------

  /** A failing query yields an empty report, never an error. */
  lemma ReportsFailSoft(s: S.Store, since: S.Time, limit: int)
    ensures TopPages(s, since, limit, false) == []
    ensures TopEvents(s, since, limit, false) == []
    ensures ConversionFunnel(s, since, false) == []
    ensures FeatureUsageStats(s, false) == []
    ensures DailyStats(s, since, false) == []
  {
  }

  /** With no rows in the tables every report is empty. */
  lemma EmptyStoreEmptyReports(s: S.Store, since: S.Time, limit: int, up: bool)
    requires s.visitors == [] && s.pageViews == [] && s.events == []
    requires s.conversions == [] && s.features == []
    ensures TopPages(s, since, limit, up) == []
    ensures TopEvents(s, since, limit, up) == []
    ensures ConversionFunnel(s, since, up) == []
    ensures FeatureUsageStats(s, up) == []
    ensures DailyStats(s, since, up) == []
  {
    assert GroupBy([], PageOf, PageVisitor) == [];
    assert GroupBy([], EventOf, EventVisitor) == [];
    assert GroupBy([], StepOf, ConversionVisitor) == [];
    assert GroupBy([], FeatureNameOf, FeatureVisitor) == [];
    assert GroupBy([], FirstDay, VisitorOf) == [];
  }

  /** Top pages: most viewed first, one row per (URL, title) seen in the
      window, each counting exactly that page's views and at least one but
      no more distinct visitors than views. */
  lemma TopPagesShape(s: S.Store, since: S.Time, limit: int)
    ensures var r := TopPages(s, since, limit, true);
      && (limit >= 0 ==> |r| <= limit)
      && (forall i, j :: 0 <= i < j < |r| ==> r[i].count >= r[j].count)
      && NoDup(GroupKeys(r))
      && (forall i :: 0 <= i < |r| ==>
            r[i] == GroupOf(PageWindow(s, since), PageOf, PageVisitor, r[i].key)
            && 1 <= r[i].distinct <= r[i].count)
      && (limit < 0 ==> SumCounts(r) == |PageWindow(s, since)|)
  {
    MoreCountPreorder<(string, string)>();
    TopGroupsShape(PageWindow(s, since), PageOf, PageVisitor, MoreCount, limit);
  }

  /** The `LIMIT` keeps the most viewed pages: `limit` rows, or one per page
      viewed in the window when there are fewer, and a page left out has no
      more views than any page listed. */
  lemma TopPagesKeepsMostViewed(s: S.Store, since: S.Time, limit: int)
    ensures var r := TopPages(s, since, limit, true); var w := PageWindow(s, since);
      && (limit >= 0 ==> |r| == if limit < |KeySet(w, PageOf)| then limit else |KeySet(w, PageOf)|)
      && (forall i, j :: 0 <= i < |w| && 0 <= j < |r| && PageOf(w[i]) !in GroupKeys(r) ==>
            r[j].count >= CountKey(w, PageOf, PageOf(w[i])))
  {
    var w := PageWindow(s, since);
    MoreCountPreorder<(string, string)>();
    TopGroupsShape(w, PageOf, PageVisitor, MoreCount, limit);
    if limit >= 0 {
      TopGroupsKeeps(w, PageOf, PageVisitor, MoreCount, limit);
    }
  }

  /** Top events: most frequent first, one row per (type, action) seen in
      the window, each counting exactly that pair's events. */
  lemma TopEventsShape(s: S.Store, since: S.Time, limit: int)
    ensures var r := TopEvents(s, since, limit, true);
      && (limit >= 0 ==> |r| <= limit)
      && (forall i, j :: 0 <= i < j < |r| ==> r[i].count >= r[j].count)
      && NoDup(GroupKeys(r))
      && (forall i :: 0 <= i < |r| ==>
            r[i] == GroupOf(EventWindow(s, since), EventOf, EventVisitor, r[i].key)
            && 1 <= r[i].distinct <= r[i].count)
      && (limit < 0 ==> SumCounts(r) == |EventWindow(s, since)|)
  {
    MoreCountPreorder<(Option<string>, Option<string>)>();
    TopGroupsShape(EventWindow(s, since), EventOf, EventVisitor, MoreCount, limit);
  }
  /** The `LIMIT` keeps the most frequent events: `limit` rows, or one per
      (type, action) seen in the window when there are fewer, and a pair
      left out has no more events than any pair listed. */
  lemma TopEventsKeepsMostFrequent(s: S.Store, since: S.Time, limit: int)
    ensures var r := TopEvents(s, since, limit, true); var w := EventWindow(s, since);
      && (limit >= 0 ==> |r| == if limit < |KeySet(w, EventOf)| then limit else |KeySet(w, EventOf)|)
      && (forall i, j :: 0 <= i < |w| && 0 <= j < |r| && EventOf(w[i]) !in GroupKeys(r) ==>
            r[j].count >= CountKey(w, EventOf, EventOf(w[i])))
  {
    var w := EventWindow(s, since);
    MoreCountPreorder<(Option<string>, Option<string>)>();
    TopGroupsShape(w, EventOf, EventVisitor, MoreCount, limit);
    if limit >= 0 {
      TopGroupsKeeps(w, EventOf, EventVisitor, MoreCount, limit);
    }
  }


  /** The funnel lists every step seen in the window once, in funnel order
      whatever the insertion order or counts, and its event counts add up to
      the conversions in the window. */
  lemma FunnelShape(s: S.Store, since: S.Time)
    ensures var r := ConversionFunnel(s, since, true);
      && (forall i, j :: 0 <= i < j < |r| ==> FunnelRank(r[i].key) <= FunnelRank(r[j].key))
      && NoDup(GroupKeys(r))
      && (forall c :: c in ConversionWindow(s, since) ==> c.funnelStep in GroupKeys(r))
      && (forall i :: 0 <= i < |r| ==>
            r[i] == GroupOf(ConversionWindow(s, since), StepOf, ConversionVisitor, r[i].key)
            && 1 <= r[i].distinct <= r[i].count)
      && SumCounts(r) == |ConversionWindow(s, since)|
  {
    EarlierStepPreorder();
    var w := ConversionWindow(s, since);
    TopGroupsShape(w, StepOf, ConversionVisitor, EarlierStep, -1);
    forall c | c in w
      ensures c.funnelStep in GroupKeys(ConversionFunnel(s, since, true))
    {
      var i :| 0 <= i < |w| && w[i] == c;
      assert StepOf(w[i]) == c.funnelStep;
    }
  }

  /** Landing comes before every later step that has conversions. */
  lemma FunnelLandingFirst(s: S.Store, since: S.Time, i: nat, j: nat)
    requires var r := ConversionFunnel(s, since, true);
      i < |r| && j < |r| && r[i].key == Some("landing") && r[j].key != Some("landing")
    ensures i < j
  {
    LandingRanksFirst(ConversionFunnel(s, since, true)[j].key);
    if j < i {
      FunnelRankedAt(s, since, j, i);
    }
  }

  lemma FunnelRankedAt(s: S.Store, since: S.Time, a: nat, b: nat)
    requires a < b < |ConversionFunnel(s, since, true)|
    ensures var r := ConversionFunnel(s, since, true);
      FunnelRank(r[a].key) <= FunnelRank(r[b].key)
  {
    FunnelShape(s, since);
  }

  lemma LandingRanksFirst(step: Option<string>)
    ensures step != Some("landing") ==> FunnelRank(Some("landing")) < FunnelRank(step)
  {
  }

  lemma FunnelRanked(s: S.Store, since: S.Time)
    ensures var r := ConversionFunnel(s, since, true);
      forall i, j :: 0 <= i < j < |r| ==> FunnelRank(r[i].key) <= FunnelRank(r[j].key)
  {
    FunnelShape(s, since);
  }

  /** Each feature row is the aggregate of its group. */
  lemma FeatureRowsAreGroups(s: S.Store)
    ensures var r := FeatureUsageStats(s, true);
      var gs := FeatureGroups(s);
      && |r| == |gs|
      && (forall i :: 0 <= i < |r| ==> r[i].featureName == gs[i].key && r[i].uniqueUsers == gs[i].distinct)
      && (forall i :: 0 <= i < |r| ==> r[i].totalUsage == SumKey(s.features, FeatureNameOf, UsageOf, gs[i].key))
      && (forall i :: 0 <= i < |gs| ==>
            gs[i] == GroupOf(s.features, FeatureNameOf, FeatureVisitor, gs[i].key) && 1 <= gs[i].distinct)
      && (forall i, j :: 0 <= i < j < |gs| ==> gs[i].distinct >= gs[j].distinct && gs[i].key != gs[j].key)
      && (forall f :: f in s.features ==> f.featureName in GroupKeys(gs))
  {
    MoreDistinctPreorder<Option<string>>();
    TopGroupsShape(s.features, FeatureNameOf, FeatureVisitor, MoreDistinct, -1);
    FeatureGroupsOrder(s);
    FeatureGroupsCover(s);
  }

  lemma FeatureGroupsOrder(s: S.Store)
    ensures var gs := FeatureGroups(s);
      forall i, j :: 0 <= i < j < |gs| ==> gs[i].distinct >= gs[j].distinct && gs[i].key != gs[j].key
  {
    MoreDistinctPreorder<Option<string>>();
    var gs := FeatureGroups(s);
    TopGroupsShape(s.features, FeatureNameOf, FeatureVisitor, MoreDistinct, -1);
    forall i, j | 0 <= i < j < |gs|
      ensures gs[i].key != gs[j].key
    {
      assert GroupKeys(gs)[i] != GroupKeys(gs)[j];
    }
  }

  lemma FeatureGroupsCover(s: S.Store)
    ensures forall f :: f in s.features ==> f.featureName in GroupKeys(FeatureGroups(s))
  {
    MoreDistinctPreorder<Option<string>>();
    var gs := FeatureGroups(s);
    TopGroupsShape(s.features, FeatureNameOf, FeatureVisitor, MoreDistinct, -1);
    forall f | f in s.features
      ensures f.featureName in GroupKeys(gs)
    {
      var k :| 0 <= k < |s.features| && s.features[k] == f;
      assert FeatureNameOf(s.features[k]) in GroupKeys(gs);
    }
  }

  /** Feature usage is ordered by distinct users, most first, and names no
      feature twice. */
  lemma FeatureStatsOrder(s: S.Store)
    ensures var r := FeatureUsageStats(s, true);
      && (forall i, j :: 0 <= i < j < |r| ==> r[i].uniqueUsers >= r[j].uniqueUsers)
      && (forall i, j :: 0 <= i < j < |r| ==> r[i].featureName != r[j].featureName)
  {
    FeatureRowsAreGroups(s);
  }

  /** Every feature of the table has its row. */
  lemma FeatureStatsCover(s: S.Store, k: nat)
    requires k < |s.features|
    ensures exists i :: 0 <= i < |FeatureUsageStats(s, true)| &&
                        FeatureUsageStats(s, true)[i].featureName == s.features[k].featureName
  {
    FeatureRowsAreGroups(s);
    var gs := FeatureGroups(s);
    var r := FeatureUsageStats(s, true);
    assert s.features[k] in s.features;
    var i :| 0 <= i < |gs| && GroupKeys(gs)[i] == s.features[k].featureName;
    assert r[i].featureName == s.features[k].featureName;
  }

  /** Each feature row sums that feature's usage. Since the store keeps one
      row per visitor and named feature, a named feature's distinct users are
      its rows; the `NULL` group, whose rows the upsert never merges, has
      between one and as many distinct users as rows. */
  lemma FeatureStatsCounts(s: S.Store)
    requires S.Valid(s)
    ensures var r := FeatureUsageStats(s, true);
      forall i :: 0 <= i < |r| ==>
        && (r[i].featureName.Some? ==> r[i].uniqueUsers == CountKey(s.features, FeatureNameOf, r[i].featureName))
        && 1 <= r[i].uniqueUsers <= CountKey(s.features, FeatureNameOf, r[i].featureName)
        && r[i].totalUsage == SumKey(s.features, FeatureNameOf, UsageOf, r[i].featureName)
  {
    FeatureRowsAreGroups(s);
    MoreDistinctPreorder<Option<string>>();
    TopGroupsShape(s.features, FeatureNameOf, FeatureVisitor, MoreDistinct, -1);
    var gs := FeatureGroups(s);
    var r := FeatureUsageStats(s, true);
    OneRowPerVisitor(s);
    forall i | 0 <= i < |r| && r[i].featureName.Some?
      ensures r[i].uniqueUsers == CountKey(s.features, FeatureNameOf, r[i].featureName)
    {
      DistinctWhenUnique(s.features, FeatureNameOf, FeatureVisitor, gs[i].key);
    }
  }

  /** Within one named feature, the store invariant gives each visitor one row. */
  lemma OneRowPerVisitor(s: S.Store)
    requires S.Valid(s)
    ensures forall i, j :: 0 <= i < j < |s.features| && FeatureNameOf(s.features[i]).Some?
              && FeatureNameOf(s.features[i]) == FeatureNameOf(s.features[j])
              ==> FeatureVisitor(s.features[i]) != FeatureVisitor(s.features[j])
  {
    forall i, j | 0 <= i < j < |s.features| && FeatureNameOf(s.features[i]).Some?
                  && FeatureNameOf(s.features[i]) == FeatureNameOf(s.features[j])
      ensures FeatureVisitor(s.features[i]) != FeatureVisitor(s.features[j])
    {
      assert S.FeatureKey(s.features[i]) != S.FeatureKey(s.features[j]);
    }
  }

  /** Each daily row is the aggregate of its day's group. */
  lemma DailyRowsAreGroups(s: S.Store, since: S.Time)
    ensures var r := DailyStats(s, since, true);
      var gs := DayGroups(s, since);
      var w := VisitorWindow(s, since);
      && |r| == |gs|
      && (forall i :: 0 <= i < |r| ==> r[i] == DailyRowOf(w, gs[i]))
      && (forall i :: 0 <= i < |gs| ==>
            gs[i] == GroupOf(w, FirstDay, VisitorOf, gs[i].key) && 1 <= gs[i].distinct <= gs[i].count)
      && (forall i, j :: 0 <= i < j < |gs| ==> gs[i].key > gs[j].key)
      && (forall v :: v in w ==> FirstDay(v) in GroupKeys(gs))
  {
    LaterDayPreorder();
    TopGroupsShape(VisitorWindow(s, since), FirstDay, VisitorOf, LaterDay, -1);
    DayGroupsOrder(s, since);
    DayGroupsCover(s, since);
  }

  lemma DayGroupsOrder(s: S.Store, since: S.Time)
    ensures var gs := DayGroups(s, since);
      forall i, j :: 0 <= i < j < |gs| ==> gs[i].key > gs[j].key
  {
    LaterDayPreorder();
    var gs := DayGroups(s, since);
    TopGroupsShape(VisitorWindow(s, since), FirstDay, VisitorOf, LaterDay, -1);
    forall i, j | 0 <= i < j < |gs|
      ensures gs[i].key > gs[j].key
    {
      assert LaterDay(gs[i], gs[j]);
      assert GroupKeys(gs)[i] != GroupKeys(gs)[j];
    }
  }

  lemma DayGroupsCover(s: S.Store, since: S.Time)
    ensures forall v :: v in VisitorWindow(s, since) ==> FirstDay(v) in GroupKeys(DayGroups(s, since))
  {
    LaterDayPreorder();
    var w := VisitorWindow(s, since);
    var gs := DayGroups(s, since);
    TopGroupsShape(w, FirstDay, VisitorOf, LaterDay, -1);
    forall v | v in w
      ensures FirstDay(v) in GroupKeys(gs)
    {
      var k :| 0 <= k < |w| && w[k] == v;
      assert FirstDay(w[k]) in GroupKeys(gs);
    }
  }

  /** Daily stats list each day with first visits in the window once, the
      latest day first. */
  lemma DailyStatsOrder(s: S.Store, since: S.Time)
    ensures var r := DailyStats(s, since, true);
      && (forall i, j :: 0 <= i < j < |r| ==> r[i].date > r[j].date)
      && (forall v :: v in VisitorWindow(s, since) ==> exists i :: 0 <= i < |r| && r[i].date == Day(v.firstVisit))
  {
    DayGroupsOrder(s, since);
    DayGroupsCover(s, since);
    DailyDates(s, since);
    var gs := DayGroups(s, since);
    var r := DailyStats(s, since, true);
    forall v | v in VisitorWindow(s, since)
      ensures exists i :: 0 <= i < |r| && r[i].date == Day(v.firstVisit)
    {
      var i :| 0 <= i < |gs| && GroupKeys(gs)[i] == FirstDay(v);
      assert r[i].date == gs[i].key;
    }
  }

  /** The daily rows are dated by their groups' days. */
  lemma DailyDates(s: S.Store, since: S.Time)
    ensures var r := DailyStats(s, since, true);
      var gs := DayGroups(s, since);
      |r| == |gs| && forall i :: 0 <= i < |r| ==> r[i].date == gs[i].key
  {
  }

  /** Each day counts its distinct visitors, their visits and its human
      visitors, with no more of either kind than the day has rows. */
  lemma DailyStatsCounts(s: S.Store, since: S.Time)
    ensures var r := DailyStats(s, since, true);
      var w := VisitorWindow(s, since);
      forall i :: 0 <= i < |r| ==>
        && 1 <= r[i].uniqueVisitors <= CountKey(w, FirstDay, r[i].date)
        && r[i].uniqueVisitors == |Who(w, FirstDay, VisitorOf, r[i].date)|
        && r[i].humanVisitors <= CountKey(w, FirstDay, r[i].date)
        && r[i].totalVisits == SumKey(w, FirstDay, TotalVisitsOf, r[i].date)
  {
    DailyRowsAreGroups(s, since);
    var w := VisitorWindow(s, since);
    var gs := DayGroups(s, since);
    var r := DailyStats(s, since, true);
    forall i | 0 <= i < |r|
      ensures r[i].humanVisitors <= CountKey(w, FirstDay, r[i].date)
    {
      HumansAmongVisitors(w, gs[i].key);
    }
  }

  /** The human visitors of a day are among its visitors. */
  lemma {:induction false} HumansAmongVisitors(vs: seq<S.Visitor>, day: nat)
    ensures CountKey(Where(vs, IsHuman), FirstDay, day) <= CountKey(vs, FirstDay, day)
  {
    if vs != [] {
      HumansAmongVisitors(vs[1..], day);
      var rest := Where(vs[1..], IsHuman);
      if IsHuman(vs[0]) {
        assert Where(vs, IsHuman) == [vs[0]] + rest;
        assert ([vs[0]] + rest)[1..] == rest;
      } else {
        assert Where(vs, IsHuman) == rest;
      }
    }
  }
}

=== FILE: AnalyticsStore.dfy ===
/** The analytics ingestion store: the visitor resolver keyed by session id,
    the feature-usage upsert keyed by (visitor, feature), the append-only
    page-view, event and conversion logs, the request middleware that drives
    them, and the bot and page-title classifiers.

    Each table is a sequence of rows. `uuidv4` is a fresh-id oracle: the
    counter `nextId` is larger than every id in the store. A failing store
    statement is an `up = false` argument; every operation swallows it, so
    none has an error outcome. Time is the abstract instant `now`, which is
    what `CURRENT_TIMESTAMP` and the schema's timestamp defaults write. */
module AnalyticsStore {
  import opened Js
  import opened Text
  import Json
  import Rows

  type Id = nat
  type Time = nat

  datatype Visitor = Visitor(
    id: Id, sessionId: string, ipAddress: Option<string>, userAgent: string,
    referrer: string, landingPage: string, isBot: bool,
    firstVisit: Time, lastVisit: Time, totalVisits: nat)

  datatype PageView = PageView(
    id: Id, visitorId: Id, sessionId: string, pageUrl: string, pageTitle: string, timestamp: Time)

  /** A user event; `None` is SQL `NULL`, which is also what a field the
      request leaves out binds as. */
  datatype UserEvent = UserEvent(
    id: Id, visitorId: Id, sessionId: string, eventType: Option<string>,
    eventCategory: Option<string>, eventAction: Option<string>, eventLabel: Option<string>,
    eventValue: Option<int>, pageUrl: Option<string>, metadata: Option<string>, timestamp: Time)

  datatype Conversion = Conversion(
    id: Id, visitorId: Id, sessionId: string, funnelStep: Option<string>,
    workspaceId: Option<string>, timestamp: Time)

  datatype FeatureUsage = FeatureUsage(
    id: Id, visitorId: Id, featureName: Option<string>, usageCount: nat, lastUsed: Time)

  datatype Store = Store(
    visitors: seq<Visitor>, pageViews: seq<PageView>, events: seq<UserEvent>,
    conversions: seq<Conversion>, features: seq<FeatureUsage>, nextId: Id)

  // Row keys, as function values for the generic predicates below.
  function VisitorId(v: Visitor): Id { v.id }
  function VisitorSession(v: Visitor): string { v.sessionId }
  function PageViewId(p: PageView): Id { p.id }
  function EventId(e: UserEvent): Id { e.id }
  function ConversionId(c: Conversion): Id { c.id }
  function FeatureId(f: FeatureUsage): Id { f.id }

  /** The slot a feature-usage row fills: a named feature's row is the
      visitor's one row for that name, while a row without a name (a `NULL`
      that no lookup matches) stands alone under its id. */
  datatype FeatureSlot = Named(visitor: Id, name: string) | Unnamed(id: Id)

  function FeatureKey(f: FeatureUsage): FeatureSlot
  {
    match f.featureName
    case Some(name) => Named(f.visitorId, name)
    case None => Unnamed(f.id)
  }

  /** The store invariant: primary keys are unique and already issued, one
      visitor per session id and one feature-usage row per (visitor, named
      feature). */
  predicate Valid(s: Store)
  {
    && Rows.Keyed(s.visitors, VisitorId, s.nextId)
    && Rows.UniqueBy(s.visitors, VisitorSession)
    && Rows.Keyed(s.pageViews, PageViewId, s.nextId)
    && Rows.Keyed(s.events, EventId, s.nextId)
    && Rows.Keyed(s.conversions, ConversionId, s.nextId)
    && Rows.Keyed(s.features, FeatureId, s.nextId)
    && Rows.UniqueBy(s.features, FeatureKey)
  }

  /** An id no row of the store carries. */
  predicate Unused(s: Store, id: Id)
  {
    && (forall i :: 0 <= i < |s.visitors| ==> s.visitors[i].id != id)
    && (forall i :: 0 <= i < |s.pageViews| ==> s.pageViews[i].id != id)
    && (forall i :: 0 <= i < |s.events| ==> s.events[i].id != id)
    && (forall i :: 0 <= i < |s.conversions| ==> s.conversions[i].id != id)
    && (forall i :: 0 <= i < |s.features| ==> s.features[i].id != id)
  }

  lemma NextIdUnused(s: Store)
    requires Valid(s)
    ensures Unused(s, s.nextId)
  {
  }

  /** Same tables; the oracle may have moved on. */
  predicate SameTables(s: Store, t: Store)
  {
    s.(nextId := t.nextId) == t
  }

  // ---------------------------------------------------------------------
  // Classifiers
  // ---------------------------------------------------------------------

  /** The crawler patterns, in the order the classifier tries them. */
  const BotPatterns: seq<string> := [
    "bot", "crawler", "spider", "scraper", "googlebot", "bingbot",
    "facebookexternalhit", "twitterbot", "linkedinbot", "slackbot"]

  /** `patterns.some(p => p.test(ua))` for case-insensitive ASCII patterns. */
  predicate AnyMatch(ua: string, patterns: seq<string>)
  {
    |patterns| > 0 && (MatchesIgnoringCase(ua, patterns[0]) || AnyMatch(ua, patterns[1..]))
  }

  lemma {:induction false} AnyMatchIff(ua: string, patterns: seq<string>)
    ensures AnyMatch(ua, patterns) <==> exists i :: 0 <= i < |patterns| && MatchesIgnoringCase(ua, patterns[i])
  {
    if |patterns| > 0 {
      AnyMatchIff(ua, patterns[1..]);
      if !MatchesIgnoringCase(ua, patterns[0]) && AnyMatch(ua, patterns) {
        var i :| 0 <= i < |patterns[1..]| && MatchesIgnoringCase(ua, patterns[1..][i]);
        assert MatchesIgnoringCase(ua, patterns[i + 1]);
      }
      if exists i :: 0 <= i < |patterns| && MatchesIgnoringCase(ua, patterns[i]) {
        var i :| 0 <= i < |patterns| && MatchesIgnoringCase(ua, patterns[i]);
        if i > 0 {
          assert patterns[1..][i - 1] == patterns[i];
        }
      }
    }
  }

  /** Whether a user-agent string belongs to a crawler. */
  predicate IsBot(ua: string)
  {
    AnyMatch(ua, BotPatterns)
  }

  /** The five patterns that are not themselves matched by another one. */
  predicate MatchesCorePattern(ua: string)
  {
    || MatchesIgnoringCase(ua, "bot")
    || MatchesIgnoringCase(ua, "crawler")
    || MatchesIgnoringCase(ua, "spider")
    || MatchesIgnoringCase(ua, "scraper")
    || MatchesIgnoringCase(ua, "facebookexternalhit")
  }

  /** A pattern that ends in "bot" can only match where "bot" matches. */
  lemma BotSuffixSubsumed(ua: string, name: string)
    requires |name| >= 3 && name[|name| - 3..] == "bot"
    requires MatchesIgnoringCase(ua, name)
    ensures MatchesIgnoringCase(ua, "bot")
  {
    OccursContains(name, "bot", |name| - 3);
    ContainsTransitive(LowerAscii(ua), name, "bot");
  }

  /** The named crawlers add nothing: the classifier is the five core patterns. */
  lemma IsBotIffCorePattern(ua: string)
    ensures IsBot(ua) <==> MatchesCorePattern(ua)
  {
    AnyMatchIff(ua, BotPatterns);
    if IsBot(ua) && !MatchesCorePattern(ua) {
      var i :| 0 <= i < |BotPatterns| && MatchesIgnoringCase(ua, BotPatterns[i]);
      assert i in {4, 5, 7, 8, 9};
      BotSuffixSubsumed(ua, BotPatterns[i]);
      assert false;
    }
    if MatchesIgnoringCase(ua, "bot") {
      assert MatchesIgnoringCase(ua, BotPatterns[0]);
    } else if MatchesIgnoringCase(ua, "crawler") {
      assert MatchesIgnoringCase(ua, BotPatterns[1]);
    } else if MatchesIgnoringCase(ua, "spider") {
      assert MatchesIgnoringCase(ua, BotPatterns[2]);
    } else if MatchesIgnoringCase(ua, "scraper") {
      assert MatchesIgnoringCase(ua, BotPatterns[3]);
    } else if MatchesIgnoringCase(ua, "facebookexternalhit") {
      assert MatchesIgnoringCase(ua, BotPatterns[6]);
    }
  }

  /** A missing user agent is stored as "" and is never a crawler. */
  lemma EmptyAgentIsHuman()
    ensures !IsBot("")
  {
    AnyMatchIff("", BotPatterns);
    forall i | 0 <= i < |BotPatterns|
      ensures !MatchesIgnoringCase("", BotPatterns[i])
    {
      EmptyContainsNothing(BotPatterns[i]);
    }
  }

  /** "Googlebot" is a crawler whatever its case. */
  lemma GooglebotIsBot()
    ensures IsBot("Mozilla/5.0 (compatible; Googlebot/2.1)")
  {
    var ua := "Mozilla/5.0 (compatible; Googlebot/2.1)";
    OccursContains(LowerAscii(ua), "bot", 31);
  }

  /** A page title, looked up by the exact request URL (query string included). */
  const PageTitles: map<string, string> := map[
    "/" := "Home",
    "/calculator" := "Equity Calculator",
    "/report" := "Equity Report",
    "/dashboard" := "Analytics Dashboard"]

  function PageTitle(url: string): (title: string)
    ensures url in PageTitles ==> title == PageTitles[url]
    ensures title == "Unknown Page" <==> url !in {"/", "/calculator", "/report", "/dashboard"}
  {
    if url in PageTitles then PageTitles[url] else "Unknown Page"
  }

  lemma PageTitleNeedsExactUrl()
    ensures PageTitle("/calculator?ref=home") == "Unknown Page"
    ensures PageTitle("/calculator") == "Equity Calculator"
  {
  }

  // ---------------------------------------------------------------------
  // Visitor resolver
  // ---------------------------------------------------------------------

  /** The position of the visitor row for a session, if any. */
  function FindSession(vs: seq<Visitor>, sessionId: string): (r: Option<nat>)
    ensures r.Some? ==> r.value < |vs| && vs[r.value].sessionId == sessionId
    ensures r.None? <==> forall i :: 0 <= i < |vs| ==> vs[i].sessionId != sessionId
  {
    if |vs| == 0 then None
    else if vs[0].sessionId == sessionId then Some(0)
    else match FindSession(vs[1..], sessionId)
      case None => None
      case Some(i) => Some(i + 1)
  }

  /** The re-observation update, applied to every row with that id. */
  function Revisit(vs: seq<Visitor>, id: Id, now: Time): (r: seq<Visitor>)
    ensures |r| == |vs|
    ensures forall i :: 0 <= i < |vs| ==>
      r[i] == if vs[i].id == id then vs[i].(lastVisit := now, totalVisits := vs[i].totalVisits + 1) else vs[i]
  {
    seq(|vs|, i requires 0 <= i < |vs| =>
      if vs[i].id == id then vs[i].(lastVisit := now, totalVisits := vs[i].totalVisits + 1) else vs[i])
  }

  datatype Resolved = Resolved(store: Store, visitorId: Id)

  /** Maps a session to its durable visitor id, creating the visitor on first
      sight. On failure it returns an unpersisted fresh id. */
  function GetOrCreateVisitor(s: Store, sessionId: string, ip: Option<string>, userAgent: string,
                              referrer: string, landingPage: string, now: Time, up: bool): (r: Resolved)
    ensures r.store.nextId >= s.nextId
  {
    if !up then
      Resolved(s.(nextId := s.nextId + 1), s.nextId)
    else match FindSession(s.visitors, sessionId)
      case Some(i) =>
        var id := s.visitors[i].id;
        Resolved(s.(visitors := Revisit(s.visitors, id, now)), id)
      case None =>
        var v := Visitor(s.nextId, sessionId, ip, userAgent, referrer, landingPage,
                         IsBot(userAgent), now, now, 1);
        Resolved(s.(visitors := s.visitors + [v], nextId := s.nextId + 1), s.nextId)
  }

  /** A known session: its id comes back, its counter goes up by exactly one,
      its identity fields stay, and no other row or table changes. */
  lemma ResolveKnownSession(s: Store, sessionId: string, ip: Option<string>, userAgent: string,
                            referrer: string, landingPage: string, now: Time, i: nat)
    requires Valid(s)
    requires i < |s.visitors| && s.visitors[i].sessionId == sessionId
    ensures var r := GetOrCreateVisitor(s, sessionId, ip, userAgent, referrer, landingPage, now, true);
      && r.visitorId == s.visitors[i].id
      && |r.store.visitors| == |s.visitors|
      && r.store.visitors[i].totalVisits == s.visitors[i].totalVisits + 1
      && r.store.visitors[i].lastVisit == now
      && r.store.visitors[i].(lastVisit := s.visitors[i].lastVisit, totalVisits := s.visitors[i].totalVisits)
           == s.visitors[i]
      && (forall j :: 0 <= j < |s.visitors| && j != i ==> r.store.visitors[j] == s.visitors[j])
      && r.store == s.(visitors := r.store.visitors)
  {
    var k := FindSession(s.visitors, sessionId);
    Rows.UniqueKeyPosition(s.visitors, VisitorSession, k.value, i);
    forall j | 0 <= j < |s.visitors| && j != i
      ensures s.visitors[j].id != s.visitors[i].id
    {
      if j < i {
        assert VisitorId(s.visitors[j]) != VisitorId(s.visitors[i]);
      } else {
        assert VisitorId(s.visitors[i]) != VisitorId(s.visitors[j]);
      }
    }
  }

  /** An unseen session: exactly one visitor is appended, carrying a fresh id,
      the request's attributes, the crawler verdict and a count of one. */
  lemma ResolveNewSession(s: Store, sessionId: string, ip: Option<string>, userAgent: string,
                          referrer: string, landingPage: string, now: Time)
    requires Valid(s)
    requires forall i :: 0 <= i < |s.visitors| ==> s.visitors[i].sessionId != sessionId
    ensures var r := GetOrCreateVisitor(s, sessionId, ip, userAgent, referrer, landingPage, now, true);
      && Unused(s, r.visitorId)
      && r.store.visitors == s.visitors + [Visitor(r.visitorId, sessionId, ip, userAgent, referrer,
                                                    landingPage, IsBot(userAgent), now, now, 1)]
      && SameTables(s.(visitors := r.store.visitors), r.store)
  {
    NextIdUnused(s);
  }

  /** A failing store: the caller still gets an id no row carries, and no
      table changes. */
  lemma ResolveFailSoft(s: Store, sessionId: string, ip: Option<string>, userAgent: string,
                        referrer: string, landingPage: string, now: Time)
    requires Valid(s)
    ensures var r := GetOrCreateVisitor(s, sessionId, ip, userAgent, referrer, landingPage, now, false);
      && Unused(r.store, r.visitorId)
      && SameTables(s, r.store)
      && Valid(r.store)
  {
    NextIdUnused(s);
  }

  lemma ResolvePreservesValid(s: Store, sessionId: string, ip: Option<string>, userAgent: string,
                              referrer: string, landingPage: string, now: Time, up: bool)
    requires Valid(s)
    ensures Valid(GetOrCreateVisitor(s, sessionId, ip, userAgent, referrer, landingPage, now, up).store)
  {
    var r := GetOrCreateVisitor(s, sessionId, ip, userAgent, referrer, landingPage, now, up);
    if up && FindSession(s.visitors, sessionId).Some? {
      var vs := r.store.visitors;
      assert forall i :: 0 <= i < |vs| ==>
        VisitorId(vs[i]) == VisitorId(s.visitors[i]) && VisitorSession(vs[i]) == VisitorSession(s.visitors[i]);
    }
  }

  /** Two requests of the same session resolve to the same visitor and leave
      one row for it. */
  lemma ResolveTwiceSameVisitor(s: Store, sessionId: string, ip: Option<string>, userAgent: string,
                                referrer: string, landingPage: string, now1: Time, now2: Time)
    requires Valid(s)
    ensures var r1 := GetOrCreateVisitor(s, sessionId, ip, userAgent, referrer, landingPage, now1, true);
      var r2 := GetOrCreateVisitor(r1.store, sessionId, ip, userAgent, referrer, landingPage, now2, true);
      && r2.visitorId == r1.visitorId
      && |r2.store.visitors| == |r1.store.visitors|
      && Rows.CountKey(r2.store.visitors, VisitorSession, sessionId) == 1
  {
    var r1 := GetOrCreateVisitor(s, sessionId, ip, userAgent, referrer, landingPage, now1, true);
    ResolvePreservesValid(s, sessionId, ip, userAgent, referrer, landingPage, now1, true);
    var f := FindSession(s.visitors, sessionId);
    var i: nat := if f.Some? then f.value else |s.visitors|;
    if f.Some? {
      ResolveKnownSession(s, sessionId, ip, userAgent, referrer, landingPage, now1, i);
    }
    assert r1.store.visitors[i].sessionId == sessionId;
    assert r1.visitorId == r1.store.visitors[i].id;
    ResolveKnownSession(r1.store, sessionId, ip, userAgent, referrer, landingPage, now2, i);
    var r2 := GetOrCreateVisitor(r1.store, sessionId, ip, userAgent, referrer, landingPage, now2, true);
    ResolvePreservesValid(r1.store, sessionId, ip, userAgent, referrer, landingPage, now2, true);
    assert VisitorSession(r2.store.visitors[i]) == sessionId;
    Rows.UniqueKeyCountsOnce(r2.store.visitors, VisitorSession, i);
  }

  // ---------------------------------------------------------------------
  // Append-only logs
  // ---------------------------------------------------------------------

  function TrackPageView(s: Store, visitorId: Id, sessionId: string, pageUrl: string,
                         pageTitle: string, now: Time, up: bool): (t: Store)
    ensures t.nextId >= s.nextId
  {
    if !up then s
    else s.(pageViews := s.pageViews + [PageView(s.nextId, visitorId, sessionId, pageUrl, pageTitle, now)],
            nextId := s.nextId + 1)
  }

  /** What the event log stores for a request's `metadata`. */
  function StoredMetadata(metadata: JsValue): (r: Option<string>)
    ensures r.Some? <==> Truthy(metadata)
  {
    if Truthy(metadata) then Some(Json.Stringify(metadata)) else None
  }

  /** Stored metadata reads back as the payload it came from. */
  lemma StoredMetadataRoundTrip(metadata: JsValue)
    requires Truthy(metadata) && Json.WellFormed(metadata)
    ensures StoredMetadata(metadata).Some?
    ensures Json.Parse(StoredMetadata(metadata).value) == Some(metadata)
  {
    Json.MetadataRoundTrip(metadata);
  }

  /** The optional event fields of a request; `None` is what an omitted field
      defaults to. */
  datatype EventFields = EventFields(
    eventCategory: Option<string>, eventAction: Option<string>, eventLabel: Option<string>,
    eventValue: Option<int>, pageUrl: Option<string>, metadata: JsValue)

  /** A request that names only the event type. */
  const NoFields := EventFields(None, None, None, None, None, JUndefined)

  function TrackEvent(s: Store, visitorId: Id, sessionId: string, eventType: Option<string>,
                      fields: EventFields, now: Time, up: bool): (t: Store)
    ensures t.nextId >= s.nextId
  {
    if !up then s
    else
      var e := UserEvent(s.nextId, visitorId, sessionId, eventType, fields.eventCategory,
                         fields.eventAction, fields.eventLabel, fields.eventValue, fields.pageUrl,
                         StoredMetadata(fields.metadata), now);
      s.(events := s.events + [e], nextId := s.nextId + 1)
  }

  function TrackConversion(s: Store, visitorId: Id, sessionId: string, funnelStep: Option<string>,
                           workspaceId: Option<string>, now: Time, up: bool): (t: Store)
    ensures t.nextId >= s.nextId
  {
    if !up then s
    else s.(conversions := s.conversions + [Conversion(s.nextId, visitorId, sessionId, funnelStep, workspaceId, now)],
            nextId := s.nextId + 1)
  }

  /** A page view is one new row with a fresh id, whatever is already logged;
      a failing store changes nothing. */
  lemma PageViewAppends(s: Store, visitorId: Id, sessionId: string, pageUrl: string,
                        pageTitle: string, now: Time, up: bool)
    requires Valid(s)
    ensures var t := TrackPageView(s, visitorId, sessionId, pageUrl, pageTitle, now, up);
      && Valid(t)
      && (up ==> && |t.pageViews| == |s.pageViews| + 1 && t.pageViews[..|s.pageViews|] == s.pageViews
                 && Unused(s, t.pageViews[|s.pageViews|].id)
                 && t.pageViews[|s.pageViews|].(id := 0)
                      == PageView(0, visitorId, sessionId, pageUrl, pageTitle, now)
                 && SameTables(s.(pageViews := t.pageViews), t))
      && (!up ==> t == s)
  {
    NextIdUnused(s);
  }

  /** An event is one new row carrying the request's visitor, session, type
      and optional fields (omitted ones are `NULL`); the metadata is stored
      exactly when it is truthy, as text that reads back as the payload. */
  lemma EventAppends(s: Store, visitorId: Id, sessionId: string, eventType: Option<string>,
                     fields: EventFields, now: Time, up: bool)
    requires Valid(s)
    ensures var t := TrackEvent(s, visitorId, sessionId, eventType, fields, now, up);
      && Valid(t)
      && (up ==> && |t.events| == |s.events| + 1 && t.events[..|s.events|] == s.events
                 && Unused(s, t.events[|s.events|].id)
                 && t.events[|s.events|].(id := 0, metadata := None)
                      == UserEvent(0, visitorId, sessionId, eventType, fields.eventCategory,
                                   fields.eventAction, fields.eventLabel, fields.eventValue,
                                   fields.pageUrl, None, now)
                 && (t.events[|s.events|].metadata.Some? <==> Truthy(fields.metadata))
                 && SameTables(s.(events := t.events), t))
      && (!up ==> t == s)
  {
    NextIdUnused(s);
  }

  /** The metadata text an event stores parses back to the request's payload. */
  lemma EventMetadataReadsBack(s: Store, visitorId: Id, sessionId: string, eventType: Option<string>,
                               fields: EventFields, now: Time)
    requires Truthy(fields.metadata) && Json.WellFormed(fields.metadata)
    ensures var e := TrackEvent(s, visitorId, sessionId, eventType, fields, now, true).events[|s.events|];
      e.metadata.Some? && Json.Parse(e.metadata.value) == Some(fields.metadata)
  {
    StoredMetadataRoundTrip(fields.metadata);
  }

  /** An event with only its type stores `NULL` in every optional column. */
  lemma BareEventIsNull(s: Store, visitorId: Id, sessionId: string, eventType: Option<string>, now: Time)
    ensures var e := TrackEvent(s, visitorId, sessionId, eventType, NoFields, now, true).events[|s.events|];
      && e.eventCategory.None? && e.eventAction.None? && e.eventLabel.None?
      && e.eventValue.None? && e.pageUrl.None? && e.metadata.None?
  {
  }

  /** A conversion is one new row, even for a step the visitor already logged. */
  lemma ConversionAppends(s: Store, visitorId: Id, sessionId: string, funnelStep: Option<string>,
                          workspaceId: Option<string>, now: Time, up: bool)
    requires Valid(s)
    ensures var t := TrackConversion(s, visitorId, sessionId, funnelStep, workspaceId, now, up);
      && Valid(t)
      && (up ==> && |t.conversions| == |s.conversions| + 1 && t.conversions[..|s.conversions|] == s.conversions
                 && Unused(s, t.conversions[|s.conversions|].id)
                 && t.conversions[|s.conversions|].(id := 0)
                      == Conversion(0, visitorId, sessionId, funnelStep, workspaceId, now)
                 && SameTables(s.(conversions := t.conversions), t))
      && (!up ==> t == s)
  {
    NextIdUnused(s);
  }

  // ---------------------------------------------------------------------
  // Feature-usage upsert
  // ---------------------------------------------------------------------

  /** `WHERE visitor_id = ? AND feature_name = ?`: a `NULL` name compares
      unknown with every row, so it finds none. */
  function FindFeature(fs: seq<FeatureUsage>, visitorId: Id, featureName: Option<string>): (r: Option<nat>)
    ensures r.Some? ==> featureName.Some? && r.value < |fs| && FeatureKey(fs[r.value]) == Named(visitorId, featureName.value)
    ensures r.None? <==> featureName.None? || forall i :: 0 <= i < |fs| ==> FeatureKey(fs[i]) != Named(visitorId, featureName.value)
  {
    if |fs| == 0 then None
    else if fs[0].visitorId == visitorId && featureName.Some? && fs[0].featureName == featureName then Some(0)
    else match FindFeature(fs[1..], visitorId, featureName)
      case None => None
      case Some(i) => Some(i + 1)
  }

  /** The usage update, applied to every row with that id. */
  function Reuse(fs: seq<FeatureUsage>, id: Id, now: Time): (r: seq<FeatureUsage>)
    ensures |r| == |fs|
    ensures forall i :: 0 <= i < |fs| ==>
      r[i] == if fs[i].id == id then fs[i].(usageCount := fs[i].usageCount + 1, lastUsed := now) else fs[i]
  {
    seq(|fs|, i requires 0 <= i < |fs| =>
      if fs[i].id == id then fs[i].(usageCount := fs[i].usageCount + 1, lastUsed := now) else fs[i])
  }

  function TrackFeatureUsage(s: Store, visitorId: Id, featureName: Option<string>, now: Time, up: bool): (t: Store)
    ensures t.nextId >= s.nextId
  {
    if !up then s
    else match FindFeature(s.features, visitorId, featureName)
      case Some(i) => s.(features := Reuse(s.features, s.features[i].id, now))
      case None =>
        s.(features := s.features + [FeatureUsage(s.nextId, visitorId, featureName, 1, now)],
           nextId := s.nextId + 1)
  }

  /** The usage count recorded for a visitor's named feature; 0 when absent. */
  function UsageCount(fs: seq<FeatureUsage>, visitorId: Id, name: string): nat
  {
    match FindFeature(fs, visitorId, Some(name))
    case Some(i) => fs[i].usageCount
    case None => 0
  }

  /** The upsert preserves the store invariant. */
  lemma FeatureUsagePreservesValid(s: Store, visitorId: Id, featureName: Option<string>, now: Time, up: bool)
    requires Valid(s)
    ensures Valid(TrackFeatureUsage(s, visitorId, featureName, now, up))
  {
    var t := TrackFeatureUsage(s, visitorId, featureName, now, up);
    if up {
      if FindFeature(s.features, visitorId, featureName).Some? {
        assert forall i :: 0 <= i < |t.features| ==>
          FeatureId(t.features[i]) == FeatureId(s.features[i]) && FeatureKey(t.features[i]) == FeatureKey(s.features[i]);
      } else {
        assert forall i :: 0 <= i < |s.features| ==> FeatureId(s.features[i]) < s.nextId;
      }
    }
  }

  /** An existing (visitor, name) row gains one use in its own row; every
      other row and table stays as it was. */
  lemma FeatureUsageExisting(s: Store, visitorId: Id, name: string, now: Time, i: nat)
    requires Valid(s)
    requires i < |s.features| && FeatureKey(s.features[i]) == Named(visitorId, name)
    ensures var t := TrackFeatureUsage(s, visitorId, Some(name), now, true);
      && |t.features| == |s.features|
      && t.features[i] == s.features[i].(usageCount := s.features[i].usageCount + 1, lastUsed := now)
      && (forall j :: 0 <= j < |s.features| && j != i ==> t.features[j] == s.features[j])
      && t == s.(features := t.features)
  {
    var k := FindFeature(s.features, visitorId, Some(name));
    Rows.UniqueKeyPosition(s.features, FeatureKey, k.value, i);
    forall j | 0 <= j < |s.features| && j != i
      ensures s.features[j].id != s.features[i].id
    {
      if j < i {
        assert FeatureId(s.features[j]) != FeatureId(s.features[i]);
      } else {
        assert FeatureId(s.features[i]) != FeatureId(s.features[j]);
      }
    }
  }

  /** A name the visitor has no row for, or no name at all, gets exactly one
      new row, with a fresh id and one use. */
  lemma FeatureUsageNew(s: Store, visitorId: Id, featureName: Option<string>, now: Time)
    requires Valid(s)
    requires featureName.Some? ==> forall i :: 0 <= i < |s.features| ==> FeatureKey(s.features[i]) != Named(visitorId, featureName.value)
    ensures var t := TrackFeatureUsage(s, visitorId, featureName, now, true);
      && t.features == s.features + [FeatureUsage(s.nextId, visitorId, featureName, 1, now)]
      && Unused(s, s.nextId)
      && SameTables(s.(features := t.features), t)
  {
    NextIdUnused(s);
  }

  /** A stored use of a named feature adds exactly one to its count; a
      failed one leaves the count as it was. */
  lemma FeatureUsageCountStep(s: Store, visitorId: Id, name: string, now: Time, up: bool)
    requires Valid(s)
    ensures var t := TrackFeatureUsage(s, visitorId, Some(name), now, up);
      UsageCount(t.features, visitorId, name)
        == UsageCount(s.features, visitorId, name) + (if up then 1 else 0)
  {
    var t := TrackFeatureUsage(s, visitorId, Some(name), now, up);
    if up {
      match FindFeature(s.features, visitorId, Some(name))
      case Some(i) => {
        FeatureUsageExisting(s, visitorId, name, now, i);
        FeatureUsagePreservesValid(s, visitorId, Some(name), now, up);
        var k := FindFeature(t.features, visitorId, Some(name));
        Rows.UniqueKeyPosition(t.features, FeatureKey, k.value, i);
      }
      case None => {
        var n := |s.features|;
        assert FeatureKey(t.features[n]) == Named(visitorId, name);
        assert t.features[..n] == s.features;
      }
    }
  }

  /** `n` successful uses of the same feature by the same visitor. */
  function UseRepeatedly(s: Store, visitorId: Id, featureName: Option<string>, now: Time, n: nat): (t: Store)
    ensures t.nextId >= s.nextId
  {
    if n == 0 then s
    else TrackFeatureUsage(UseRepeatedly(s, visitorId, featureName, now, n - 1), visitorId, featureName, now, true)
  }

  /** Starting from no row for a named feature, `n` uses leave exactly one
      row for it, with usage count `n`; `n` uses without a name leave `n`
      new rows of one use each. Either way the store stays valid. */
  lemma UseRepeatedlyCounts(s: Store, visitorId: Id, featureName: Option<string>, now: Time, n: nat)
    requires Valid(s)
    requires featureName.Some? ==> forall i :: 0 <= i < |s.features| ==> FeatureKey(s.features[i]) != Named(visitorId, featureName.value)
    ensures var t := UseRepeatedly(s, visitorId, featureName, now, n);
      && Valid(t)
      && (featureName.Some? ==>
            && UsageCount(t.features, visitorId, featureName.value) == n
            && Rows.CountKey(t.features, FeatureKey, Named(visitorId, featureName.value)) == (if n == 0 then 0 else 1))
      && (featureName.None? ==> t.features == s.features + UnnamedRows(visitorId, s.nextId, n, now))
  {
    match featureName
    case Some(name) => NamedUsesCount(s, visitorId, name, now, n);
    case None => UnnamedUsesAlwaysInsert(s, visitorId, now, n);
  }

  lemma {:induction false} NamedUsesCount(s: Store, visitorId: Id, name: string, now: Time, n: nat)
    requires Valid(s)
    requires forall i :: 0 <= i < |s.features| ==> FeatureKey(s.features[i]) != Named(visitorId, name)
    ensures var t := UseRepeatedly(s, visitorId, Some(name), now, n);
      && Valid(t)
      && UsageCount(t.features, visitorId, name) == n
      && Rows.CountKey(t.features, FeatureKey, Named(visitorId, name)) == (if n == 0 then 0 else 1)
  {
    if n == 0 {
      Rows.KeyAbsentCountsZero(s.features, FeatureKey, Named(visitorId, name));
    } else {
      NamedUsesCount(s, visitorId, name, now, n - 1);
      UseOnceMore(UseRepeatedly(s, visitorId, Some(name), now, n - 1), visitorId, name, now);
    }
  }

  /** `n` unnamed rows of one use each, with consecutive ids from `first`. */
  function UnnamedRows(visitorId: Id, first: Id, n: nat, now: Time): (r: seq<FeatureUsage>)
    ensures |r| == n
    ensures forall k :: 0 <= k < n ==> r[k] == FeatureUsage(first + k, visitorId, None, 1, now)
  {
    if n == 0 then [] else UnnamedRows(visitorId, first, n - 1, now) + [FeatureUsage(first + n - 1, visitorId, None, 1, now)]
  }

  /** Without a name no use finds an earlier row: each one inserts a row of
      its own, with the next fresh id and one use, and keeps the store valid. */
  lemma {:induction false} UnnamedUsesAlwaysInsert(s: Store, visitorId: Id, now: Time, n: nat)
    ensures var t := UseRepeatedly(s, visitorId, None, now, n);
      && t.features == s.features + UnnamedRows(visitorId, s.nextId, n, now)
      && t == s.(features := t.features, nextId := s.nextId + n)
      && (Valid(s) ==> Valid(t))
  {
    if n > 0 {
      var p := UseRepeatedly(s, visitorId, None, now, n - 1);
      UnnamedUsesAlwaysInsert(s, visitorId, now, n - 1);
      if Valid(s) {
        FeatureUsagePreservesValid(p, visitorId, None, now, true);
      }
      assert s.features + UnnamedRows(visitorId, s.nextId, n, now)
          == (s.features + UnnamedRows(visitorId, s.nextId, n - 1, now)) + [FeatureUsage(s.nextId + (n - 1), visitorId, None, 1, now)];
    }
  }

  /** One more use of a named feature keeps the store valid, adds one to the
      count and leaves the pair with exactly one row. */
  lemma UseOnceMore(p: Store, visitorId: Id, name: string, now: Time)
    requires Valid(p)
    ensures var t := TrackFeatureUsage(p, visitorId, Some(name), now, true);
      && Valid(t)
      && UsageCount(t.features, visitorId, name) == UsageCount(p.features, visitorId, name) + 1
      && Rows.CountKey(t.features, FeatureKey, Named(visitorId, name)) == 1
  {
    FeatureUsagePreservesValid(p, visitorId, Some(name), now, true);
    FeatureUsageCountStep(p, visitorId, name, now, true);
    var t := TrackFeatureUsage(p, visitorId, Some(name), now, true);
    var k := FindFeature(t.features, visitorId, Some(name));
    assert k.Some?;
    Rows.UniqueKeyCountsOnce(t.features, FeatureKey, k.value);
  }

  // ---------------------------------------------------------------------
  // Request middleware
  // ---------------------------------------------------------------------

  /** What the middleware reads from a request. Header values are `None`
      when the header is absent. */
  datatype Request = Request(
    verb: string, originalUrl: string, sessionId: string,
    ip: Option<string>, remoteAddress: Option<string>, forwardedFor: Option<string>,
    userAgent: Option<string>, referer: Option<string>)

  /** `req.ip || req.connection.remoteAddress || req.headers['x-forwarded-for']`. */
  function ClientIp(req: Request): (r: Option<string>)
    ensures r.Some? && r.value != "" ==>
      r == req.ip || r == req.remoteAddress || r == req.forwardedFor
    ensures req.ip.Some? && req.ip.value != "" ==> r == req.ip
    ensures r.None? || r.value == "" ==> r == req.forwardedFor
  {
    if req.ip.Some? && req.ip.value != "" then req.ip
    else if req.remoteAddress.Some? && req.remoteAddress.value != "" then req.remoteAddress
    else req.forwardedFor
  }

  /** Navigational requests: GETs outside the API prefix. */
  predicate RecordsPageView(req: Request)
  {
    req.verb == "GET" && !("/api/" <= req.originalUrl)
  }

  datatype Handled = Handled(store: Store, visitorId: Id)

  /** The middleware: resolve the visitor, then record a page view for a
      navigational request. Both steps swallow failures, so the request always
      proceeds to the next handler with a visitor id attached. */
  function Middleware(s: Store, req: Request, now: Time, visitorUp: bool, pageViewUp: bool): (h: Handled)
    ensures h.store.nextId >= s.nextId
  {
    var r := GetOrCreateVisitor(s, req.sessionId, ClientIp(req), StrOr(req.userAgent, ""),
                                StrOr(req.referer, ""), req.originalUrl, now, visitorUp);
    var t := if RecordsPageView(req)
             then TrackPageView(r.store, r.visitorId, req.sessionId, req.originalUrl,
                                PageTitle(req.originalUrl), now, pageViewUp)
             else r.store;
    Handled(t, r.visitorId)
  }

  /** A page view is logged iff the request is a navigational GET and the store
      accepts it; the logged row carries the resolved visitor, the URL and its
      title. The invariant holds afterwards in every case. */
  lemma MiddlewarePageViewRule(s: Store, req: Request, now: Time, visitorUp: bool, pageViewUp: bool)
    requires Valid(s)
    ensures var h := Middleware(s, req, now, visitorUp, pageViewUp);
      && Valid(h.store)
      && |h.store.pageViews| == |s.pageViews| + (if RecordsPageView(req) && pageViewUp then 1 else 0)
      && h.store.pageViews[..|s.pageViews|] == s.pageViews
      && (RecordsPageView(req) && pageViewUp ==>
            var p := h.store.pageViews[|s.pageViews|];
            p.visitorId == h.visitorId && p.pageUrl == req.originalUrl
            && p.pageTitle == PageTitle(req.originalUrl) && p.timestamp == now)
  {
    var ua, ref := StrOr(req.userAgent, ""), StrOr(req.referer, "");
    ResolvePreservesValid(s, req.sessionId, ClientIp(req), ua, ref, req.originalUrl, now, visitorUp);
    var r := GetOrCreateVisitor(s, req.sessionId, ClientIp(req), ua, ref, req.originalUrl, now, visitorUp);
    PageViewAppends(r.store, r.visitorId, req.sessionId, req.originalUrl, PageTitle(req.originalUrl), now, pageViewUp);
  }

  /** The visitor the middleware attaches, on every path of the resolver: a
      stored session gets its own visitor back with one more visit; an
      unseen session gets a fresh visitor built from the request, with a
      missing user agent or referrer read as "" and the URL as landing page;
      a failing store still yields an id no row carries, and no visitor row
      changes. */
  lemma MiddlewareResolvesVisitor(s: Store, req: Request, now: Time, visitorUp: bool, pageViewUp: bool)
    requires Valid(s)
    ensures var h := Middleware(s, req, now, visitorUp, pageViewUp);
      && (visitorUp ==> forall i :: 0 <= i < |s.visitors| && s.visitors[i].sessionId == req.sessionId ==>
            && h.visitorId == s.visitors[i].id
            && |h.store.visitors| == |s.visitors|
            && h.store.visitors[i].totalVisits == s.visitors[i].totalVisits + 1)
      && (visitorUp && (forall i :: 0 <= i < |s.visitors| ==> s.visitors[i].sessionId != req.sessionId) ==>
            && Unused(s, h.visitorId)
            && h.store.visitors == s.visitors + [Visitor(h.visitorId, req.sessionId, ClientIp(req),
                 StrOr(req.userAgent, ""), StrOr(req.referer, ""), req.originalUrl,
                 IsBot(StrOr(req.userAgent, "")), now, now, 1)])
      && (!visitorUp ==> Unused(s, h.visitorId) && h.store.visitors == s.visitors)
  {
    var ip, ua, ref := ClientIp(req), StrOr(req.userAgent, ""), StrOr(req.referer, "");
    var r := GetOrCreateVisitor(s, req.sessionId, ip, ua, ref, req.originalUrl, now, visitorUp);
    var h := Middleware(s, req, now, visitorUp, pageViewUp);
    assert h.visitorId == r.visitorId && h.store.visitors == r.store.visitors;
    if visitorUp {
      forall i | 0 <= i < |s.visitors| && s.visitors[i].sessionId == req.sessionId
        ensures h.visitorId == s.visitors[i].id && |h.store.visitors| == |s.visitors|
        ensures h.store.visitors[i].totalVisits == s.visitors[i].totalVisits + 1
      {
        ResolveKnownSession(s, req.sessionId, ip, ua, ref, req.originalUrl, now, i);
      }
      if forall i :: 0 <= i < |s.visitors| ==> s.visitors[i].sessionId != req.sessionId {
        ResolveNewSession(s, req.sessionId, ip, ua, ref, req.originalUrl, now);
      }
    } else {
      ResolveFailSoft(s, req.sessionId, ip, ua, ref, req.originalUrl, now);
    }
  }

  /** API calls and non-GET requests never add a page view. */
  lemma ApiRequestsLogNoPageView(s: Store, req: Request, now: Time, visitorUp: bool, pageViewUp: bool)
    requires "/api/" <= req.originalUrl || req.verb != "GET"
    ensures Middleware(s, req, now, visitorUp, pageViewUp).store.pageViews == s.pageViews
  {
  }
}

=== FILE: EquityAnalytics.dfy ===
/** The equity reports of the analytics routes: the founder contribution
    patterns, the per-founder equity distribution, the equity split of each
    company and the histogram of equity percentages.

    Every report reads the founders of completed workspaces. A founder's
    weighted contribution counts one unit per unit of cash, 100 per unit of
    time and one per unit of assets; a founder's equity percentage is their
    share of their workspace's total, `NULL` when that total is 0.

    The reports read numeric columns, so rows here carry reals; SQLite's
    double-precision arithmetic is taken as exact. */
module EquityAnalytics {
  import opened Js
  import opened Text
  import opened Rows

  type Id = nat

  /** The workspace columns the reports read. */
  datatype WorkspaceRow = WorkspaceRow(id: Id, companyName: string, name: string, complete: bool)

  /** The founder columns the reports read. */
  datatype FounderRow = FounderRow(
    id: Id, workspaceId: Id, name: string, position: int, cash: real, time: real, assets: real)

  function FounderWorkspace(f: FounderRow): Id { f.workspaceId }
  function FounderId(f: FounderRow): Id { f.id }

  // ---------------------------------------------------------------------
  // Contributor types: the first-match CASE of the patterns report
  // ---------------------------------------------------------------------

  datatype ContributorType =
    | Triple | CashAndTime | Financial | TimeAndAssets | CashOnly | TimeHeavy | AssetsOnly | Minimal

  /** The label the report prints. */
  function Label(t: ContributorType): string
  {
    match t
    case Triple => "Triple Contributor"
    case CashAndTime => "Cash + Time Heavy"
    case Financial => "Financial Contributor"
    case TimeAndAssets => "Time + Assets"
    case CashOnly => "Cash Only"
    case TimeHeavy => "Time Heavy"
    case AssetsOnly => "Assets Only"
    case Minimal => "Minimal Contributor"
  }

  /** The CASE expression: the first branch whose test holds. */
  function Classify(cash: real, time: real, assets: real): ContributorType
  {
    if cash > 0.0 && time > 30.0 && assets > 0.0 then Triple
    else if cash > 0.0 && time > 30.0 then CashAndTime
    else if cash > 0.0 && assets > 0.0 then Financial
    else if time > 30.0 && assets > 0.0 then TimeAndAssets
    else if cash > 0.0 then CashOnly
    else if time > 30.0 then TimeHeavy
    else if assets > 0.0 then AssetsOnly
    else Minimal
  }

  /** What a founder brings, as the three tests the CASE makes: cash,
      more than 30 hours of time, assets. */
  datatype Signals = Signals(cash: bool, time: bool, assets: bool)

  function SignalsOf(cash: real, time: real, assets: real): Signals
  {
    Signals(cash > 0.0, time > 30.0, assets > 0.0)
  }

  /** The one combination of signals each type stands for. */
  function TypeSignals(t: ContributorType): Signals
  {
    match t
    case Triple => Signals(true, true, true)
    case CashAndTime => Signals(true, true, false)
    case Financial => Signals(true, false, true)
    case TimeAndAssets => Signals(false, true, true)
    case CashOnly => Signals(true, false, false)
    case TimeHeavy => Signals(false, true, false)
    case AssetsOnly => Signals(false, false, true)
    case Minimal => Signals(false, false, false)
  }

  /** No two branches of the CASE overlap once the earlier ones have
      failed: a founder gets a type exactly when their signals are the
      type's own, so the eight types split the founders by signals. */
  lemma ClassifyIff(cash: real, time: real, assets: real, t: ContributorType)
    ensures Classify(cash, time, assets) == t <==> SignalsOf(cash, time, assets) == TypeSignals(t)
  {
  }

  /** In particular a Triple Contributor is one with cash, more than 30
      hours and assets, and only such a founder is one. */
  lemma TripleIff(cash: real, time: real, assets: real)
    ensures Classify(cash, time, assets) == Triple <==> cash > 0.0 && time > 30.0 && assets > 0.0
  {
    ClassifyIff(cash, time, assets, Triple);
  }

  /** Label lengths: no two agree, which tells the labels apart. */
  function LabelLength(t: ContributorType): nat
  {
    match t
    case Triple => 18
    case CashAndTime => 17
    case Financial => 21
    case TimeAndAssets => 13
    case CashOnly => 9
    case TimeHeavy => 10
    case AssetsOnly => 11
    case Minimal => 19
  }

  /** Different types print different labels, so grouping by the label is
      grouping by the type. */
  lemma LabelInjective(t: ContributorType, u: ContributorType)
    ensures Label(t) == Label(u) ==> t == u
  {
    assert |Label(t)| == LabelLength(t) && |Label(u)| == LabelLength(u);
  }

  // ---------------------------------------------------------------------
  // Equity ranges: the bucketing CASE of the histogram report
  // ---------------------------------------------------------------------

  datatype Bucket = From90 | From70 | From50 | From30 | From10 | Below10

  function BucketLabel(b: Bucket): string
  {
    match b
    case From90 => "90-100%"
    case From70 => "70-89%"
    case From50 => "50-69%"
    case From30 => "30-49%"
    case From10 => "10-29%"
    case Below10 => "0-9%"
  }

  /** The CASE expression over an equity percentage. */
  function BucketOf(p: real): Bucket
  {
    if p >= 90.0 then From90
    else if p >= 70.0 then From70
    else if p >= 50.0 then From50
    else if p >= 30.0 then From30
    else if p >= 10.0 then From10
    else Below10
  }

  /** Buckets in ascending order of their percentages. */
  function Rank(b: Bucket): nat
  {
    match b
    case Below10 => 0
    case From10 => 1
    case From30 => 2
    case From50 => 3
    case From70 => 4
    case From90 => 5
  }

  /** The least percentage of a bucket; `Below10` takes everything under 10,
      negative values included. */
  function Lower(b: Bucket): real
  {
    match b
    case From90 => 90.0
    case From70 => 70.0
    case From50 => 50.0
    case From30 => 30.0
    case From10 => 10.0
    case Below10 => 0.0
  }

  /** The least percentage of the next bucket up. */
  function Upper(b: Bucket): real
  {
    match b
    case From90 => 0.0
    case From70 => 90.0
    case From50 => 70.0
    case From30 => 50.0
    case From10 => 30.0
    case Below10 => 10.0
  }

  /** A percentage lands in a bucket exactly when it lies between the
      bucket's bounds; the top bucket is open above and the bottom one
      below. */
  lemma BucketIff(p: real, b: Bucket)
    ensures BucketOf(p) == b <==>
      (b == Below10 || Lower(b) <= p) && (b == From90 || p < Upper(b))
  {
  }

  /** A larger percentage never lands in a lower bucket. */
  lemma BucketMonotone(p: real, q: real)
    requires p <= q
    ensures Rank(BucketOf(p)) <= Rank(BucketOf(q))
  {
  }

  /** The bucket labels differ in their first character. */
  lemma BucketLabelInjective(b: Bucket, c: Bucket)
    ensures BucketLabel(b) == BucketLabel(c) ==> b == c
  {
    assert BucketLabel(b)[0] == BucketLabel(c)[0] ==> b == c;
  }

  // ---------------------------------------------------------------------
  // ROUND and NULLIF
  // ---------------------------------------------------------------------

  function Scale(digits: nat): (p: real)
    ensures p >= 1.0
  {
    if digits == 0 then 1.0 else 10.0 * Scale(digits - 1)
  }

  /** A non-negative value to the nearest multiple of `1 / p`, halves up. */
  function HalfUp(y: real, p: real): real
    requires p >= 1.0
  {
    (y * p + 0.5).Floor as real / p
  }

  /** SQLite's `ROUND(x, digits)`: to the nearest multiple of 10^-digits,
      halves away from zero. */
  function Round(x: real, digits: nat): real
  {
    var p := Scale(digits);
    if x >= 0.0 then HalfUp(x, p) else -HalfUp(-x, p)
  }

  lemma DivideMonotone(a: real, b: real, p: real)
    requires a <= b && p > 0.0
    ensures a / p <= b / p
  {
  }

  lemma HalfUpBounds(y: real, p: real)
    requires y >= 0.0 && p >= 1.0
    ensures HalfUp(y, p) >= 0.0
    ensures y * p - 0.5 < HalfUp(y, p) * p <= y * p + 0.5
  {
    var f := (y * p + 0.5).Floor as real;
    assert y * p >= 0.0;
    assert f >= 0.0;
    assert HalfUp(y, p) * p == f;
    DivideMonotone(0.0, f, p);
  }

  lemma HalfUpMonotone(y: real, z: real, p: real)
    requires 0.0 <= y <= z && p >= 1.0
    ensures HalfUp(y, p) <= HalfUp(z, p)
  {
    assert y * p <= z * p;
    var a, b := y * p + 0.5, z * p + 0.5;
    assert a.Floor <= b.Floor;
    DivideMonotone(a.Floor as real, b.Floor as real, p);
  }

  /** Rounding moves a value by at most half a unit of the last digit, and
      keeps its sign. */
  lemma RoundIsClose(x: real, digits: nat)
    ensures var r := Round(x, digits); var p := Scale(digits);
      && (r - x) * p <= 0.5 && (x - r) * p <= 0.5
      && (x >= 0.0 ==> r >= 0.0)
      && (x <= 0.0 ==> r <= 0.0)
  {
    var p := Scale(digits);
    if x >= 0.0 {
      HalfUpBounds(x, p);
    } else {
      HalfUpBounds(-x, p);
      assert Round(x, digits) * p == -(HalfUp(-x, p) * p);
    }
  }

  /** Rounding never reverses the order of two values. */
  lemma RoundMonotone(x: real, y: real, digits: nat)
    requires x <= y
    ensures Round(x, digits) <= Round(y, digits)
  {
    var p := Scale(digits);
    if x >= 0.0 {
      HalfUpMonotone(x, y, p);
    } else if y < 0.0 {
      HalfUpMonotone(-y, -x, p);
    } else {
      HalfUpBounds(-x, p);
      HalfUpBounds(y, p);
    }
  }

  /** `100.0 * part / NULLIF(total, 0)`: `NULL` exactly when the total is 0,
      otherwise the percentage `part` makes of `total`. */
  function Share(part: real, total: real): (r: Option<real>)
    ensures r.None? <==> total == 0.0
    ensures r.Some? ==> r.value * total == 100.0 * part
  {
    if total == 0.0 then None else Some(100.0 * part / total)
  }

  function RoundShare(s: Option<real>, digits: nat): Option<real>
  {
    match s
    case None => None
    case Some(v) => Some(Round(v, digits))
  }

  // ---------------------------------------------------------------------
  // Weighted contributions
  // ---------------------------------------------------------------------

  /** `cash_invested + time_commitment*100 + assets_contributed`. */
  function Contribution(f: FounderRow): real
  {
    f.cash + 100.0 * f.time + f.assets
  }

  /** `SUM(...)` of a real column over rows. */
  function Sum<T>(xs: seq<T>, w: T -> real): real
  {
    if xs == [] then 0.0 else w(xs[0]) + Sum(xs[1..], w)
  }

  /** The founders of a workspace, in table order. */
  function Team(fs: seq<FounderRow>, wid: Id): seq<FounderRow>
  {
    Select(fs, FounderWorkspace, wid)
  }

  /** The subquery `SUM(cash_invested + time_commitment*100 + assets_contributed)`
      over the workspace's founders. */
  function TeamTotal(fs: seq<FounderRow>, wid: Id): real
  {
    Sum(Team(fs, wid), Contribution)
  }

  lemma {:induction false} SumScaled<T>(xs: seq<T>, w: T -> real, v: T -> real, c: real)
    requires forall i :: 0 <= i < |xs| ==> v(xs[i]) == c * w(xs[i])
    ensures Sum(xs, v) == c * Sum(xs, w)
  {
    if xs != [] {
      SumScaled(xs[1..], w, v, c);
    }
  }

  lemma {:induction false} SumBoundsItem<T>(xs: seq<T>, w: T -> real, i: nat)
    requires i < |xs|
    requires forall j :: 0 <= j < |xs| ==> w(xs[j]) >= 0.0
    ensures 0.0 <= w(xs[i]) <= Sum(xs, w)
  {
    SumNonNegative(xs[1..], w);
    if i > 0 {
      SumBoundsItem(xs[1..], w, i - 1);
    }
  }

  lemma {:induction false} SumNonNegative<T>(xs: seq<T>, w: T -> real)
    requires forall j :: 0 <= j < |xs| ==> w(xs[j]) >= 0.0
    ensures Sum(xs, w) >= 0.0
  {
    if xs != [] {
      SumNonNegative(xs[1..], w);
    }
  }

  /** When a workspace's total is not 0, its founders' equity percentages
      add up to exactly 100. */
  lemma SharesSumToHundred(fs: seq<FounderRow>, wid: Id)
    requires TeamTotal(fs, wid) != 0.0
    ensures Sum(Team(fs, wid), f => Share(Contribution(f), TeamTotal(fs, wid)).value) == 100.0
  {
    var total := TeamTotal(fs, wid);
    var team := Team(fs, wid);
    SumScaled(team, Contribution, f => Share(Contribution(f), total).value, 100.0 / total);
  }

  /** With no negative amounts, every founder's percentage lies between 0
      and 100. */
  lemma ShareBounded(fs: seq<FounderRow>, wid: Id, i: nat)
    requires i < |Team(fs, wid)| && TeamTotal(fs, wid) != 0.0
    requires forall j :: 0 <= j < |Team(fs, wid)| ==> Contribution(Team(fs, wid)[j]) >= 0.0
    ensures var s := Share(Contribution(Team(fs, wid)[i]), TeamTotal(fs, wid)).value;
      0.0 <= s <= 100.0
  {
    var team := Team(fs, wid);
    SumBoundsItem(team, Contribution, i);
    PercentBounded(Contribution(team[i]), TeamTotal(fs, wid), Share(Contribution(team[i]), TeamTotal(fs, wid)).value);
  }

  lemma Cancel(s: real, t: real)
    requires t != 0.0
    ensures (s * t) / t == s
  {
  }

  lemma PercentBounded(c: real, t: real, s: real)
    requires 0.0 <= c <= t && t != 0.0 && s * t == 100.0 * c
    ensures 0.0 <= s <= 100.0
  {
    Cancel(s, t);
    DivideMonotone(0.0, 100.0 * c, t);
    DivideMonotone(100.0 * c, 100.0 * t, t);
    assert 100.0 * t / t == 100.0;
  }

  // ---------------------------------------------------------------------
  // The join every report reads
  // ---------------------------------------------------------------------

  /** `FROM workspaces w JOIN founders f ON w.id = f.workspace_id WHERE
      w.is_full_questionnaire_complete = 1`: each completed workspace with
      each of its founders, workspace by workspace. */
  function Joined(ws: seq<WorkspaceRow>, fs: seq<FounderRow>): (r: seq<(WorkspaceRow, FounderRow)>)
    ensures forall i :: 0 <= i < |r| ==> r[i].0.complete && r[i].1.workspaceId == r[i].0.id
  {
    if ws == [] then []
    else
      var w := ws[0];
      var team := if w.complete then Team(fs, w.id) else [];
      seq(|team|, i requires 0 <= i < |team| => (w, team[i])) + Joined(ws[1..], fs)
  }

  /** A pair is joined exactly when the workspace is completed and the
      founder is one of its founders. */
  lemma {:induction false} JoinedIff(ws: seq<WorkspaceRow>, fs: seq<FounderRow>, w: WorkspaceRow, f: FounderRow)
    ensures (w, f) in Joined(ws, fs) <==> w in ws && w.complete && f in fs && f.workspaceId == w.id
  {
    if ws != [] {
      JoinedIff(ws[1..], fs, w, f);
      var head := ws[0];
      var team := if head.complete then Team(fs, head.id) else [];
      var pairs := seq(|team|, i requires 0 <= i < |team| => (head, team[i]));
      assert Joined(ws, fs) == pairs + Joined(ws[1..], fs);
      if head.complete {
        SelectMembers(fs, FounderWorkspace, head.id, f);
      }
      if (w, f) in pairs {
        var i :| 0 <= i < |pairs| && pairs[i] == (w, f);
        assert team[i] == f;
      }
      if w == head && w.complete && f in fs && f.workspaceId == w.id {
        var i :| 0 <= i < |team| && team[i] == f;
        assert pairs[i] == (w, f);
      }
      assert w in ws <==> w == head || w in ws[1..];
    }
  }

  // ---------------------------------------------------------------------
  // GET /founder-patterns
  // ---------------------------------------------------------------------

  function PairType(p: (WorkspaceRow, FounderRow)): ContributorType
  {
    Classify(p.1.cash, p.1.time, p.1.assets)
  }

  function PairFounder(p: (WorkspaceRow, FounderRow)): Id { p.1.id }

  /** Founders of completed workspaces counted per contributor type, most
      common type first. */
  function FounderPatterns(ws: seq<WorkspaceRow>, fs: seq<FounderRow>): seq<Group<ContributorType>>
  {
    MoreCountPreorder<ContributorType>();
    TopGroups(Joined(ws, fs), PairType, PairFounder, MoreCount, -1)
  }

  /** One row per contributor type that occurs, most founders first, each
      counting exactly the joined founders of its type; every joined founder
      is counted once, under its own type. */
  lemma FounderPatternsShape(ws: seq<WorkspaceRow>, fs: seq<FounderRow>)
    ensures var r := FounderPatterns(ws, fs);
      && SortedBy(r, MoreCount)
      && NoDup(GroupKeys(r))
      && (forall i :: 0 <= i < |r| ==> r[i].count == CountKey(Joined(ws, fs), PairType, r[i].key) && r[i].count >= 1)
      && (forall i :: 0 <= i < |Joined(ws, fs)| ==> PairType(Joined(ws, fs)[i]) in GroupKeys(r))
      && SumCounts(r) == |Joined(ws, fs)|
  {
    MoreCountPreorder<ContributorType>();
    TopGroupsShape(Joined(ws, fs), PairType, PairFounder, MoreCount, -1);
  }

  // ---------------------------------------------------------------------
  // GET /equity-distribution
  // ---------------------------------------------------------------------

  datatype DistributionRow = DistributionRow(
    companyName: string, workspaceName: string, founderName: string, position: int,
    cash: real, time: real, assets: real,
    cashShare: Option<real>, timeShare: Option<real>, assetsShare: Option<real>,
    equityShare: Option<real>)

  function Cash(f: FounderRow): real { f.cash }
  function Time(f: FounderRow): real { f.time }
  function Assets(f: FounderRow): real { f.assets }

  /** One output row: the founder's amounts, and each amount and the
      weighted contribution as a share of the workspace's sum, rounded to
      two decimals. */
  function DistributionRowOf(fs: seq<FounderRow>, p: (WorkspaceRow, FounderRow)): DistributionRow
  {
    var (w, f) := p;
    var team := Team(fs, w.id);
    DistributionRow(
      w.companyName, w.name, f.name, f.position, f.cash, f.time, f.assets,
      RoundShare(Share(f.cash, Sum(team, Cash)), 2),
      RoundShare(Share(f.time, Sum(team, Time)), 2),
      RoundShare(Share(f.assets, Sum(team, Assets)), 2),
      RoundShare(Share(Contribution(f), TeamTotal(fs, w.id)), 2))
  }

  /** `ORDER BY w.company_name, f.position`. */
  predicate CompanyThenPosition(a: DistributionRow, b: DistributionRow)
  {
    (TextLe(a.companyName, b.companyName) && a.companyName != b.companyName)
    || (a.companyName == b.companyName && a.position <= b.position)
  }

  lemma CompanyThenPositionPreorder()
    ensures TotalPreorder(CompanyThenPosition)
  {
    forall a: DistributionRow, b: DistributionRow
      ensures CompanyThenPosition(a, b) || CompanyThenPosition(b, a)
    {
      TextLeTotal(a.companyName, b.companyName);
    }
    forall a: DistributionRow, b: DistributionRow, c: DistributionRow
      | CompanyThenPosition(a, b) && CompanyThenPosition(b, c)
      ensures CompanyThenPosition(a, c)
    {
      if a.companyName != b.companyName && b.companyName != c.companyName {
        TextLeTransitive(a.companyName, b.companyName, c.companyName);
        if a.companyName == c.companyName {
          TextLeAntisymmetric(a.companyName, b.companyName);
        }
      }
    }
  }

  function DistributionRows(ws: seq<WorkspaceRow>, fs: seq<FounderRow>): (r: seq<DistributionRow>)
    ensures |r| == |Joined(ws, fs)|
    ensures forall i :: 0 <= i < |r| ==> r[i] == DistributionRowOf(fs, Joined(ws, fs)[i])
  {
    var pairs := Joined(ws, fs);
    seq(|pairs|, i requires 0 <= i < |pairs| => DistributionRowOf(fs, pairs[i]))
  }

  function EquityDistribution(ws: seq<WorkspaceRow>, fs: seq<FounderRow>): seq<DistributionRow>
  {
    CompanyThenPositionPreorder();
    SortBy(DistributionRows(ws, fs), CompanyThenPosition)
  }

  /** The report has one row per joined founder, ordered by company name and
      then position. */
  lemma EquityDistributionShape(ws: seq<WorkspaceRow>, fs: seq<FounderRow>)
    ensures var r := EquityDistribution(ws, fs);
      && SortedBy(r, CompanyThenPosition)
      && multiset(r) == multiset(DistributionRows(ws, fs))
      && |r| == |Joined(ws, fs)|
  {
  }

  /** A founder's equity percentage is `NULL` exactly when the workspace's
      weighted total is 0; otherwise it is within half a hundredth of the
      exact percentage. */
  lemma EquityShareIff(fs: seq<FounderRow>, w: WorkspaceRow, f: FounderRow)
    ensures var s := DistributionRowOf(fs, (w, f)).equityShare;
      var total := TeamTotal(fs, w.id);
      && (s.None? <==> total == 0.0)
      && (s.Some? ==> var e := 100.0 * Contribution(f) / total;
            (s.value - e) * 100.0 <= 0.5 && (e - s.value) * 100.0 <= 0.5)
  {
    var total := TeamTotal(fs, w.id);
    if total != 0.0 {
      var e := Share(Contribution(f), total).value;
      RoundIsClose(e, 2);
      assert Scale(2) == 100.0;
      Cancel(e, total);
    }
  }

  // ---------------------------------------------------------------------
  // GET /equity-splits
  // ---------------------------------------------------------------------

  datatype SplitRow = SplitRow(
    workspaceId: Id, companyName: string, workspaceName: string,
    founderCount: nat, totalContribution: real)

  /** The aggregate row of a workspace: its number of founders and the sum
      of their weighted contributions. */
  function SplitOf(fs: seq<FounderRow>, w: WorkspaceRow): SplitRow
  {
    SplitRow(w.id, w.companyName, w.name, |Team(fs, w.id)|, TeamTotal(fs, w.id))
  }

  /** `HAVING COUNT(f.id) >= 2`, over the completed workspaces. */
  predicate Split(fs: seq<FounderRow>, w: WorkspaceRow)
  {
    w.complete && |Team(fs, w.id)| >= 2
  }

  function SplitRows(ws: seq<WorkspaceRow>, fs: seq<FounderRow>): (r: seq<SplitRow>)
    ensures forall x :: x in r <==> exists w :: w in ws && Split(fs, w) && x == SplitOf(fs, w)
  {
    if ws == [] then []
    else
      var rest := SplitRows(ws[1..], fs);
      assert forall w :: w in ws <==> w == ws[0] || w in ws[1..];
      (if Split(fs, ws[0]) then [SplitOf(fs, ws[0])] else []) + rest
  }

  /** `ORDER BY founder_count DESC, total_contribution DESC`. */
  predicate MoreFounders(a: SplitRow, b: SplitRow)
  {
    a.founderCount > b.founderCount
    || (a.founderCount == b.founderCount && a.totalContribution >= b.totalContribution)
  }

  lemma MoreFoundersPreorder()
    ensures TotalPreorder(MoreFounders)
  {
  }

  function EquitySplits(ws: seq<WorkspaceRow>, fs: seq<FounderRow>): seq<SplitRow>
  {
    MoreFoundersPreorder();
    SortBy(SplitRows(ws, fs), MoreFounders)
  }

  /** `Split` as a filter over the workspaces table. */
  function Splits(fs: seq<FounderRow>): WorkspaceRow -> bool
  {
    w => Split(fs, w)
  }

  /** One split row per qualifying workspace. */
  lemma {:induction false} SplitRowsCount(ws: seq<WorkspaceRow>, fs: seq<FounderRow>)
    ensures |SplitRows(ws, fs)| == |Where(ws, Splits(fs))|
  {
    if ws != [] {
      SplitRowsCount(ws[1..], fs);
    }
  }

  /** A row appears exactly for each completed workspace with at least two
      founders, once per such workspace; it counts the workspace's founders
      and sums their weighted contributions; rows come most founders first,
      then largest total. */
  lemma EquitySplitsShape(ws: seq<WorkspaceRow>, fs: seq<FounderRow>)
    ensures var r := EquitySplits(ws, fs);
      && SortedBy(r, MoreFounders)
      && (forall x :: x in r <==> exists w :: w in ws && Split(fs, w) && x == SplitOf(fs, w))
      && |r| == |Where(ws, Splits(fs))|
      && (forall x :: x in r ==> x.founderCount >= 2 && x.founderCount == CountKey(fs, FounderWorkspace, x.workspaceId)
                                 && x.totalContribution == TeamTotal(fs, x.workspaceId))
  {
    var r := EquitySplits(ws, fs);
    MoreFoundersPreorder();
    assert multiset(r) == multiset(SplitRows(ws, fs));
    assert |r| == |multiset(r)|;
    SplitRowsCount(ws, fs);
    forall x
      ensures x in r <==> x in SplitRows(ws, fs)
    {
      assert x in r <==> x in multiset(r);
    }
  }

  // ---------------------------------------------------------------------
  // GET /equity-ranges
  // ---------------------------------------------------------------------

  /** The `equity_calcs` rows that survive `equity_percentage IS NOT NULL`:
      a positive contribution in a workspace whose total is not 0. */
  predicate Eligible(fs: seq<FounderRow>, p: (WorkspaceRow, FounderRow))
  {
    Contribution(p.1) > 0.0 && TeamTotal(fs, p.0.id) != 0.0
  }

  /** `ROUND(100.0 * contribution / NULLIF(total, 0), 1)` of an eligible founder. */
  function Percentage(fs: seq<FounderRow>, p: (WorkspaceRow, FounderRow)): real
    requires Eligible(fs, p)
  {
    Round(Share(Contribution(p.1), TeamTotal(fs, p.0.id)).value, 1)
  }

  function EligiblePairs(ws: seq<WorkspaceRow>, fs: seq<FounderRow>): seq<(WorkspaceRow, FounderRow)>
  {
    Where(Joined(ws, fs), p => Eligible(fs, p))
  }

  /** The percentages the histogram counts, one per eligible founder. */
  function EquityCalcs(ws: seq<WorkspaceRow>, fs: seq<FounderRow>): (r: seq<real>)
    ensures |r| == |EligiblePairs(ws, fs)|
    ensures forall i :: 0 <= i < |r| ==> Eligible(fs, EligiblePairs(ws, fs)[i]) && r[i] == Percentage(fs, EligiblePairs(ws, fs)[i])
  {
    var pairs := EligiblePairs(ws, fs);
    seq(|pairs|, i requires 0 <= i < |pairs| => Percentage(fs, pairs[i]))
  }

  /** Exactly the founders of completed workspaces with a positive
      contribution and a non-zero workspace total are counted. */
  lemma EligibleIff(ws: seq<WorkspaceRow>, fs: seq<FounderRow>, w: WorkspaceRow, f: FounderRow)
    ensures (w, f) in EligiblePairs(ws, fs) <==>
      w in ws && w.complete && f in fs && f.workspaceId == w.id && Contribution(f) > 0.0 && TeamTotal(fs, w.id) != 0.0
  {
    var joined := Joined(ws, fs);
    JoinedIff(ws, fs, w, f);
    var r := EligiblePairs(ws, fs);
    if (w, f) in joined && Eligible(fs, (w, f)) {
      var i :| 0 <= i < |joined| && joined[i] == (w, f);
      WhereKeeps(joined, p => Eligible(fs, p), i);
    }
    if (w, f) in r {
      assert (w, f) in multiset(r);
      assert (w, f) in multiset(joined);
      var i :| 0 <= i < |r| && r[i] == (w, f);
      assert Eligible(fs, r[i]);
    }
  }

  function Identity(x: real): real { x }

  /** `SUM(equity_percentage)` of a bucket. */
  function BucketSum(xs: seq<real>, b: Bucket): real
  {
    if xs == [] then 0.0 else (if BucketOf(xs[0]) == b then xs[0] else 0.0) + BucketSum(xs[1..], b)
  }

  /** `ROUND(AVG(equity_percentage), 1)` of a bucket that has rows. */
  function Average(xs: seq<real>, b: Bucket): real
  {
    var n := CountKey(xs, BucketOf, b);
    if n == 0 then 0.0 else Round(BucketSum(xs, b) / n as real, 1)
  }

  /** `ORDER BY avg_percentage DESC`. */
  function ByAverage(xs: seq<real>): (Group<Bucket>, Group<Bucket>) -> bool
  {
    (g: Group<Bucket>, h: Group<Bucket>) => Average(xs, g.key) >= Average(xs, h.key)
  }

  lemma ByAveragePreorder(xs: seq<real>)
    ensures TotalPreorder(ByAverage(xs))
  {
  }

  datatype RangeRow = RangeRow(range: Bucket, count: nat, average: real)

  function RangeGroups(xs: seq<real>): seq<Group<Bucket>>
  {
    ByAveragePreorder(xs);
    TopGroups(xs, BucketOf, Identity, ByAverage(xs), -1)
  }

  /** The histogram over the percentages `xs`. */
  function RangeRows(xs: seq<real>): (r: seq<RangeRow>)
    ensures var gs := RangeGroups(xs);
      |r| == |gs| && forall i :: 0 <= i < |r| ==> r[i] == RangeRow(gs[i].key, gs[i].count, Average(xs, gs[i].key))
  {
    var gs := RangeGroups(xs);
    seq(|gs|, i requires 0 <= i < |gs| => RangeRow(gs[i].key, gs[i].count, Average(xs, gs[i].key)))
  }

  function EquityRanges(ws: seq<WorkspaceRow>, fs: seq<FounderRow>): seq<RangeRow>
  {
    RangeRows(EquityCalcs(ws, fs))
  }

  function RangeTotal(rs: seq<RangeRow>): nat
  {
    if rs == [] then 0 else rs[0].count + RangeTotal(rs[1..])
  }

  lemma {:induction false} RangeTotalOfGroups(rs: seq<RangeRow>, gs: seq<Group<Bucket>>)
    requires |rs| == |gs| && forall i :: 0 <= i < |rs| ==> rs[i].count == gs[i].count
    ensures RangeTotal(rs) == SumCounts(gs)
  {
    if rs != [] {
      RangeTotalOfGroups(rs[1..], gs[1..]);
    }
  }

  /** The histogram's rows come highest average first, one per bucket. */
  lemma RangeRowsOrdered(xs: seq<real>)
    ensures var r := RangeRows(xs);
      && (forall i, j :: 0 <= i < j < |r| ==> r[i].average >= r[j].average)
      && (forall i, j :: 0 <= i < j < |r| ==> r[i].range != r[j].range)
  {
    var gs := RangeGroups(xs);
    var r := RangeRows(xs);
    ByAveragePreorder(xs);
    TopGroupsShape(xs, BucketOf, Identity, ByAverage(xs), -1);
    forall i, j | 0 <= i < j < |r|
      ensures r[i].average >= r[j].average && r[i].range != r[j].range
    {
      assert ByAverage(xs)(gs[i], gs[j]);
      assert GroupKeys(gs)[i] != GroupKeys(gs)[j];
    }
  }

  /** Each histogram row counts exactly the percentages in its bucket. */
  lemma RangeRowsCounts(xs: seq<real>)
    ensures var r := RangeRows(xs);
      forall i :: 0 <= i < |r| ==> r[i].count == CountKey(xs, BucketOf, r[i].range) && r[i].count >= 1
  {
    ByAveragePreorder(xs);
    TopGroupsShape(xs, BucketOf, Identity, ByAverage(xs), -1);
  }

  /** Every percentage's bucket has its histogram row. */
  lemma RangeRowsCover(xs: seq<real>)
    ensures var r := RangeRows(xs);
      forall i :: 0 <= i < |xs| ==> exists j :: 0 <= j < |r| && r[j].range == BucketOf(xs[i])
  {
    var gs := RangeGroups(xs);
    var r := RangeRows(xs);
    ByAveragePreorder(xs);
    TopGroupsShape(xs, BucketOf, Identity, ByAverage(xs), -1);
    forall i | 0 <= i < |xs|
      ensures exists j :: 0 <= j < |r| && r[j].range == BucketOf(xs[i])
    {
      var j :| 0 <= j < |gs| && GroupKeys(gs)[j] == BucketOf(xs[i]);
      assert r[j].range == BucketOf(xs[i]);
    }
  }

  /** The histogram's counts add up to the number of percentages. */
  lemma RangeRowsTotal(xs: seq<real>)
    ensures RangeTotal(RangeRows(xs)) == |xs|
  {
    ByAveragePreorder(xs);
    TopGroupsShape(xs, BucketOf, Identity, ByAverage(xs), -1);
    RangeTotalOfGroups(RangeRows(xs), RangeGroups(xs));
  }

  /** Each row counts its bucket, every percentage's bucket has a row, and
      the counts add up to the number of percentages. */
  lemma RangeRowsCount(xs: seq<real>)
    ensures var r := RangeRows(xs);
      && (forall i :: 0 <= i < |r| ==> r[i].count == CountKey(xs, BucketOf, r[i].range) && r[i].count >= 1)
      && (forall i :: 0 <= i < |xs| ==> exists j :: 0 <= j < |r| && r[j].range == BucketOf(xs[i]))
      && RangeTotal(r) == |xs|
  {
    RangeRowsCounts(xs);
    RangeRowsCover(xs);
    RangeRowsTotal(xs);
  }

  /** One row per bucket that has founders, highest average first. */
  lemma EquityRangesOrdered(ws: seq<WorkspaceRow>, fs: seq<FounderRow>)
    ensures var r := EquityRanges(ws, fs);
      && (forall i, j :: 0 <= i < j < |r| ==> r[i].average >= r[j].average)
      && (forall i, j :: 0 <= i < j < |r| ==> r[i].range != r[j].range)
  {
    RangeRowsOrdered(EquityCalcs(ws, fs));
  }

  /** Each row counts exactly the percentages in its bucket, every counted
      percentage's bucket has its row, and the counts add up to the number
      of eligible founders. */
  lemma EquityRangesCount(ws: seq<WorkspaceRow>, fs: seq<FounderRow>)
    ensures var r := EquityRanges(ws, fs); var xs := EquityCalcs(ws, fs);
      && (forall i :: 0 <= i < |r| ==> r[i].count == CountKey(xs, BucketOf, r[i].range) && r[i].count >= 1)
      && (forall i :: 0 <= i < |xs| ==> exists j :: 0 <= j < |r| && r[j].range == BucketOf(xs[i]))
      && RangeTotal(r) == |EligiblePairs(ws, fs)|
  {
    var xs := EquityCalcs(ws, fs);
    assert EquityRanges(ws, fs) == RangeRows(xs);
    RangeRowsCounts(xs);
    RangeRowsCover(xs);
    RangeRowsTotal(xs);
  }

  lemma {:induction false} BucketSumBounds(xs: seq<real>, b: Bucket)
    ensures b != Below10 ==> CountKey(xs, BucketOf, b) as real * Lower(b) <= BucketSum(xs, b)
    ensures b != From90 ==> BucketSum(xs, b) <= CountKey(xs, BucketOf, b) as real * Upper(b)
  {
    if xs != [] {
      BucketSumBounds(xs[1..], b);
      BucketIff(xs[0], b);
    }
  }

  /** Whole numbers are their own rounding. */
  lemma RoundWhole(v: real)
    requires v >= 0.0 && v == v.Floor as real
    ensures Round(v, 1) == v
  {
    assert Scale(1) == 10.0;
    assert (v * 10.0 + 0.5).Floor == v.Floor * 10;
  }

  lemma MeanAtLeast(sum: real, n: real, lo: real)
    requires n > 0.0 && lo * n <= sum
    ensures lo <= sum / n
  {
    DivideMonotone(lo * n, sum, n);
    Cancel(lo, n);
  }

  lemma MeanAtMost(sum: real, n: real, hi: real)
    requires n > 0.0 && sum <= hi * n
    ensures sum / n <= hi
  {
    DivideMonotone(sum, hi * n, n);
    Cancel(hi, n);
  }

  lemma RoundedMeanAtLeast(sum: real, n: real, lo: real)
    requires n > 0.0 && lo * n <= sum
    requires lo >= 0.0 && lo == lo.Floor as real
    ensures lo <= Round(sum / n, 1)
  {
    MeanAtLeast(sum, n, lo);
    RoundMonotone(lo, sum / n, 1);
    RoundWhole(lo);
  }

  lemma RoundedMeanAtMost(sum: real, n: real, hi: real)
    requires n > 0.0 && sum <= hi * n
    requires hi >= 0.0 && hi == hi.Floor as real
    ensures Round(sum / n, 1) <= hi
  {
    MeanAtMost(sum, n, hi);
    RoundMonotone(sum / n, hi, 1);
    RoundWhole(hi);
  }

  /** The rounded average of a bucket is at least the bucket's least
      percentage. */
  lemma AverageAtLeastLower(xs: seq<real>, b: Bucket)
    requires CountKey(xs, BucketOf, b) >= 1
    ensures b != Below10 ==> Lower(b) <= Average(xs, b)
  {
    BucketSumBounds(xs, b);
    if b != Below10 {
      RoundedMeanAtLeast(BucketSum(xs, b), CountKey(xs, BucketOf, b) as real, Lower(b));
    }
  }

  /** The rounded average of a bucket is at most the next bucket's least
      percentage: rounding can bring it up to that bound but not past it. */
  lemma AverageAtMostUpper(xs: seq<real>, b: Bucket)
    requires CountKey(xs, BucketOf, b) >= 1
    ensures b != From90 ==> Average(xs, b) <= Upper(b)
  {
    BucketSumBounds(xs, b);
    if b != From90 {
      RoundedMeanAtMost(BucketSum(xs, b), CountKey(xs, BucketOf, b) as real, Upper(b));
    }
  }

  lemma RangeRowsAverages(xs: seq<real>)
    ensures var r := RangeRows(xs);
      forall i :: 0 <= i < |r| ==>
        && (r[i].range != Below10 ==> Lower(r[i].range) <= r[i].average)
        && (r[i].range != From90 ==> r[i].average <= Upper(r[i].range))
  {
    var r := RangeRows(xs);
    RangeRowsCount(xs);
    forall i | 0 <= i < |r|
      ensures r[i].range != Below10 ==> Lower(r[i].range) <= r[i].average
      ensures r[i].range != From90 ==> r[i].average <= Upper(r[i].range)
    {
      AverageAtLeastLower(xs, r[i].range);
      AverageAtMostUpper(xs, r[i].range);
    }
  }

  /** Every row's average lies in its own range. */
  lemma EquityRangeAverages(ws: seq<WorkspaceRow>, fs: seq<FounderRow>)
    ensures var r := EquityRanges(ws, fs);
      forall i :: 0 <= i < |r| ==>
        && (r[i].range != Below10 ==> Lower(r[i].range) <= r[i].average)
        && (r[i].range != From90 ==> r[i].average <= Upper(r[i].range))
  {
    RangeRowsAverages(EquityCalcs(ws, fs));
  }
}

=== FILE: Js.dfy ===
/** JavaScript values as they arrive in a parsed JSON request body, and the
    truthiness test that every `x || default` and `if (x)` of the handlers
    applies to them. */
module Js {

  /** A possibly absent value: `None` is JavaScript `undefined` or SQL `NULL`. */
  datatype Option<T> = None | Some(value: T)

  /** A JavaScript value of a parsed request body. Numbers are integers:
      fractions, NaN and the infinities are not modelled. */
  datatype JsValue =
    | JUndefined
    | JNull
    | JBool(b: bool)
    | JNum(n: int)
    | JStr(s: string)
    | JArr(items: seq<JsValue>)
    | JObj(props: seq<(string, JsValue)>)

  /** JavaScript truthiness: `undefined`, `null`, `false`, `0` and `""` are
      falsy, every array and object is truthy. */
  predicate Truthy(v: JsValue)
  {
    match v
    case JUndefined => false
    case JNull => false
    case JBool(b) => b
    case JNum(n) => n != 0
    case JStr(s) => s != ""
    case JArr(_) => true
    case JObj(_) => true
  }

  /** `s || d` for an optional string field. */
  function StrOr(s: Option<string>, d: string): (r: string)
    ensures s.Some? && s.value != "" ==> r == s.value
    ensures s.None? || s.value == "" ==> r == d
  {
    if s.Some? && s.value != "" then s.value else d
  }

  /** `v || d`: the value itself when truthy, otherwise the default. */
  function Or(v: JsValue, d: JsValue): (r: JsValue)
    ensures Truthy(v) ==> r == v
    ensures !Truthy(v) ==> r == d
  {
    if Truthy(v) then v else d
  }

  /** A member of a parsed JSON object; a repeated key keeps its last value. */
  function Member(props: seq<(string, JsValue)>, name: string): (v: JsValue)
    ensures v != JUndefined ==> exists i :: 0 <= i < |props| && props[i] == (name, v)
    ensures (forall i :: 0 <= i < |props| ==> props[i].0 != name) ==> v == JUndefined
  {
    if props == [] then JUndefined
    else
      var last := props[|props| - 1];
      if last.0 == name then last.1
      else
        var v := Member(props[..|props| - 1], name);
        assert forall i :: 0 <= i < |props| - 1 ==> props[..|props| - 1][i] == props[i];
        v
  }

  /** `v.name`: `None` when the access throws (on `undefined` or `null`); an
      object's member otherwise. Strings, numbers, booleans and arrays carry
      none of the names looked up here. */
  function Property(v: JsValue, name: string): (r: Option<JsValue>)
    ensures r.None? <==> v.JUndefined? || v.JNull?
    ensures v.JObj? ==> r == Some(Member(v.props, name))
  {
    match v
    case JUndefined => None
    case JNull => None
    case JObj(props) => Some(Member(props, name))
    case _ => Some(JUndefined)
  }

  /** `v?.[name]`: optional chaining turns the throwing cases into `undefined`. */
  function OptionalProperty(v: JsValue, name: string): (r: JsValue)
    ensures Property(v, name).Some? ==> r == Property(v, name).value
    ensures Property(v, name).None? ==> r == JUndefined
  {
    match Property(v, name)
    case None => JUndefined
    case Some(x) => x
  }

  /** The parts separated by commas, as `Array.prototype.join` writes them. */
  function Join(parts: seq<string>): string
  {
    if parts == [] then ""
    else if |parts| == 1 then parts[0]
    else parts[0] + "," + Join(parts[1..])
  }

  /** Whether `String(v)` returns rather than throws. A parsed object whose
      own `toString` member is data, not a function, makes the conversion
      throw a TypeError, since its inherited `valueOf` gives back the object
      itself; an array holding such an object throws too, when `join`
      converts its elements. */
  predicate Converts(v: JsValue)
    decreases v
  {
    match v
    case JArr(items) => forall i :: 0 <= i < |items| ==> Converts(items[i])
    case JObj(props) => forall i :: 0 <= i < |props| ==> props[i].0 != "toString"
    case _ => true
  }

  /** `String(v)`: the text a value converts to, which is also the property
      key it names in `obj[v]`. An array is its elements' texts joined by
      commas, `null` and `undefined` elements giving the empty text. */
  function StringOf(v: JsValue): string
    requires Converts(v)
    decreases v
  {
    match v
    case JUndefined => "undefined"
    case JNull => "null"
    case JBool(b) => if b then "true" else "false"
    case JNum(n) => NumberString(n)
    case JStr(s) => s
    case JArr(items) =>
      Join(seq(|items|, i requires 0 <= i < |items| =>
        if items[i].JUndefined? || items[i].JNull? then "" else StringOf(items[i])))
    case JObj(_) => "[object Object]"
  }

  /** `table?.[key]`, or `None` when it throws. Optional chaining skips the
      access when the table is `undefined` or `null`; otherwise the key is
      converted to a property name, which throws when `String(key)` does.
      An object gives its own member under that name; other values carry
      no member. */
  function Lookup(table: JsValue, key: JsValue): (r: Option<JsValue>)
    ensures r.None? <==> !table.JUndefined? && !table.JNull? && !Converts(key)
    ensures r.Some? && table.JObj? ==> r.value == Member(table.props, StringOf(key))
    ensures r.Some? && !table.JObj? ==> r.value == JUndefined
  {
    if table.JUndefined? || table.JNull? then Some(JUndefined)
    else if !Converts(key) then None
    else Some(OptionalProperty(table, StringOf(key)))
  }

  /** One-character strings, as iterating a string yields them. */
  function Chars(s: string): (r: seq<JsValue>)
    ensures |r| == |s| && forall i :: 0 <= i < |s| ==> r[i] == JStr([s[i]])
  {
    seq(|s|, i requires 0 <= i < |s| => JStr([s[i]]))
  }

  /** The values a `for ... of` loop visits; `None` when the value is not
      iterable and the loop throws. */
  function Iterate(v: JsValue): (r: Option<seq<JsValue>>)
    ensures r.Some? <==> v.JArr? || v.JStr?
    ensures v.JArr? ==> r == Some(v.items)
  {
    match v
    case JArr(items) => Some(items)
    case JStr(s) => Some(Chars(s))
    case _ => None
  }

  predicate IsDigit(c: char)
  {
    '0' <= c <= '9'
  }

  function DigitChar(d: nat): (c: char)
    requires d < 10
    ensures IsDigit(c)
  {
    ('0' as int + d) as char
  }

  function DigitValue(c: char): (d: nat)
    requires IsDigit(c)
    ensures d < 10
  {
    c as int - '0' as int
  }

  /** `String(n)` for a natural number: its decimal digits, no leading zero. */
  function DecimalString(n: nat): (r: string)
    ensures |r| > 0 && forall i :: 0 <= i < |r| ==> IsDigit(r[i])
    ensures |r| > 1 ==> r[0] != '0'
  {
    if n < 10 then [DigitChar(n)]
    else DecimalString(n / 10) + [DigitChar(n % 10)]
  }

  /** `String(n)` for an integer. */
  function NumberString(n: int): string
  {
    if n >= 0 then DecimalString(n) else "-" + DecimalString(-n)
  }

  /** The number a run of decimal digits spells. */
  function DigitsValue(ds: string): nat
    requires forall i :: 0 <= i < |ds| ==> IsDigit(ds[i])
  {
    if ds == [] then 0
    else 10 * DigitsValue(ds[..|ds| - 1]) + DigitValue(ds[|ds| - 1])
  }

  /** Reading back the digits of a number gives the number. */
  lemma {:induction false} DecimalStringValue(n: nat)
    ensures DigitsValue(DecimalString(n)) == n
    decreases n
  {
    if n >= 10 {
      var r := DecimalString(n);
      assert r[..|r| - 1] == DecimalString(n / 10);
      DecimalStringValue(n / 10);
    }
  }

  /** The keys of an object in order of first appearance. */
  function DistinctKeys(props: seq<(string, JsValue)>): (ks: seq<string>)
    ensures forall i, j :: 0 <= i < j < |ks| ==> ks[i] != ks[j]
    ensures forall k :: k in ks <==> exists i :: 0 <= i < |props| && props[i].0 == k
  {
    if props == [] then []
    else
      var init := props[..|props| - 1];
      var ks := DistinctKeys(init);
      assert forall i :: 0 <= i < |init| ==> init[i] == props[i];
      var k := props[|props| - 1].0;
      if k in ks then ks else ks + [k]
  }

  /** The entries of a parsed object: each key once, in order of first
      appearance, with the value parsing kept for it. */
  function ObjectEntries(props: seq<(string, JsValue)>): (r: seq<(string, JsValue)>)
    ensures forall k, v :: (k, v) in r <==> v == Member(props, k) && exists i :: 0 <= i < |props| && props[i].0 == k
    ensures forall i, j :: 0 <= i < j < |r| ==> r[i].0 != r[j].0
  {
    var ks := DistinctKeys(props);
    var r := seq(|ks|, i requires 0 <= i < |ks| => (ks[i], Member(props, ks[i])));
    KeyedEntries(props, ks, r);
    r
  }

  /** Pairing each of a set of distinct keys with its member value gives
      an entry for exactly the keys the object has. */
  lemma KeyedEntries(props: seq<(string, JsValue)>, ks: seq<string>, r: seq<(string, JsValue)>)
    requires forall i, j :: 0 <= i < j < |ks| ==> ks[i] != ks[j]
    requires forall k :: k in ks <==> exists i :: 0 <= i < |props| && props[i].0 == k
    requires |r| == |ks| && forall i :: 0 <= i < |r| ==> r[i] == (ks[i], Member(props, ks[i]))
    ensures forall k, v :: (k, v) in r <==> v == Member(props, k) && exists i :: 0 <= i < |props| && props[i].0 == k
    ensures forall i, j :: 0 <= i < j < |r| ==> r[i].0 != r[j].0
  {
    forall k, v
      ensures (k, v) in r <==> v == Member(props, k) && exists i :: 0 <= i < |props| && props[i].0 == k
    {
      if v == Member(props, k) && k in ks {
        var i :| 0 <= i < |ks| && ks[i] == k;
        assert r[i] == (k, v);
      }
    }
  }

  /** The entries of an array: each element under its index. */
  function IndexEntries(items: seq<JsValue>): (r: seq<(string, JsValue)>)
    ensures |r| == |items| && forall i :: 0 <= i < |r| ==> r[i] == (DecimalString(i), items[i])
    ensures forall i, j :: 0 <= i < j < |r| ==> r[i].0 != r[j].0
  {
    var r := seq(|items|, i requires 0 <= i < |items| => (DecimalString(i), items[i]));
    forall i, j | 0 <= i < j < |r|
      ensures r[i].0 != r[j].0
    {
      DecimalStringValue(i);
      DecimalStringValue(j);
    }
    r
  }

  /** `Object.entries(v)` for a value that is not `undefined` or `null`:
      an object's entries, the indexed elements of an array or of a string,
      nothing for a number or a boolean. */
  function Entries(v: JsValue): (r: seq<(string, JsValue)>)
    requires !v.JUndefined? && !v.JNull?
    ensures forall i, j :: 0 <= i < j < |r| ==> r[i].0 != r[j].0
  {
    match v
    case JObj(props) => ObjectEntries(props)
    case JArr(items) => IndexEntries(items)
    case JStr(s) => IndexEntries(Chars(s))
    case _ => []
  }
}

=== FILE: JsNumbers.dfy ===
/** The two number parsers the workspace handler applies to request data:
    `parseInt` on an object key and `parseFloat` on an allocation. Both skip
    leading whitespace, accept one sign and read the longest numeric prefix;
    what follows it is ignored. `None` stands for NaN. */
module JsNumbers {
  import opened Js
  import opened Text

  /** The length of the run of decimal digits that starts the text. */
  function DigitRun(s: string): (k: nat)
    ensures k <= |s|
    ensures forall i :: 0 <= i < k ==> IsDigit(s[i])
    ensures k < |s| ==> !IsDigit(s[k])
  {
    if |s| > 0 && IsDigit(s[0]) then 1 + DigitRun(s[1..]) else 0
  }

  /** The text after an optional leading sign, and whether that sign was a minus. */
  function Unsigned(t: string): (string, bool)
  {
    if |t| > 0 && (t[0] == '-' || t[0] == '+') then (t[1..], t[0] == '-') else (t, false)
  }

  function Pow10(n: nat): (p: nat)
    ensures p >= 1
  {
    if n == 0 then 1 else 10 * Pow10(n - 1)
  }

  /** The value of the run of digits that starts the text. */
  function RunValue(u: string): nat
  {
    var k := DigitRun(u);
    assert forall i :: 0 <= i < k ==> u[..k][i] == u[i];
    DigitsValue(u[..k])
  }

  /** `parseInt(s)` with no radix, for decimal text. */
  function ParseInt(s: string): Option<int>
  {
    var (u, negative) := Unsigned(TrimStart(s));
    var k := DigitRun(u);
    if k == 0 then None
    else
      var v: int := RunValue(u);
      Some(if negative then -v else v)
  }

  /** `parseFloat(s)`: digits, optionally a point and more digits, with at
      least one digit in all. */
  function ParseDecimal(s: string): Option<real>
  {
    var (u, negative) := Unsigned(TrimStart(s));
    var k := DigitRun(u);
    var rest := u[k..];
    var f := if |rest| > 0 && rest[0] == '.' then DigitRun(rest[1..]) else 0;
    if k == 0 && f == 0 then None
    else
      var whole := RunValue(u) as real;
      var fraction := if f == 0 then 0.0 else RunValue(rest[1..]) as real / Pow10(f) as real;
      Some(if negative then -(whole + fraction) else whole + fraction)
  }

  /** `parseFloat(v)`: a number is itself; any other value is converted to
      text and parsed, so `[5]` reads 5 while `true`, `null`, `undefined`
      and objects hold no number. A value whose conversion throws never
      reaches the parse: its caller throws first. */
  function ParseFloat(v: JsValue): Option<real>
    requires Converts(v)
  {
    match v
    case JNum(n) => Some(n as real)
    case _ => ParseDecimal(StringOf(v))
  }

  /** A run of digits followed by a non-digit is read exactly. */
  lemma {:induction false} DigitRunOfDigits(d: string, rest: string)
    requires forall i :: 0 <= i < |d| ==> IsDigit(d[i])
    requires rest == [] || !IsDigit(rest[0])
    ensures DigitRun(d + rest) == |d|
  {
    if d == [] {
      assert d + rest == rest;
    } else {
      assert (d + rest)[1..] == d[1..] + rest;
      DigitRunOfDigits(d[1..], rest);
    }
  }

  /** A number's decimal form is one whole run of digits. */
  lemma DecimalStringDigits(n: nat, rest: string)
    requires rest == [] || !IsDigit(rest[0])
    ensures DigitRun(DecimalString(n) + rest) == |DecimalString(n)|
  {
    DigitRunOfDigits(DecimalString(n), rest);
  }

  /** A number's decimal form starts with a digit: no blank to skip, no sign. */
  lemma DecimalStringUnsigned(n: nat, rest: string)
    ensures TrimStart(DecimalString(n) + rest) == DecimalString(n) + rest
    ensures Unsigned(DecimalString(n) + rest) == (DecimalString(n) + rest, false)
  {
    var s := DecimalString(n) + rest;
    assert IsDigit(s[0]);
    assert !IsJsWhitespace(s[0]);
  }

  /** `parseInt` reads back the decimal form of a number and stops at the
      first character that is not a digit. */
  lemma ParseIntReadsDecimal(n: nat, rest: string)
    requires rest == [] || !IsDigit(rest[0])
    ensures ParseInt(DecimalString(n) + rest) == Some(n)
  {
    DecimalStringDigits(n, rest);
    DecimalStringUnsigned(n, rest);
    DecimalStringValue(n);
    assert (DecimalString(n) + rest)[..|DecimalString(n)|] == DecimalString(n);
  }

  /** The array index keys that `Object.entries` produces parse back to the index. */
  lemma ParseIntOfIndex(n: nat)
    ensures ParseInt(DecimalString(n)) == Some(n)
  {
    assert DecimalString(n) + [] == DecimalString(n);
    ParseIntReadsDecimal(n, []);
  }

  /** A leading minus negates. */
  lemma ParseIntNegative(n: nat)
    ensures ParseInt("-" + DecimalString(n)) == Some(-(n as int))
  {
    var d := DecimalString(n);
    var s := "-" + d;
    assert s[1..] == d + [];
    assert TrimStart(s) == s;
    DecimalStringDigits(n, []);
    DecimalStringValue(n);
    assert d[..|d|] == d;
  }

  /** Leading whitespace never changes what `parseInt` reads. */
  lemma ParseIntSkipsBlanks(w: string, s: string)
    requires AllWhitespace(w)
    ensures ParseInt(w + s) == ParseInt(s)
  {
    TrimStartWhitespacePrefix(w, s);
  }

  /** `parseFloat` reads back the decimal form of a number. */
  lemma ParseDecimalReadsDecimal(n: nat, rest: string)
    requires rest == [] || (!IsDigit(rest[0]) && rest[0] != '.')
    ensures ParseDecimal(DecimalString(n) + rest) == Some(n as real)
  {
    DecimalStringDigits(n, rest);
    DecimalStringUnsigned(n, rest);
    DecimalStringValue(n);
    var s := DecimalString(n) + rest;
    assert s[..|DecimalString(n)|] == DecimalString(n);
    assert s[|DecimalString(n)|..] == rest;
  }

  /** `parseFloat` reads back the text of every number, negative ones included. */
  lemma ParseDecimalOfNumber(n: int)
    ensures ParseDecimal(NumberString(n)) == Some(n as real)
  {
    if n >= 0 {
      assert DecimalString(n) + [] == DecimalString(n);
      ParseDecimalReadsDecimal(n, []);
    } else {
      var d := DecimalString(-n);
      var s := "-" + d;
      assert TrimStart(s) == s;
      assert s[1..] == d;
      DecimalStringDigits(-n, []);
      DecimalStringValue(-n);
      assert d + [] == d && d[..|d|] == d && d[|d|..] == [];
    }
  }

  /** A one-element array converts to its element's text, so `parseFloat`
      reads `[x]` exactly as it reads `x`, and throws exactly when `x`
      throws. */
  lemma ParseFloatOfSingleton(x: JsValue)
    ensures Converts(JArr([x])) <==> Converts(x)
    ensures Converts(x) ==> ParseFloat(JArr([x])) == ParseFloat(x)
  {
    assert JArr([x]).items[0] == x;
    if !Converts(x) {
      return;
    }
    SingletonText(x);
    if x.JNum? {
      ParseDecimalOfNumber(x.n);
    } else if x.JUndefined? || x.JNull? {
      EmptyIsNaN();
      LetterIsNaN(StringOf(x));
    }
  }

  lemma SingletonText(x: JsValue)
    requires Converts(x)
    ensures Converts(JArr([x])) && StringOf(JArr([x])) == if x.JUndefined? || x.JNull? then "" else StringOf(x)
  {
  }

  /** Text that starts with a letter holds no number. */
  lemma LetterIsNaN(w: string)
    requires |w| > 0 && 'a' <= w[0] <= 'z'
    ensures ParseDecimal(w).None?
  {
    assert !IsJsWhitespace(w[0]);
    assert TrimStart(w) == w;
    NoLeadingDigitIsNaN(w);
  }

  lemma EmptyIsNaN()
    ensures ParseDecimal("").None?
  {
    NoLeadingDigitIsNaN("");
  }

  /** Text without a digit in front, after blanks and sign, is NaN to both parsers. */
  lemma NoLeadingDigitIsNaN(s: string)
    requires var u := Unsigned(TrimStart(s)).0; u == [] || (!IsDigit(u[0]) && u[0] != '.')
    ensures ParseInt(s).None? && ParseDecimal(s).None?
  {
  }
}

=== FILE: Json.dfy ===
/** `JSON.stringify`, as used to store an event's metadata, and a reader for
    the text it produces. The reader exists to state what the stored text
    keeps: reading back what `Stringify` wrote gives the value it was given. */
module Json {
  import opened Js

  function HexDigit(d: nat): (c: char)
    requires d < 16
  {
    if d < 10 then DigitChar(d) else ('a' as int + d - 10) as char
  }

  /** How `JSON.stringify` writes one character inside a string literal:
      the quote and the backslash are escaped, the control characters get
      their short escape or a four-digit `\u` escape, everything else is
      written as it is. */
  function EscapeChar(c: char): string
  {
    if c == '"' then "\\\""
    else if c == '\\' then "\\\\"
    else if c == '\U{8}' then "\\b"
    else if c == '\U{C}' then "\\f"
    else if c == '\n' then "\\n"
    else if c == '\r' then "\\r"
    else if c == '\t' then "\\t"
    else if c < ' ' then "\\u00" + [HexDigit(c as int / 16), HexDigit(c as int % 16)]
    else [c]
  }

  function Escape(s: string): string
  {
    if s == [] then [] else EscapeChar(s[0]) + Escape(s[1..])
  }

  /** A string literal. */
  function Quote(s: string): string
  {
    "\"" + Escape(s) + "\""
  }

  /** The object members `JSON.stringify` writes: those whose value is not `undefined`. */
  function Written(props: seq<(string, JsValue)>): (r: seq<(string, JsValue)>)
    ensures |r| <= |props|
    ensures forall p :: p in r ==> p in props && !p.1.JUndefined?
  {
    if props == [] then []
    else if props[0].1.JUndefined? then Written(props[1..])
    else [props[0]] + Written(props[1..])
  }

  /** `JSON.stringify(v)` for a value that is not itself `undefined`; an
      `undefined` array element is written as `null`, an `undefined` object
      member is left out. */
  function Stringify(v: JsValue): string
    decreases v
  {
    match v
    case JUndefined => "null"
    case JNull => "null"
    case JBool(b) => if b then "true" else "false"
    case JNum(n) => NumberString(n)
    case JStr(s) => Quote(s)
    case JArr(items) =>
      "[" + Join(seq(|items|, i requires 0 <= i < |items| => Stringify(items[i]))) + "]"
    case JObj(props) =>
      var w := Written(props);
      "{" + Join(seq(|w|, i requires 0 <= i < |w| => Quote(w[i].0) + ":" + Stringify(w[i].1))) + "}"
  }

  /** A value a JSON request body can carry: `undefined` occurs nowhere in
      it, and no object has a key twice, since `JSON.parse` keeps one value
      per key. */
  predicate WellFormed(v: JsValue)
    decreases v
  {
    match v
    case JUndefined => false
    case JArr(items) => forall i :: 0 <= i < |items| ==> WellFormed(items[i])
    case JObj(props) =>
      && (forall i :: 0 <= i < |props| ==> WellFormed(props[i].1))
      && (forall i, j :: 0 <= i < j < |props| ==> props[i].0 != props[j].0)
    case _ => true
  }

  // ---------------------------------------------------------------------
  // Reading the text back.

  predicate IsHex(c: char)
  {
    IsDigit(c) || 'a' <= c <= 'f' || 'A' <= c <= 'F'
  }

  function HexValue(c: char): (d: nat)
    requires IsHex(c)
    ensures d < 16
  {
    if IsDigit(c) then DigitValue(c)
    else if 'a' <= c <= 'f' then c as int - 'a' as int + 10
    else c as int - 'A' as int + 10
  }

  /** The character an escape sequence (after its backslash) stands for,
      and how many characters the sequence takes. */
  function Unescape(s: string): (r: Option<(char, nat)>)
    ensures r.Some? ==> 1 <= r.value.1 <= |s|
  {
    if s == [] then None
    else if s[0] == '"' || s[0] == '\\' || s[0] == '/' then Some((s[0], 1))
    else if s[0] == 'b' then Some(('\U{8}', 1))
    else if s[0] == 'f' then Some(('\U{C}', 1))
    else if s[0] == 'n' then Some(('\n', 1))
    else if s[0] == 'r' then Some(('\r', 1))
    else if s[0] == 't' then Some(('\t', 1))
    else if s[0] == 'u' && |s| >= 5 && IsHex(s[1]) && IsHex(s[2]) && IsHex(s[3]) && IsHex(s[4]) then
      var code := ((HexValue(s[1]) * 16 + HexValue(s[2])) * 16 + HexValue(s[3])) * 16 + HexValue(s[4]);
      if 0xD800 <= code < 0xE000 then None else Some((code as char, 5))
    else None
  }

  /** The body of a string literal up to its closing quote, and what follows it. */
  function ParseChars(s: string): (r: Option<(string, string)>)
    ensures r.Some? ==> |r.value.1| < |s|
    decreases |s|
  {
    if s == [] then None
    else if s[0] == '"' then Some(([], s[1..]))
    else if s[0] == '\\' then
      match Unescape(s[1..])
      case None => None
      case Some((c, n)) => Prepend(c, ParseChars(s[1 + n..]))
    else Prepend(s[0], ParseChars(s[1..]))
  }

  function Prepend(c: char, r: Option<(string, string)>): (r': Option<(string, string)>)
    ensures r'.Some? <==> r.Some?
    ensures r.Some? ==> r'.value == ([c] + r.value.0, r.value.1)
  {
    match r
    case None => None
    case Some((t, rest)) => Some(([c] + t, rest))
  }

  /** The longest run of digits at the front of `s`. */
  function TakeDigits(s: string): (ds: string)
    ensures |ds| <= |s|
    ensures forall i :: 0 <= i < |ds| ==> IsDigit(ds[i])
  {
    if s != [] && IsDigit(s[0]) then [s[0]] + TakeDigits(s[1..]) else []
  }

  /** Reads an optionally negative run of digits. */
  function ParseNumber(s: string): (r: Option<(JsValue, string)>)
    ensures r.Some? ==> |r.value.1| < |s|
  {
    if s != [] && s[0] == '-' then
      var ds := TakeDigits(s[1..]);
      if ds == [] then None else Some((JNum(-(DigitsValue(ds) as int)), s[1 + |ds|..]))
    else
      var ds := TakeDigits(s);
      if ds == [] then None else Some((JNum(DigitsValue(ds)), s[|ds|..]))
  }

  /** Reads the keyword `word` standing for `v`. */
  function ParseWord(s: string, word: string, v: JsValue): (r: Option<(JsValue, string)>)
    requires word != []
    ensures r.Some? ==> |r.value.1| < |s|
  {
    if word <= s then Some((v, s[|word|..])) else None
  }

  /** Reads one value from the front of `s`; gives the value and what follows it. */
  function ParseValue(s: string): (r: Option<(JsValue, string)>)
    ensures r.Some? ==> |r.value.1| < |s|
    decreases |s|, 2
  {
    if s == [] then None
    else if s[0] == 'n' then ParseWord(s, "null", JNull)
    else if s[0] == 't' then ParseWord(s, "true", JBool(true))
    else if s[0] == 'f' then ParseWord(s, "false", JBool(false))
    else if s[0] == '"' then
      match ParseChars(s[1..])
      case None => None
      case Some((t, rest)) => Some((JStr(t), rest))
    else if s[0] == '[' then ParseArray(s)
    else if s[0] == '{' then ParseObject(s)
    else ParseNumber(s)
  }

  /** Reads `[...]`. */
  function ParseArray(s: string): (r: Option<(JsValue, string)>)
    requires s != []
    ensures r.Some? ==> |r.value.1| < |s|
    decreases |s|, 1
  {
    if |s| > 1 && s[1] == ']' then Some((JArr([]), s[2..]))
    else
      match ParseItems(s[1..])
      case None => None
      case Some((items, rest)) => Some((JArr(items), rest))
  }

  /** Reads `{...}`. */
  function ParseObject(s: string): (r: Option<(JsValue, string)>)
    requires s != []
    ensures r.Some? ==> |r.value.1| < |s|
    decreases |s|, 1
  {
    if |s| > 1 && s[1] == '}' then Some((JObj([]), s[2..]))
    else
      match ParseMembers(s[1..])
      case None => None
      case Some((props, rest)) => Some((JObj(props), rest))
  }

  /** Reads `v1,v2,...,vn]`. */
  function ParseItems(s: string): (r: Option<(seq<JsValue>, string)>)
    ensures r.Some? ==> |r.value.1| < |s|
    decreases |s|, 3
  {
    match ParseValue(s)
    case None => None
    case Some((v, rest)) =>
      if rest != [] && rest[0] == ']' then Some(([v], rest[1..]))
      else if rest != [] && rest[0] == ',' then
        match ParseItems(rest[1..])
        case None => None
        case Some((vs, rest')) => Some(([v] + vs, rest'))
      else None
  }

  /** Reads `"k1":v1,...,"kn":vn}`. */
  function ParseMembers(s: string): (r: Option<(seq<(string, JsValue)>, string)>)
    ensures r.Some? ==> |r.value.1| < |s|
    decreases |s|, 3
  {
    if s == [] || s[0] != '"' then None
    else
      match ParseChars(s[1..])
      case None => None
      case Some((k, afterKey)) =>
        if afterKey == [] || afterKey[0] != ':' then None
        else
          match ParseValue(afterKey[1..])
          case None => None
          case Some((v, rest)) =>
            if rest != [] && rest[0] == '}' then Some(([(k, v)], rest[1..]))
            else if rest != [] && rest[0] == ',' then
              match ParseMembers(rest[1..])
              case None => None
              case Some((ps, rest')) => Some(([(k, v)] + ps, rest'))
            else None
  }

  /** Reads a whole text holding exactly one value. */
  function Parse(s: string): Option<JsValue>
  {
    match ParseValue(s)
    case Some((v, rest)) => if rest == [] then Some(v) else None
    case None => None
  }

  // ---------------------------------------------------------------------
  // The stored text loses nothing.

  lemma {:induction false} TakeDigitsOfDigits(ds: string, rest: string)
    requires forall i :: 0 <= i < |ds| ==> IsDigit(ds[i])
    requires rest == [] || !IsDigit(rest[0])
    ensures TakeDigits(ds + rest) == ds
  {
    if ds == [] {
      assert ds + rest == rest;
    } else {
      assert (ds + rest)[1..] == ds[1..] + rest;
      TakeDigitsOfDigits(ds[1..], rest);
    }
  }

  /** A number text is its digit run, read as a value, and what follows the run. */
  lemma ParseUnsignedNumber(s: string, ds: string)
    requires s != [] && s[0] != '-'
    requires TakeDigits(s) == ds && ds != []
    ensures ParseNumber(s) == Some((JNum(DigitsValue(ds)), s[|ds|..]))
  {
  }

  /** A minus sign and a digit run, read as the negated value, and what follows the run. */
  lemma ParseSignedNumber(s: string, ds: string)
    requires s != [] && s[0] == '-'
    requires TakeDigits(s[1..]) == ds && ds != []
    ensures ParseNumber(s) == Some((JNum(-(DigitsValue(ds) as int)), s[1 + |ds|..]))
  {
  }

  /** Reading a run of digits gives its value and stops at what follows it. */
  lemma ParseDigits(ds: string, rest: string)
    requires ds != [] && forall i :: 0 <= i < |ds| ==> IsDigit(ds[i])
    requires rest == [] || !IsDigit(rest[0])
    ensures ParseNumber(ds + rest) == Some((JNum(DigitsValue(ds)), rest))
  {
    var s := ds + rest;
    assert s[0] == ds[0] && s[|ds|..] == rest;
    TakeDigitsOfDigits(ds, rest);
    ParseUnsignedNumber(s, ds);
  }

  /** Reading a minus sign and a run of digits gives the negated value. */
  lemma ParseNegativeDigits(ds: string, rest: string)
    requires ds != [] && forall i :: 0 <= i < |ds| ==> IsDigit(ds[i])
    requires rest == [] || !IsDigit(rest[0])
    ensures ParseNumber("-" + ds + rest) == Some((JNum(-(DigitsValue(ds) as int)), rest))
  {
    SignedText(ds, rest);
    TakeDigitsOfDigits(ds, rest);
    ParseSignedNumber("-" + ds + rest, ds);
  }

  lemma SignedText(ds: string, rest: string)
    ensures var s := "-" + ds + rest;
      s != [] && s[0] == '-' && s[1..] == ds + rest && s[1 + |ds|..] == rest
  {
    var s := "-" + ds + rest;
    assert s[1..] == ds + rest;
    assert s[1 + |ds|..] == rest;
  }

  lemma IntRoundTrip(n: int, rest: string)
    requires rest == [] || !IsDigit(rest[0])
    ensures ParseNumber(NumberString(n) + rest) == Some((JNum(n), rest))
  {
    if n < 0 {
      DecimalStringValue(-n);
      ParseNegativeDigits(DecimalString(-n), rest);
    } else {
      DecimalStringValue(n);
      ParseDigits(DecimalString(n), rest);
    }
  }

  lemma HexRoundTrip(d: nat)
    requires d < 16
    ensures IsHex(HexDigit(d)) && HexValue(HexDigit(d)) == d
  {
  }

  /** A backslash and an escape sequence read as the character it stands for. */
  lemma ParseEscaped(s: string, c: char, n: nat)
    requires s != [] && s[0] == '\\' && Unescape(s[1..]) == Some((c, n))
    ensures ParseChars(s) == Prepend(c, ParseChars(s[1 + n..]))
  {
  }

  lemma ShortEscapeRoundTrip(c: char, t: string)
    requires |EscapeChar(c)| == 2
    ensures ParseChars(EscapeChar(c) + t) == Prepend(c, ParseChars(t))
  {
    var e := EscapeChar(c);
    var s := e + t;
    assert s[0] == '\\' && s[1..] == [e[1]] + t && s[2..] == t;
    assert Unescape(s[1..]) == Some((c, 1));
    ParseEscaped(s, c, 1);
  }

  lemma UnicodeEscapeRoundTrip(c: char, t: string)
    requires |EscapeChar(c)| > 2
    ensures ParseChars(EscapeChar(c) + t) == Prepend(c, ParseChars(t))
  {
    var e := EscapeChar(c);
    var s := e + t;
    var hi, lo := c as int / 16, c as int % 16;
    HexRoundTrip(hi);
    HexRoundTrip(lo);
    assert s[0] == '\\' && s[1..] == "u00" + [HexDigit(hi), HexDigit(lo)] + t;
    assert s[1 + 5..] == t;
    assert Unescape(s[1..]) == Some((c, 5));
    ParseEscaped(s, c, 5);
  }

  /** Reading an escaped character gives back the character. */
  lemma EscapeCharRoundTrip(c: char, t: string)
    ensures ParseChars(EscapeChar(c) + t) == Prepend(c, ParseChars(t))
  {
    var e := EscapeChar(c);
    if |e| == 1 {
      var s := e + t;
      assert s[0] == c && s[1..] == t;
    } else if |e| == 2 {
      ShortEscapeRoundTrip(c, t);
    } else {
      UnicodeEscapeRoundTrip(c, t);
    }
  }

  lemma {:induction false} EscapeRoundTrip(str: string, rest: string)
    ensures ParseChars(Escape(str) + "\"" + rest) == Some((str, rest))
  {
    if str == [] {
      assert Escape(str) + "\"" + rest == "\"" + rest;
    } else {
      assert Escape(str) + "\"" + rest == EscapeChar(str[0]) + (Escape(str[1..]) + "\"" + rest);
      EscapeCharRoundTrip(str[0], Escape(str[1..]) + "\"" + rest);
      EscapeRoundTrip(str[1..], rest);
      assert [str[0]] + str[1..] == str;
    }
  }

  /** The texts of the elements of an array. */
  function ItemTexts(items: seq<JsValue>): (ts: seq<string>)
    ensures |ts| == |items|
  {
    seq(|items|, i requires 0 <= i < |items| => Stringify(items[i]))
  }

  /** The `"key":value` texts of the members of an object. */
  function MemberTexts(props: seq<(string, JsValue)>): (ts: seq<string>)
    ensures |ts| == |props|
  {
    seq(|props|, i requires 0 <= i < |props| => Quote(props[i].0) + ":" + Stringify(props[i].1))
  }

  lemma WrittenAll(props: seq<(string, JsValue)>)
    requires forall i :: 0 <= i < |props| ==> !props[i].1.JUndefined?
    ensures Written(props) == props
  {
    if props != [] {
      WrittenAll(props[1..]);
    }
  }

  /** The text of a value starts with a character that can start a value,
      never with a closing bracket or brace. */
  lemma StringifyStart(v: JsValue)
    ensures Stringify(v) != []
    ensures Stringify(v)[0] != ']' && Stringify(v)[0] != '}' && Stringify(v)[0] != ','
  {
    match v
    case JNum(n) => {
      if n >= 0 {
        assert IsDigit(DecimalString(n)[0]);
      }
    }
    case _ =>
  }

  lemma WordRoundTrip(word: string, v: JsValue, rest: string)
    requires word in ["null", "true", "false"]
    requires v == (if word == "null" then JNull else JBool(word == "true"))
    ensures ParseValue(word + rest) == Some((v, rest))
  {
    var s := word + rest;
    assert word <= s;
    assert s[|word|..] == rest;
  }

  lemma NumberRoundTrip(n: int, rest: string)
    requires rest == [] || !IsDigit(rest[0])
    ensures ParseValue(NumberString(n) + rest) == Some((JNum(n), rest))
  {
    IntRoundTrip(n, rest);
    if n >= 0 {
      assert IsDigit(DecimalString(n)[0]);
    }
    var s := NumberString(n) + rest;
    ParseValueNumber(s);
  }

  lemma ParseValueNumber(s: string)
    requires s != [] && (s[0] == '-' || IsDigit(s[0]))
    ensures ParseValue(s) == ParseNumber(s)
  {
    assert s[0] != 'n' && s[0] != 't' && s[0] != 'f' && s[0] != '"' && s[0] != '[' && s[0] != '{';
  }

  lemma StringRoundTrip(str: string, rest: string)
    ensures ParseValue(Quote(str) + rest) == Some((JStr(str), rest))
  {
    var s := Quote(str) + rest;
    assert s[0] == '"';
    assert s[1..] == Escape(str) + "\"" + rest;
    EscapeRoundTrip(str, rest);
  }

  lemma {:induction false} ValueRoundTrip(v: JsValue, rest: string)
    requires WellFormed(v)
    requires rest == [] || !IsDigit(rest[0])
    ensures ParseValue(Stringify(v) + rest) == Some((v, rest))
    decreases v
  {
    match v
    case JNull =>
      WordRoundTrip("null", v, rest);
    case JBool(b) =>
      WordRoundTrip(if b then "true" else "false", v, rest);
    case JNum(n) =>
      NumberRoundTrip(n, rest);
    case JStr(str) =>
      StringRoundTrip(str, rest);
    case JArr(items) =>
      ArrayRoundTrip(v, rest);
      assert (Stringify(v) + rest)[0] == '[';
    case JObj(props) =>
      ObjectRoundTrip(v, rest);
      assert (Stringify(v) + rest)[0] == '{';
  }

  lemma {:induction false} ArrayRoundTrip(v: JsValue, rest: string)
    requires v.JArr? && WellFormed(v)
    ensures ParseArray(Stringify(v) + rest) == Some((v, rest))
    decreases v, 1
  {
    var s := Stringify(v) + rest;
    var items := v.items;
    assert Stringify(v) == "[" + Join(ItemTexts(items)) + "]";
    if items == [] {
      assert s[2..] == rest;
    } else {
      StringifyStart(items[0]);
      assert s[1..] == Join(ItemTexts(items)) + "]" + rest;
      assert Join(ItemTexts(items))[0] == Stringify(items[0])[0];
      ItemsRoundTrip(v, 0, rest);
      assert items[0..] == items;
    }
  }

  lemma {:induction false} ObjectRoundTrip(v: JsValue, rest: string)
    requires v.JObj? && WellFormed(v)
    ensures ParseObject(Stringify(v) + rest) == Some((v, rest))
    decreases v, 1
  {
    var s := Stringify(v) + rest;
    var props := v.props;
    WrittenAll(props);
    assert Stringify(v) == "{" + Join(MemberTexts(props)) + "}";
    if props == [] {
      assert s[2..] == rest;
    } else {
      assert s[1..] == Join(MemberTexts(props)) + "}" + rest;
      assert Join(MemberTexts(props))[0] == '"';
      MembersRoundTrip(v, 0, rest);
      assert props[0..] == props;
    }
  }

  lemma {:induction false} ItemsRoundTrip(v: JsValue, k: nat, rest: string)
    requires v.JArr? && WellFormed(v) && k < |v.items|
    ensures ParseItems(Join(ItemTexts(v.items[k..])) + "]" + rest) == Some((v.items[k..], rest))
    decreases v, 0, |v.items| - k
  {
    var items := v.items[k..];
    var ts := ItemTexts(items);
    var first := v.items[k];
    var t := Stringify(first);
    assert items[0] == first && ts[0] == t;
    if |items| == 1 {
      ValueRoundTrip(first, "]" + rest);
      assert Join(ts) == t;
      LastItem(t, first, rest);
      assert [first] == items;
    } else {
      var tail := ItemTexts(v.items[k + 1..]);
      assert ts[1..] == tail;
      ValueRoundTrip(first, "," + (Join(tail) + "]" + rest));
      ItemsRoundTrip(v, k + 1, rest);
      JoinFirst(t, ts, tail);
      Regroup(t, Join(tail), "]", rest);
      NextItem(t, first, Join(tail), v.items[k + 1..], rest);
      assert [first] + v.items[k + 1..] == items;
    }
  }

  /** The text of the only element, then the closing bracket. */
  lemma LastItem(t: string, val: JsValue, rest: string)
    requires ParseValue(t + ("]" + rest)) == Some((val, "]" + rest))
    ensures ParseItems(t + "]" + rest) == Some(([val], rest))
  {
    assert t + "]" + rest == t + ("]" + rest);
    assert ("]" + rest)[1..] == rest;
  }

  /** The text of one element, a comma, and the text of the elements after it. */
  lemma NextItem(t: string, val: JsValue, more: string, vs: seq<JsValue>, rest: string)
    requires ParseValue(t + ("," + (more + "]" + rest))) == Some((val, "," + (more + "]" + rest)))
    requires ParseItems(more + "]" + rest) == Some((vs, rest))
    ensures ParseItems(t + ("," + (more + "]" + rest))) == Some(([val] + vs, rest))
  {
    assert ("," + (more + "]" + rest))[1..] == more + "]" + rest;
  }

  /** The key of a member text reads back, leaving the colon and the value. */
  lemma MemberKey(key: string, vt: string, after: string)
    ensures var s := Quote(key) + ":" + vt + after;
      s[0] == '"' && ParseChars(s[1..]) == Some((key, ":" + vt + after))
  {
    var s := Quote(key) + ":" + vt + after;
    assert s[1..] == Escape(key) + "\"" + (":" + vt + after);
    EscapeRoundTrip(key, ":" + vt + after);
  }

  /** A member followed by the closing brace ends the members. */
  lemma ParseLastMember(s: string, key: string, afterKey: string, val: JsValue, after: string)
    requires s != [] && s[0] == '"' && ParseChars(s[1..]) == Some((key, afterKey))
    requires afterKey != [] && afterKey[0] == ':' && ParseValue(afterKey[1..]) == Some((val, after))
    requires after != [] && after[0] == '}'
    ensures ParseMembers(s) == Some(([(key, val)], after[1..]))
  {
  }

  /** A member followed by a comma is the first of the members read after it. */
  lemma ParseNextMember(s: string, key: string, afterKey: string, val: JsValue, after: string,
                        ps: seq<(string, JsValue)>, rest: string)
    requires s != [] && s[0] == '"' && ParseChars(s[1..]) == Some((key, afterKey))
    requires afterKey != [] && afterKey[0] == ':' && ParseValue(afterKey[1..]) == Some((val, after))
    requires after != [] && after[0] == ',' && ParseMembers(after[1..]) == Some((ps, rest))
    ensures ParseMembers(s) == Some(([(key, val)] + ps, rest))
  {
  }

  lemma {:induction false} MembersRoundTrip(v: JsValue, k: nat, rest: string)
    requires v.JObj? && k < |v.props|
    requires forall i :: 0 <= i < |v.props| ==> WellFormed(v.props[i].1)
    ensures ParseMembers(Join(MemberTexts(v.props[k..])) + "}" + rest) == Some((v.props[k..], rest))
    decreases v, 0, |v.props| - k
  {
    var props := v.props[k..];
    var ts := MemberTexts(props);
    var key, val := v.props[k].0, v.props[k].1;
    var vt := Stringify(val);
    var head := Quote(key) + ":" + vt;
    assert ts[0] == head && props[0] == (key, val);
    if |props| == 1 {
      ValueRoundTrip(val, "}" + rest);
      assert Join(ts) + "}" + rest == head + ("}" + rest);
      LastMember(key, vt, val, rest);
      assert [(key, val)] == props;
    } else {
      var tail := MemberTexts(v.props[k + 1..]);
      assert ts[1..] == tail;
      ValueRoundTrip(val, "," + (Join(tail) + "}" + rest));
      MembersRoundTrip(v, k + 1, rest);
      JoinFirst(head, ts, tail);
      MembersCons(key, vt, val, Join(ts), Join(tail), v.props[k + 1..], rest);
      assert [(key, val)] + v.props[k + 1..] == props;
    }
  }

  /** Members text that starts with one member and a comma reads as that
      member followed by the members after the comma. */
  lemma MembersCons(key: string, vt: string, val: JsValue, text: string, more: string,
                    ps: seq<(string, JsValue)>, rest: string)
    requires text == Quote(key) + ":" + vt + "," + more
    requires ParseValue(vt + ("," + (more + "}" + rest))) == Some((val, "," + (more + "}" + rest)))
    requires ParseMembers(more + "}" + rest) == Some((ps, rest))
    ensures ParseMembers(text + "}" + rest) == Some(([(key, val)] + ps, rest))
  {
    Regroup(Quote(key) + ":" + vt, more, "}", rest);
    NextMember(key, vt, val, more, ps, rest);
  }

  /** The text of the only member, then the closing brace. */
  lemma LastMember(key: string, vt: string, val: JsValue, rest: string)
    requires ParseValue(vt + ("}" + rest)) == Some((val, "}" + rest))
    ensures ParseMembers(Quote(key) + ":" + vt + ("}" + rest)) == Some(([(key, val)], rest))
  {
    var after := "}" + rest;
    MemberKey(key, vt, after);
    ColonValue(vt, after);
    assert after[1..] == rest;
    ParseLastMember(Quote(key) + ":" + vt + after, key, ":" + vt + after, val, after);
  }

  /** The text of one member, a comma, and the text of the members after it. */
  lemma NextMember(key: string, vt: string, val: JsValue, more: string, ps: seq<(string, JsValue)>, rest: string)
    requires ParseValue(vt + ("," + (more + "}" + rest))) == Some((val, "," + (more + "}" + rest)))
    requires ParseMembers(more + "}" + rest) == Some((ps, rest))
    ensures ParseMembers(Quote(key) + ":" + vt + ("," + (more + "}" + rest))) == Some(([(key, val)] + ps, rest))
  {
    var after := "," + (more + "}" + rest);
    assert after[1..] == more + "}" + rest;
    MemberThenComma(key, vt, val, after, ps, rest);
  }

  /** One member whose value is followed by a comma and further members. */
  lemma MemberThenComma(key: string, vt: string, val: JsValue, after: string, ps: seq<(string, JsValue)>, rest: string)
    requires ParseValue(vt + after) == Some((val, after))
    requires after != [] && after[0] == ',' && ParseMembers(after[1..]) == Some((ps, rest))
    ensures ParseMembers(Quote(key) + ":" + vt + after) == Some(([(key, val)] + ps, rest))
  {
    MemberKey(key, vt, after);
    ColonValue(vt, after);
    ParseNextMember(Quote(key) + ":" + vt + after, key, ":" + vt + after, val, after, ps, rest);
  }

  /** What follows a member's key: the colon, then the value's text. */
  lemma ColonValue(vt: string, after: string)
    ensures var afterKey := ":" + vt + after;
      afterKey != [] && afterKey[0] == ':' && afterKey[1..] == vt + after
  {
  }

  lemma JoinFirst(t: string, ts: seq<string>, tail: seq<string>)
    requires |ts| > 1 && ts[0] == t && ts[1..] == tail
    ensures Join(ts) == t + "," + Join(tail)
  {
  }

  lemma Regroup(t: string, more: string, close: string, rest: string)
    ensures t + "," + more + close + rest == t + ("," + (more + close + rest))
  {
  }

  /** What `JSON.stringify` writes for a request-body value reads back as
      exactly that value: the stored metadata keeps every key and value. */
  lemma MetadataRoundTrip(v: JsValue)
    requires WellFormed(v)
    ensures Parse(Stringify(v)) == Some(v)
  {
    ValueRoundTrip(v, []);
    assert Stringify(v) + [] == Stringify(v);
  }

  /** Two request-body values with the same stored text are the same value. */
  lemma StringifyInjective(a: JsValue, b: JsValue)
    requires WellFormed(a) && WellFormed(b) && Stringify(a) == Stringify(b)
    ensures a == b
  {
    MetadataRoundTrip(a);
    MetadataRoundTrip(b);
  }
}

=== FILE: QueryGuard.dfy ===
/** The guard in front of the analytics console's custom SQL endpoint: a
    query must be a non-empty string, its trimmed upper-case form must start
    with an allowed prefix and must not contain a blocked keyword anywhere;
    what runs is the query exactly as sent. */
module QueryGuard {
  import opened Js
  import opened Text

  const AllowedPrefixes: seq<string> := ["SELECT", "WITH"]
  const BlockedKeywords: seq<string> := ["DROP", "DELETE", "UPDATE", "INSERT", "ALTER", "CREATE", "PRAGMA"]

  /** The endpoint's answer. */
  datatype Verdict =
    | ServerError            // the body could not be destructured
    | MissingQuery           // no query, or not a non-empty string
    | NotReadOnly            // does not start with an allowed prefix
    | ProhibitedKeyword      // contains a blocked keyword
    | Execute(sql: string)   // handed to the database as sent

  function Status(v: Verdict): (code: nat)
    ensures code == 200 <==> v.Execute?
    ensures code == 403 <==> v.NotReadOnly? || v.ProhibitedKeyword?
  {
    match v
    case ServerError => 500
    case MissingQuery => 400
    case NotReadOnly => 403
    case ProhibitedKeyword => 403
    case Execute(_) => 200
  }

  predicate StartsWithAny(s: string, prefixes: seq<string>)
  {
    exists i :: 0 <= i < |prefixes| && prefixes[i] <= s
  }

  predicate ContainsAny(s: string, words: seq<string>)
  {
    exists i :: 0 <= i < |words| && Contains(s, words[i])
  }

  /** The form of the query the checks look at. */
  function Normalized(query: string): string
  {
    Upper(Trim(query))
  }

  /** The verdict on a query string that passed the type check. */
  function Judge(query: string): (v: Verdict)
    ensures v.Execute? ==> v.sql == query
    ensures !v.ServerError? && !v.MissingQuery?
  {
    var normalized := Normalized(query);
    if !StartsWithAny(normalized, AllowedPrefixes) then NotReadOnly
    else if ContainsAny(normalized, BlockedKeywords) then ProhibitedKeyword
    else Execute(query)
  }

  /** The endpoint, from the request body to its verdict; destructuring
      `query` out of an `undefined` or `null` body throws. */
  function CustomQuery(body: JsValue): (v: Verdict)
  {
    match Property(body, "query")
    case None => ServerError
    case Some(q) =>
      if !Truthy(q) || !q.JStr? then MissingQuery
      else Judge(q.s)
  }

  /** The type check comes first: a body without a non-empty string `query`
      gets 400 whatever else it holds, and only such a body gets it. */
  lemma MissingQueryIff(body: JsValue)
    requires body != JUndefined && body != JNull
    ensures CustomQuery(body) == MissingQuery <==> !(Property(body, "query").value.JStr? && Property(body, "query").value.s != "")
  {
  }

  lemma AllowedPrefixIff(n: string)
    ensures StartsWithAny(n, AllowedPrefixes) <==> "SELECT" <= n || "WITH" <= n
  {
    if "SELECT" <= n {
      assert AllowedPrefixes[0] <= n;
    }
    if "WITH" <= n {
      assert AllowedPrefixes[1] <= n;
    }
  }

  lemma BlockedKeywordIff(n: string)
    ensures ContainsAny(n, BlockedKeywords) <==>
      || Contains(n, "DROP") || Contains(n, "DELETE") || Contains(n, "UPDATE") || Contains(n, "INSERT")
      || Contains(n, "ALTER") || Contains(n, "CREATE") || Contains(n, "PRAGMA")
  {
    var ks := BlockedKeywords;
    assert ks[0] == "DROP" && ks[1] == "DELETE" && ks[2] == "UPDATE" && ks[3] == "INSERT";
    assert ks[4] == "ALTER" && ks[5] == "CREATE" && ks[6] == "PRAGMA";
  }

  /** A query runs iff it is a non-empty string whose normalized form starts
      with SELECT or WITH and contains none of the blocked keywords; what runs
      is the query as sent, not its normalized form. */
  lemma ExecuteIff(body: JsValue, sql: string)
    ensures CustomQuery(body) == Execute(sql) <==>
      && Property(body, "query") == Some(JStr(sql))
      && sql != ""
      && ("SELECT" <= Normalized(sql) || "WITH" <= Normalized(sql))
      && !(|| Contains(Normalized(sql), "DROP") || Contains(Normalized(sql), "DELETE")
           || Contains(Normalized(sql), "UPDATE") || Contains(Normalized(sql), "INSERT")
           || Contains(Normalized(sql), "ALTER") || Contains(Normalized(sql), "CREATE")
           || Contains(Normalized(sql), "PRAGMA"))
  {
    CustomQueryExecutes(body, sql);
    JudgeExecutes(sql);
    AllowedPrefixIff(Normalized(sql));
    BlockedKeywordIff(Normalized(sql));
  }

  lemma CustomQueryExecutes(body: JsValue, sql: string)
    ensures CustomQuery(body) == Execute(sql) <==>
      Property(body, "query") == Some(JStr(sql)) && sql != "" && Judge(sql).Execute?
  {
  }

  lemma JudgeExecutes(sql: string)
    ensures Judge(sql).Execute? <==>
      StartsWithAny(Normalized(sql), AllowedPrefixes) && !ContainsAny(Normalized(sql), BlockedKeywords)
  {
  }

  /** The checks see only the trimmed upper-case form: two queries with the
      same form get the same verdict, up to the text that runs. */
  lemma DecisionDependsOnlyOnNormalized(q1: string, q2: string)
    requires Normalized(q1) == Normalized(q2)
    ensures Judge(q1).Execute? == Judge(q2).Execute?
    ensures !Judge(q1).Execute? ==> Judge(q1) == Judge(q2)
  {
  }

  /** Whitespace around a query never changes the verdict. */
  lemma SurroundingWhitespaceIrrelevant(w1: string, q: string, w2: string)
    requires AllWhitespace(w1) && AllWhitespace(w2)
    ensures Normalized(w1 + q + w2) == Normalized(q)
    ensures Judge(w1 + q + w2).Execute? == Judge(q).Execute?
    ensures !Judge(q).Execute? ==> Judge(w1 + q + w2) == Judge(q)
  {
    TrimIgnoresSurroundingWhitespace(w1, q, w2);
    DecisionDependsOnlyOnNormalized(w1 + q + w2, q);
  }

  /** Letter case never changes what the checks see: a query, its ASCII
      lower-case form and its upper-case form normalize alike, so they get the
      same verdict. */
  lemma CaseIrrelevant(q: string)
    ensures Normalized(LowerAscii(q)) == Normalized(q)
    ensures Normalized(Upper(q)) == Normalized(q)
  {
    TrimUpper(LowerAscii(q));
    UpperOfLowerAscii(q);
    TrimUpper(q);
    TrimUpper(Upper(q));
    UpperIdempotent(q);
  }

  /** A request body holding just a non-empty query string is judged on it. */
  lemma QueryBodyIsJudged(q: string)
    requires q != ""
    ensures CustomQuery(JObj([("query", JStr(q))])) == Judge(q)
  {
    assert Member([("query", JStr(q))], "query") == JStr(q);
  }

  lemma CreatedAtUnpadded(q: string)
    requires q == "select created_at"
    ensures Trim(q) == q
  {
  }

  lemma CreatedAtLowered(q: string, n: string)
    requires q == "select created_at" && n == "SELECT CREATED_AT"
    ensures LowerAscii(n) == q
  {
  }

  lemma CreatedAtPlainUpper(n: string)
    requires n == "SELECT CREATED_AT"
    ensures PlainUpper(n)
  {
  }

  lemma NormalizeCreatedAt(q: string, n: string)
    requires q == "select created_at" && n == "SELECT CREATED_AT"
    ensures Normalized(q) == n
  {
    CreatedAtUnpadded(q);
    CreatedAtLowered(q, n);
    CreatedAtPlainUpper(n);
    UpperOfLowered(q, n);
  }

  /** A non-empty query whose normalized form is allowed but holds a
      blocked keyword is refused. */
  lemma Refused(q: string)
    requires q != ""
    requires StartsWithAny(Normalized(q), AllowedPrefixes) && ContainsAny(Normalized(q), BlockedKeywords)
    ensures CustomQuery(JObj([("query", JStr(q))])) == ProhibitedKeyword
  {
    QueryBodyIsJudged(q);
  }

  /** A non-empty query whose normalized form is allowed and holds no
      blocked keyword runs as sent. */
  lemma Runs(q: string)
    requires q != ""
    requires StartsWithAny(Normalized(q), AllowedPrefixes) && !ContainsAny(Normalized(q), BlockedKeywords)
    ensures CustomQuery(JObj([("query", JStr(q))])) == Execute(q)
  {
    QueryBodyIsJudged(q);
  }

  lemma CreatedAtFlags(n: string)
    requires n == "SELECT CREATED_AT"
    ensures StartsWithAny(n, AllowedPrefixes) && ContainsAny(n, BlockedKeywords)
  {
    assert AllowedPrefixes[0] <= n;
    OccursContains(n, "CREATE", 7);
    assert Contains(n, BlockedKeywords[5]);
  }

  /** The keyword check is a plain substring test, so a column whose name
      contains a keyword blocks a read-only query. */
  lemma CreatedAtColumnIsBlocked(q: string, n: string)
    requires q == "select created_at" && n == "SELECT CREATED_AT"
    ensures Normalized(q) == n
    ensures CustomQuery(JObj([("query", JStr(q))])) == ProhibitedKeyword
  {
    NormalizeCreatedAt(q, n);
    CreatedAtFlags(n);
    Refused(q);
  }

  lemma SelectOneTrimmed(q: string)
    requires q == "  select 1"
    ensures Trim(q) == "select 1"
  {
    var w, m := "  ", "select 1";
    assert w + m == q;
    TrimLeadingBlanks(w, m);
  }

  lemma SelectOneLowered(n: string)
    requires n == "SELECT 1"
    ensures LowerAscii(n) == "select 1"
  {
  }

  lemma SelectOnePlainUpper(n: string)
    requires n == "SELECT 1"
    ensures PlainUpper(n)
  {
  }

  lemma NormalizeSelectOne(q: string, n: string)
    requires q == "  select 1" && n == "SELECT 1"
    ensures Normalized(q) == n
  {
    SelectOneTrimmed(q);
    SelectOneLowered(n);
    SelectOnePlainUpper(n);
    UpperOfLowered("select 1", n);
  }

  /** Each blocked keyword has a letter that "SELECT 1" lacks. */
  lemma SelectOneHasNoKeyword(n: string)
    requires n == "SELECT 1"
    ensures !ContainsAny(n, BlockedKeywords)
  {
    SelectOneLacksLetters(n);
    BlockedKeywordIff(n);
  }

  lemma SelectOneLacksLetters(n: string)
    requires n == "SELECT 1"
    ensures !Contains(n, "DROP") && !Contains(n, "DELETE") && !Contains(n, "UPDATE") && !Contains(n, "INSERT")
    ensures !Contains(n, "ALTER") && !Contains(n, "CREATE") && !Contains(n, "PRAGMA")
  {
    assert 'D' !in n && 'U' !in n && 'I' !in n && 'A' !in n && 'R' !in n && 'P' !in n;
    MissingCharNotContained(n, "DROP", 'D');
    MissingCharNotContained(n, "DELETE", 'D');
    MissingCharNotContained(n, "UPDATE", 'U');
    MissingCharNotContained(n, "INSERT", 'I');
    MissingCharNotContained(n, "ALTER", 'A');
    MissingCharNotContained(n, "CREATE", 'R');
    MissingCharNotContained(n, "PRAGMA", 'P');
  }

  /** A lower-case read query with leading blanks runs, as sent. */
  lemma LowerCaseSelectRuns(q: string, n: string)
    requires q == "  select 1" && n == "SELECT 1"
    ensures Normalized(q) == n
    ensures CustomQuery(JObj([("query", JStr(q))])) == Execute(q)
  {
    NormalizeSelectOne(q, n);
    assert AllowedPrefixes[0] <= n;
    SelectOneHasNoKeyword(n);
    Runs(q);
  }
}

=== FILE: Rows.dfy ===
/** The SQL the reporting queries use, as functions over row sequences:
    `GROUP BY` with `COUNT(*)` and `COUNT(DISTINCT ...)`, `ORDER BY` and
    `LIMIT`. A table is a sequence of rows; the order SQL leaves
    unspecified (ties in `ORDER BY`, groups without one) is whatever these
    functions produce. */
module Rows {
  import Js

  /** Number of rows whose key is `k`: `COUNT(*)` of the group `k`. */
  function CountKey<T, K(==)>(xs: seq<T>, key: T -> K, k: K): (n: nat)
    ensures n <= |xs|
  {
    if xs == [] then 0
    else (if key(xs[0]) == k then 1 else 0) + CountKey(xs[1..], key, k)
  }

  /** The `who` values of the rows whose key is `k`; its size is
      `COUNT(DISTINCT who)` of the group `k`. */
  function Who<T, K(==), V(==)>(xs: seq<T>, key: T -> K, who: T -> V, k: K): set<V>
  {
    if xs == [] then {}
    else (if key(xs[0]) == k then {who(xs[0])} else {}) + Who(xs[1..], key, who, k)
  }

  /** Sum of `w` over the rows whose key is `k`: `SUM(w)` of the group `k`. */
  function SumKey<T, K(==)>(xs: seq<T>, key: T -> K, w: T -> int, k: K): int
  {
    if xs == [] then 0
    else (if key(xs[0]) == k then w(xs[0]) else 0) + SumKey(xs[1..], key, w, k)
  }

  /** Within one group there are never more distinct values than rows. */
  lemma {:induction false} DistinctAtMostCount<T, K, V>(xs: seq<T>, key: T -> K, who: T -> V, k: K)
    ensures |Who(xs, key, who, k)| <= CountKey(xs, key, k)
  {
    if xs != [] {
      DistinctAtMostCount(xs[1..], key, who, k);
      var rest := Who(xs[1..], key, who, k);
      if key(xs[0]) == k {
        assert Who(xs, key, who, k) == {who(xs[0])} + rest;
        assert |{who(xs[0])} + rest| <= 1 + |rest|;
      } else {
        assert Who(xs, key, who, k) == rest;
      }
    }
  }

  /** A group with a row in it has a distinct value in it. */
  lemma {:induction false} PresentKeyHasWho<T, K, V>(xs: seq<T>, key: T -> K, who: T -> V, k: K)
    requires CountKey(xs, key, k) > 0
    ensures |Who(xs, key, who, k)| >= 1
  {
    if key(xs[0]) == k {
      assert who(xs[0]) in Who(xs, key, who, k);
    } else {
      PresentKeyHasWho(xs[1..], key, who, k);
      assert Who(xs[1..], key, who, k) <= Who(xs, key, who, k);
    }
  }

  /** The key of every row, in row order. */
  function Keys<T, K>(xs: seq<T>, key: T -> K): (ks: seq<K>)
    ensures |ks| == |xs|
    ensures forall i :: 0 <= i < |xs| ==> ks[i] == key(xs[i])
  {
    seq(|xs|, i requires 0 <= i < |xs| => key(xs[i]))
  }

  predicate NoDup<K(==)>(ks: seq<K>)
  {
    forall i, j :: 0 <= i < j < |ks| ==> ks[i] != ks[j]
  }

  /** The distinct elements of `ks`, in order of first appearance. */
  function Dedup<K(==)>(ks: seq<K>): (r: seq<K>)
    ensures NoDup(r)
    ensures forall i :: 0 <= i < |ks| ==> ks[i] in r
    ensures forall i :: 0 <= i < |r| ==> r[i] in ks
    ensures |r| <= |ks|
  {
    if ks == [] then []
    else
      var init := ks[..|ks| - 1];
      var r := Dedup(init);
      assert forall i :: 0 <= i < |ks| - 1 ==> ks[i] == init[i];
      assert forall i :: 0 <= i < |r| ==> r[i] in ks by {
        forall i | 0 <= i < |r| ensures r[i] in ks {
          var j :| 0 <= j < |init| && init[j] == r[i];
          assert ks[j] == r[i];
        }
      }
      if ks[|ks| - 1] in r then r else r + [ks[|ks| - 1]]
  }

  lemma {:induction false} CountKeyPositive<T, K>(xs: seq<T>, key: T -> K, i: nat)
    requires i < |xs|
    ensures CountKey(xs, key, key(xs[i])) > 0
  {
    if i > 0 {
      CountKeyPositive(xs[1..], key, i - 1);
    }
  }

  /** One result row of a grouped report: the key, `COUNT(*)` and
      `COUNT(DISTINCT ...)`. */
  datatype Group<K> = Group(key: K, count: nat, distinct: nat)

  function GroupKeys<K>(gs: seq<Group<K>>): (ks: seq<K>)
    ensures |ks| == |gs|
    ensures forall i :: 0 <= i < |gs| ==> ks[i] == gs[i].key
  {
    seq(|gs|, i requires 0 <= i < |gs| => gs[i].key)
  }

  /** The aggregate row of the group `k`. */
  function GroupOf<T, K(==), V(==)>(xs: seq<T>, key: T -> K, who: T -> V, k: K): Group<K>
  {
    Group(k, CountKey(xs, key, k), |Who(xs, key, who, k)|)
  }

  /** `SELECT key, COUNT(*), COUNT(DISTINCT who) FROM xs GROUP BY key`,
      groups in order of their key's first row. */
  function GroupBy<T, K(==), V(==)>(xs: seq<T>, key: T -> K, who: T -> V): (gs: seq<Group<K>>)
    ensures GroupKeys(gs) == Dedup(Keys(xs, key))
    ensures forall i :: 0 <= i < |gs| ==> gs[i] == GroupOf(xs, key, who, gs[i].key)
  {
    var ks := Dedup(Keys(xs, key));
    var gs := seq(|ks|, i requires 0 <= i < |ks| => GroupOf(xs, key, who, ks[i]));
    assert GroupKeys(gs) == ks;
    gs
  }

  /** `GROUP BY` yields one group per distinct key, each key of the input
      has its group, and every group has at least one row and no more
      distinct values than rows. */
  lemma GroupByShape<T, K, V>(xs: seq<T>, key: T -> K, who: T -> V)
    ensures NoDup(GroupKeys(GroupBy(xs, key, who)))
    ensures forall i :: 0 <= i < |xs| ==> key(xs[i]) in GroupKeys(GroupBy(xs, key, who))
    ensures forall g :: g in GroupBy(xs, key, who) ==> 1 <= g.distinct <= g.count
  {
    var gs := GroupBy(xs, key, who);
    var ks := Dedup(Keys(xs, key));
    forall g | g in gs
      ensures 1 <= g.distinct <= g.count
    {
      var i :| 0 <= i < |gs| && gs[i] == g;
      assert GroupKeys(gs)[i] == ks[i];
      var j :| 0 <= j < |xs| && Keys(xs, key)[j] == ks[i];
      CountKeyPositive(xs, key, j);
      PresentKeyHasWho(xs, key, who, ks[i]);
      DistinctAtMostCount(xs, key, who, ks[i]);
    }
    forall i | 0 <= i < |xs|
      ensures key(xs[i]) in ks
    {
      assert Keys(xs, key)[i] == key(xs[i]);
    }
  }

  /** Sum of the counts of the groups `ks`. */
  function TotalCount<T, K(==)>(xs: seq<T>, key: T -> K, ks: seq<K>): nat
  {
    if ks == [] then 0 else CountKey(xs, key, ks[0]) + TotalCount(xs, key, ks[1..])
  }

  /** How many of `ks` equal `k`. */
  function Hits<K(==)>(ks: seq<K>, k: K): nat
  {
    if ks == [] then 0 else (if ks[0] == k then 1 else 0) + Hits(ks[1..], k)
  }

  lemma {:induction false} HitsNoDup<K>(ks: seq<K>, k: K)
    requires NoDup(ks)
    ensures Hits(ks, k) == if k in ks then 1 else 0
  {
    if ks != [] {
      HitsNoDup(ks[1..], k);
      if ks[0] == k {
        assert k !in ks[1..];
      }
    }
  }

  lemma {:induction false} TotalCountStep<T, K>(xs: seq<T>, key: T -> K, ks: seq<K>)
    requires xs != []
    ensures TotalCount(xs, key, ks) == Hits(ks, key(xs[0])) + TotalCount(xs[1..], key, ks)
  {
    if ks != [] {
      TotalCountStep(xs, key, ks[1..]);
    }
  }

  /** Groups over distinct keys that cover every row partition the rows:
      their counts add up to the number of rows. */
  lemma {:induction false} GroupsPartitionRows<T, K>(xs: seq<T>, key: T -> K, ks: seq<K>)
    requires NoDup(ks)
    requires forall i :: 0 <= i < |xs| ==> key(xs[i]) in ks
    ensures TotalCount(xs, key, ks) == |xs|
  {
    if xs == [] {
      EmptyTotalCount(key, ks);
    } else {
      TotalCountStep(xs, key, ks);
      HitsNoDup(ks, key(xs[0]));
      assert forall i :: 0 <= i < |xs[1..]| ==> xs[1..][i] == xs[i + 1];
      GroupsPartitionRows(xs[1..], key, ks);
    }
  }

  lemma EmptyTotalCount<T, K>(key: T -> K, ks: seq<K>)
    ensures TotalCount([], key, ks) == 0
  {
  }

  /** `le` orders the rows of a report: any two are comparable and the
      order is transitive (ties are allowed). */
  ghost predicate TotalPreorder<T(!new)>(le: (T, T) -> bool)
  {
    && (forall a, b :: le(a, b) || le(b, a))
    && (forall a, b, c :: le(a, b) && le(b, c) ==> le(a, c))
  }

  predicate SortedBy<T>(xs: seq<T>, le: (T, T) -> bool)
  {
    forall i, j :: 0 <= i < j < |xs| ==> le(xs[i], xs[j])
  }

  /** Puts `x` before the first row it may precede. */
  function Insert<T>(x: T, xs: seq<T>, le: (T, T) -> bool): (r: seq<T>)
    ensures multiset(r) == multiset(xs) + multiset{x}
  {
    if xs == [] then [x]
    else if le(x, xs[0]) then [x] + xs
    else
      var r := [xs[0]] + Insert(x, xs[1..], le);
      assert xs == [xs[0]] + xs[1..];
      r
  }

  lemma {:induction false} InsertSorted<T(!new)>(x: T, xs: seq<T>, le: (T, T) -> bool)
    requires TotalPreorder(le) && SortedBy(xs, le)
    ensures SortedBy(Insert(x, xs, le), le)
  {
    if xs != [] && !le(x, xs[0]) {
      var tail := xs[1..];
      InsertSorted(x, tail, le);
      var r := Insert(x, tail, le);
      assert multiset(r) == multiset(tail) + multiset{x};
      forall j | 0 <= j < |r|
        ensures le(xs[0], r[j])
      {
        assert r[j] in multiset(r);
        if r[j] == x {
          assert le(xs[0], x);
        } else {
          assert r[j] in multiset(tail);
          var k :| 0 <= k < |tail| && tail[k] == r[j];
          assert xs[k + 1] == r[j];
        }
      }
    }
  }

  /** `ORDER BY le`: a sorted rearrangement of the rows. */
  function SortBy<T(!new)>(xs: seq<T>, le: (T, T) -> bool): (r: seq<T>)
    requires TotalPreorder(le)
    ensures SortedBy(r, le)
    ensures multiset(r) == multiset(xs)
    ensures |r| == |xs|
  {
    if xs == [] then []
    else
      var rest := SortBy(xs[1..], le);
      InsertSorted(xs[0], rest, le);
      assert xs == [xs[0]] + xs[1..];
      Insert(xs[0], rest, le)
  }

  /** SQLite's `LIMIT n`: at most `n` rows from the front; a negative limit
      sets no bound. */
  function Limit<T>(xs: seq<T>, n: int): (r: seq<T>)
    ensures r <= xs
    ensures n >= 0 ==> |r| == if n < |xs| then n else |xs|
    ensures n < 0 ==> r == xs
  {
    if n < 0 || n >= |xs| then xs else xs[..n]
  }

  /** A prefix of a sorted sequence is sorted. */
  lemma SortedPrefix<T>(xs: seq<T>, ys: seq<T>, le: (T, T) -> bool)
    requires SortedBy(xs, le) && ys <= xs
    ensures SortedBy(ys, le)
  {
  }

  /** `WHERE p`: the rows that satisfy `p`, in table order. */
  function Where<T>(xs: seq<T>, p: T -> bool): (r: seq<T>)
    ensures |r| <= |xs|
    ensures forall i :: 0 <= i < |r| ==> p(r[i])
    ensures multiset(r) <= multiset(xs)
  {
    if xs == [] then []
    else
      assert xs == [xs[0]] + xs[1..];
      (if p(xs[0]) then [xs[0]] else []) + Where(xs[1..], p)
  }

  /** How many leading elements a loop handles before the first one that
      satisfies `stop`, where it throws; all of them when none does. */
  function StopIndex<T>(xs: seq<T>, stop: T -> bool): (k: nat)
    ensures k <= |xs|
    ensures forall i :: 0 <= i < k ==> !stop(xs[i])
    ensures k < |xs| ==> stop(xs[k])
  {
    if xs == [] || stop(xs[0]) then 0
    else
      var k := StopIndex(xs[1..], stop);
      assert forall i :: 1 <= i < k + 1 ==> xs[i] == xs[1..][i - 1];
      k + 1
  }

  /** The loop stops early exactly when some element stops it. */
  lemma StopIndexIff<T>(xs: seq<T>, stop: T -> bool)
    ensures StopIndex(xs, stop) < |xs| <==> exists i :: 0 <= i < |xs| && stop(xs[i])
  {
  }

  /** Every row that satisfies `p` survives the filter. */
  lemma {:induction false} WhereKeeps<T>(xs: seq<T>, p: T -> bool, i: nat)
    requires i < |xs| && p(xs[i])
    ensures xs[i] in Where(xs, p)
  {
    if i > 0 {
      WhereKeeps(xs[1..], p, i - 1);
    }
  }

  /** Sum of the `COUNT(*)` column of a report. */
  function SumCounts<K>(gs: seq<Group<K>>): nat
  {
    if gs == [] then 0 else gs[0].count + SumCounts(gs[1..])
  }

  lemma {:induction false} SumCountsRemove<K>(gs: seq<Group<K>>, i: nat)
    requires i < |gs|
    ensures SumCounts(gs) == gs[i].count + SumCounts(gs[..i] + gs[i + 1..])
  {
    if i > 0 {
      var tail := gs[1..];
      SumCountsRemove(tail, i - 1);
      assert gs[..i] + gs[i + 1..] == [gs[0]] + (tail[..i - 1] + tail[i..]);
    } else {
      assert gs[..0] + gs[1..] == gs[1..];
    }
  }

  /** Reordering the rows of a report does not change its total. */
  lemma {:induction false} SumCountsPermutation<K>(a: seq<Group<K>>, b: seq<Group<K>>)
    requires multiset(a) == multiset(b)
    ensures SumCounts(a) == SumCounts(b)
    decreases |a|
  {
    if a == [] {
      assert |b| == |multiset(b)| == 0;
    } else {
      assert a[0] in multiset(b);
      var i :| 0 <= i < |b| && b[i] == a[0];
      var rest := b[..i] + b[i + 1..];
      MultisetRemove(b, i);
      MultisetRemove(a, 0);
      assert a[..0] + a[1..] == a[1..];
      SumCountsRemove(b, i);
      SumCountsPermutation(a[1..], rest);
    }
  }

  /** Taking one element out of a sequence takes it out of its multiset. */
  lemma MultisetRemove<T>(b: seq<T>, i: nat)
    requires i < |b|
    ensures multiset(b[..i] + b[i + 1..]) == multiset(b) - multiset{b[i]}
  {
    assert b == b[..i] + [b[i]] + b[i + 1..];
  }

  /** The counts of `GROUP BY` add up to the rows the report covers. */
  lemma {:induction false} SumCountsOfGroups<T, K, V>(xs: seq<T>, key: T -> K, who: T -> V, gs: seq<Group<K>>)
    requires forall i :: 0 <= i < |gs| ==> gs[i] == GroupOf(xs, key, who, gs[i].key)
    ensures SumCounts(gs) == TotalCount(xs, key, GroupKeys(gs))
  {
    if gs != [] {
      SumCountsOfGroups(xs, key, who, gs[1..]);
      assert GroupKeys(gs)[1..] == GroupKeys(gs[1..]);
    }
  }

  /** A sequence without repeats has every element at most once in its multiset. */
  lemma {:induction false} NoDupMultiplicity<K>(ks: seq<K>, k: K)
    requires NoDup(ks)
    ensures multiset(ks)[k] <= 1
  {
    if ks != [] {
      assert ks == [ks[0]] + ks[1..];
      NoDupMultiplicity(ks[1..], k);
      if ks[0] == k {
        assert k !in ks[1..];
      }
    }
  }

  /** A rearrangement of a sequence without repeats has none either. */
  lemma PermutationNoDup<K>(a: seq<K>, b: seq<K>)
    requires NoDup(a) && multiset(a) == multiset(b)
    ensures NoDup(b)
  {
    forall i, j | 0 <= i < j < |b|
      ensures b[i] != b[j]
    {
      if b[i] == b[j] {
        assert b == b[..j] + b[j..];
        assert b[i] in b[..j] && b[j] in b[j..];
        assert multiset(b)[b[i]] == multiset(b[..j])[b[i]] + multiset(b[j..])[b[i]];
        NoDupMultiplicity(a, b[i]);
      }
    }
  }

  /** `ORDER BY COUNT(*) DESC`. */
  predicate MoreCount<K>(a: Group<K>, b: Group<K>) { a.count >= b.count }

  lemma MoreCountPreorder<K(!new)>()
    ensures TotalPreorder(MoreCount<K>)
  {
  }

  /** `GROUP BY key ORDER BY le LIMIT n`. */
  function TopGroups<T, K(==,!new), V(==)>(xs: seq<T>, key: T -> K, who: T -> V,
                                         le: (Group<K>, Group<K>) -> bool, n: int): seq<Group<K>>
    requires TotalPreorder(le)
  {
    Limit(SortBy(GroupBy(xs, key, who), le), n)
  }

  /** The rows of a rearranged `GROUP BY`: each the exact aggregate of its
      key, with at least one row and no more distinct values than rows, and
      no key twice. */
  lemma ArrangedGroups<T, K(!new), V>(xs: seq<T>, key: T -> K, who: T -> V, rs: seq<Group<K>>)
    requires multiset(rs) == multiset(GroupBy(xs, key, who))
    ensures forall i :: 0 <= i < |rs| ==> rs[i] == GroupOf(xs, key, who, rs[i].key)
    ensures forall i :: 0 <= i < |rs| ==> 1 <= rs[i].distinct <= rs[i].count
    ensures NoDup(GroupKeys(rs))
  {
    var gs := GroupBy(xs, key, who);
    GroupByShape(xs, key, who);
    assert NoDup(gs) by {
      forall i, j | 0 <= i < j < |gs| ensures gs[i] != gs[j] {
        assert GroupKeys(gs)[i] != GroupKeys(gs)[j];
      }
    }
    PermutationNoDup(gs, rs);
    forall i | 0 <= i < |rs|
      ensures rs[i] == GroupOf(xs, key, who, rs[i].key)
      ensures 1 <= rs[i].distinct <= rs[i].count
    {
      assert rs[i] in multiset(gs);
    }
    forall i, j | 0 <= i < j < |rs|
      ensures GroupKeys(rs)[i] != GroupKeys(rs)[j]
    {
      assert rs[i] != rs[j];
    }
  }

  /** A rearranged `GROUP BY` still has a row for every key and its counts
      still add up to the number of input rows. */
  lemma ArrangedGroupsCover<T, K(!new), V>(xs: seq<T>, key: T -> K, who: T -> V, rs: seq<Group<K>>)
    requires multiset(rs) == multiset(GroupBy(xs, key, who))
    ensures forall i :: 0 <= i < |xs| ==> key(xs[i]) in GroupKeys(rs)
    ensures SumCounts(rs) == |xs|
  {
    var gs := GroupBy(xs, key, who);
    GroupByShape(xs, key, who);
    forall i | 0 <= i < |xs|
      ensures key(xs[i]) in GroupKeys(rs)
    {
      var j :| 0 <= j < |gs| && GroupKeys(gs)[j] == key(xs[i]);
      assert gs[j] in multiset(rs);
      var k :| 0 <= k < |rs| && rs[k] == gs[j];
      assert GroupKeys(rs)[k] == key(xs[i]);
    }
    SumCountsPermutation(gs, rs);
    SumCountsOfGroups(xs, key, who, gs);
    GroupsPartitionRows(xs, key, GroupKeys(gs));
  }

  /** What every grouped report promises: rows in report order, at most `n`
      of them, one per key, each the exact aggregate of its key with at
      least one row and no more distinct values than rows; without a limit
      every key has its row and the counts add up to the input. */
  lemma TopGroupsShape<T, K(!new), V>(xs: seq<T>, key: T -> K, who: T -> V,
                                      le: (Group<K>, Group<K>) -> bool, n: int)
    requires TotalPreorder(le)
    ensures var r := TopGroups(xs, key, who, le, n);
      && SortedBy(r, le)
      && (n >= 0 ==> |r| <= n)
      && NoDup(GroupKeys(r))
      && (forall i :: 0 <= i < |r| ==> r[i] == GroupOf(xs, key, who, r[i].key))
      && (forall i :: 0 <= i < |r| ==> 1 <= r[i].distinct <= r[i].count)
      && (n < 0 ==> forall i :: 0 <= i < |xs| ==> key(xs[i]) in GroupKeys(r))
      && (n < 0 ==> SumCounts(r) == |xs|)
  {
    var sorted := SortBy(GroupBy(xs, key, who), le);
    var r := Limit(sorted, n);
    ArrangedGroups(xs, key, who, sorted);
    SortedPrefix(sorted, r, le);
    assert forall i :: 0 <= i < |r| ==> r[i] == sorted[i];
    assert forall i :: 0 <= i < |r| ==> GroupKeys(r)[i] == GroupKeys(sorted)[i];
    if n < 0 {
      ArrangedGroupsCover(xs, key, who, sorted);
    }
  }

  /** The distinct keys the rows carry. */
  function KeySet<T, K(==)>(xs: seq<T>, key: T -> K): (ks: set<K>)
    ensures forall i :: 0 <= i < |xs| ==> key(xs[i]) in ks
    ensures forall k :: k in ks ==> exists i :: 0 <= i < |xs| && key(xs[i]) == k
  {
    set i | 0 <= i < |xs| :: key(xs[i])
  }

  /** A sequence without repeats has as many elements as its set. */
  lemma {:induction false} NoDupCardinality<K>(ks: seq<K>)
    requires NoDup(ks)
    ensures |set k | k in ks| == |ks|
  {
    if ks != [] {
      var tail := ks[1..];
      assert NoDup(tail) by {
        forall i, j | 0 <= i < j < |tail| ensures tail[i] != tail[j] {
          assert tail[i] == ks[i + 1] && tail[j] == ks[j + 1];
        }
      }
      NoDupCardinality(tail);
      assert ks[0] !in tail;
      assert (set k | k in ks) == (set k | k in tail) + {ks[0]};
    }
  }

  /** `GROUP BY` has one group per distinct key. */
  lemma GroupByCount<T, K, V>(xs: seq<T>, key: T -> K, who: T -> V)
    ensures |GroupBy(xs, key, who)| == |KeySet(xs, key)|
  {
    var ks := Dedup(Keys(xs, key));
    assert (set k | k in ks) == KeySet(xs, key) by {
      forall k | k in KeySet(xs, key) ensures k in ks {
        var i :| 0 <= i < |xs| && key(xs[i]) == k;
        assert Keys(xs, key)[i] == k;
      }
      forall k | k in ks ensures k in KeySet(xs, key) {
        var i :| 0 <= i < |xs| && Keys(xs, key)[i] == k;
      }
    }
    NoDupCardinality(ks);
  }

  /** `LIMIT n` after `ORDER BY le` keeps the leading groups: as many as
      there are keys, up to `n`, and a group left out ranks no higher than
      any group kept. */
  lemma TopGroupsKeeps<T, K(!new), V>(xs: seq<T>, key: T -> K, who: T -> V,
                                      le: (Group<K>, Group<K>) -> bool, n: int)
    requires TotalPreorder(le) && n >= 0
    ensures var r := TopGroups(xs, key, who, le, n);
      && |r| == (if n < |KeySet(xs, key)| then n else |KeySet(xs, key)|)
      && (forall i, j :: 0 <= i < |xs| && 0 <= j < |r| && key(xs[i]) !in GroupKeys(r) ==>
            le(r[j], GroupOf(xs, key, who, key(xs[i]))))
  {
    var sorted := SortBy(GroupBy(xs, key, who), le);
    GroupByCount(xs, key, who);
    assert |sorted| == |multiset(sorted)| == |GroupBy(xs, key, who)|;
    TopGroupsLeftOut(xs, key, who, le, n);
  }

  lemma TopGroupsLeftOut<T, K(!new), V>(xs: seq<T>, key: T -> K, who: T -> V,
                                        le: (Group<K>, Group<K>) -> bool, n: int)
    requires TotalPreorder(le) && n >= 0
    ensures var r := TopGroups(xs, key, who, le, n);
      forall i, j :: 0 <= i < |xs| && 0 <= j < |r| && key(xs[i]) !in GroupKeys(r) ==>
        le(r[j], GroupOf(xs, key, who, key(xs[i])))
  {
    var sorted := SortBy(GroupBy(xs, key, who), le);
    var r := Limit(sorted, n);
    ArrangedGroups(xs, key, who, sorted);
    ArrangedGroupsCover(xs, key, who, sorted);
    forall i, j | 0 <= i < |xs| && 0 <= j < |r| && key(xs[i]) !in GroupKeys(r)
      ensures le(r[j], GroupOf(xs, key, who, key(xs[i])))
    {
      var p :| 0 <= p < |sorted| && GroupKeys(sorted)[p] == key(xs[i]);
      assert r[j] == sorted[j] && j < p;
      assert sorted[p] == GroupOf(xs, key, who, key(xs[i]));
    }
  }

  /** A value no row of the group carries is not among its `who` values. */
  lemma {:induction false} WhoAbsent<T, K, V>(xs: seq<T>, key: T -> K, who: T -> V, k: K, v: V)
    requires forall i :: 0 <= i < |xs| && key(xs[i]) == k ==> who(xs[i]) != v
    ensures v !in Who(xs, key, who, k)
  {
    if xs != [] {
      assert forall i :: 0 <= i < |xs[1..]| ==> xs[1..][i] == xs[i + 1];
      WhoAbsent(xs[1..], key, who, k, v);
    }
  }

  /** When no two rows of group `k` share a `who` value, the group's
      `COUNT(DISTINCT who)` equals its `COUNT(*)`. */
  lemma {:induction false} DistinctWhenUnique<T, K, V>(xs: seq<T>, key: T -> K, who: T -> V, k: K)
    requires forall i, j :: 0 <= i < j < |xs| && key(xs[i]) == k && key(xs[j]) == k ==> who(xs[i]) != who(xs[j])
    ensures |Who(xs, key, who, k)| == CountKey(xs, key, k)
  {
    if xs != [] {
      var tail := xs[1..];
      assert forall i, j :: 0 <= i < j < |tail| && key(tail[i]) == k && key(tail[j]) == k ==> who(tail[i]) != who(tail[j]) by {
        forall i, j | 0 <= i < j < |tail| && key(tail[i]) == k && key(tail[j]) == k
          ensures who(tail[i]) != who(tail[j])
        {
          assert tail[i] == xs[i + 1] && tail[j] == xs[j + 1];
        }
      }
      DistinctWhenUnique(tail, key, who, k);
      if key(xs[0]) == k {
        forall i | 0 <= i < |tail| && key(tail[i]) == k
          ensures who(tail[i]) != who(xs[0])
        {
          assert tail[i] == xs[i + 1];
        }
        WhoAbsent(tail, key, who, k, who(xs[0]));
      }
    }
  }

  /** No two rows share a key. */
  predicate UniqueBy<T, K(==)>(rows: seq<T>, key: T -> K)
  {
    forall i, j :: 0 <= i < j < |rows| ==> key(rows[i]) != key(rows[j])
  }

  /** Every row id was handed out before `bound`. */
  predicate IdsBelow<T>(rows: seq<T>, id: T -> nat, bound: nat)
  {
    forall i :: 0 <= i < |rows| ==> id(rows[i]) < bound
  }

  /** A table keyed by its own id column whose ids all come from the oracle. */
  predicate Keyed<T>(rows: seq<T>, id: T -> nat, bound: nat)
  {
    UniqueBy(rows, id) && IdsBelow(rows, id, bound)
  }

  /** Under a unique key, the key determines the row. */
  lemma UniqueKeyPosition<T, K>(rows: seq<T>, key: T -> K, a: nat, b: nat)
    requires UniqueBy(rows, key) && a < |rows| && b < |rows| && key(rows[a]) == key(rows[b])
    ensures a == b
  {
  }

  /** Under a unique key, a present key occurs exactly once. */
  lemma {:induction false} UniqueKeyCountsOnce<T, K>(rows: seq<T>, key: T -> K, i: nat)
    requires UniqueBy(rows, key) && i < |rows|
    ensures CountKey(rows, key, key(rows[i])) == 1
  {
    if i == 0 {
      assert forall j :: 0 <= j < |rows[1..]| ==> key(rows[1..][j]) != key(rows[0]) by {
        forall j | 0 <= j < |rows[1..]| ensures key(rows[1..][j]) != key(rows[0]) {
          assert rows[1..][j] == rows[j + 1];
        }
      }
      KeyAbsentCountsZero(rows[1..], key, key(rows[0]));
    } else {
      assert rows[1..][i - 1] == rows[i];
      assert UniqueBy(rows[1..], key) by {
        forall a, b | 0 <= a < b < |rows[1..]| ensures key(rows[1..][a]) != key(rows[1..][b]) {
          assert rows[1..][a] == rows[a + 1] && rows[1..][b] == rows[b + 1];
        }
      }
      UniqueKeyCountsOnce(rows[1..], key, i - 1);
      assert key(rows[0]) != key(rows[i]);
    }
  }

  lemma {:induction false} KeyAbsentCountsZero<T, K>(rows: seq<T>, key: T -> K, k: K)
    requires forall j :: 0 <= j < |rows| ==> key(rows[j]) != k
    ensures CountKey(rows, key, k) == 0
  {
    if |rows| > 0 {
      assert forall j :: 0 <= j < |rows[1..]| ==> key(rows[1..][j]) != k by {
        forall j | 0 <= j < |rows[1..]| ensures key(rows[1..][j]) != k {
          assert rows[1..][j] == rows[j + 1];
        }
      }
      KeyAbsentCountsZero(rows[1..], key, k);
    }
  }

  // ---------------------------------------------------------------------
  // Selecting and deleting by key
  // ---------------------------------------------------------------------

  /** `SELECT * WHERE key = k`: the rows carrying `k`, in table order. */
  function Select<T, K(==)>(xs: seq<T>, key: T -> K, k: K): (r: seq<T>)
    ensures |r| == CountKey(xs, key, k)
    ensures forall i :: 0 <= i < |r| ==> key(r[i]) == k
  {
    if xs == [] then []
    else (if key(xs[0]) == k then [xs[0]] else []) + Select(xs[1..], key, k)
  }

  /** A row is selected exactly when it is in the table under the key. */
  lemma {:induction false} SelectMembers<T, K>(xs: seq<T>, key: T -> K, k: K, x: T)
    ensures x in Select(xs, key, k) <==> x in xs && key(x) == k
  {
    if xs != [] {
      SelectMembers(xs[1..], key, k, x);
      assert x in xs <==> x == xs[0] || x in xs[1..];
    }
  }

  /** `DELETE WHERE key = k`: the rows that remain, in table order. */
  function Drop<T, K(==)>(xs: seq<T>, key: T -> K, k: K): (r: seq<T>)
    ensures |r| + CountKey(xs, key, k) == |xs|
    ensures forall i :: 0 <= i < |r| ==> key(r[i]) != k
    ensures forall x :: x in r ==> x in xs
  {
    if xs == [] then []
    else (if key(xs[0]) == k then [] else [xs[0]]) + Drop(xs[1..], key, k)
  }

  /** Deleting the rows under `k` leaves every other key's rows as they were. */
  lemma {:induction false} DropKeepsOthers<T, K>(xs: seq<T>, key: T -> K, k: K, other: K)
    requires other != k
    ensures Select(Drop(xs, key, k), key, other) == Select(xs, key, other)
  {
    if xs != [] {
      var rest := Drop(xs[1..], key, k);
      DropKeepsOthers(xs[1..], key, k, other);
      var r := Drop(xs, key, k);
      if key(xs[0]) != k {
        assert r[0] == xs[0] && r[1..] == rest;
        assert Select(r, key, other) == (if key(xs[0]) == other then [xs[0]] else []) + Select(rest, key, other);
      } else {
        assert r == rest;
      }
    }
  }

  lemma {:induction false} SelectAppend<T, K>(a: seq<T>, b: seq<T>, key: T -> K, k: K)
    ensures Select(a + b, key, k) == Select(a, key, k) + Select(b, key, k)
  {
    if a == [] {
      assert a + b == b;
    } else {
      assert (a + b)[0] == a[0] && (a + b)[1..] == a[1..] + b;
      SelectAppend(a[1..], b, key, k);
    }
  }

  lemma {:induction false} SelectAll<T, K>(xs: seq<T>, key: T -> K, k: K)
    requires forall i :: 0 <= i < |xs| ==> key(xs[i]) == k
    ensures Select(xs, key, k) == xs
  {
    if xs != [] {
      SelectAll(xs[1..], key, k);
    }
  }

  lemma {:induction false} SelectNone<T, K>(xs: seq<T>, key: T -> K, k: K)
    requires forall i :: 0 <= i < |xs| ==> key(xs[i]) != k
    ensures Select(xs, key, k) == []
  {
    if xs != [] {
      SelectNone(xs[1..], key, k);
    }
  }

  /** Replacing the rows under `k`: delete them, then append `added`, all of
      which carry `k`. Afterwards the rows under `k` are exactly `added` and
      every other key keeps its rows. */
  lemma Replace<T, K>(xs: seq<T>, key: T -> K, k: K, added: seq<T>)
    requires forall i :: 0 <= i < |added| ==> key(added[i]) == k
    ensures Select(Drop(xs, key, k) + added, key, k) == added
    ensures forall k' :: k' != k ==> Select(Drop(xs, key, k) + added, key, k') == Select(xs, key, k')
  {
    var d := Drop(xs, key, k);
    SelectAppend(d, added, key, k);
    SelectNone(d, key, k);
    SelectAll(added, key, k);
    forall k' | k' != k
      ensures Select(d + added, key, k') == Select(xs, key, k')
    {
      DropKeepsOthers(xs, key, k, k');
      SelectAppend(d, added, key, k');
      SelectNone(added, key, k');
      assert Select(d, key, k') + [] == Select(d, key, k');
    }
  }

  /** `SELECT * WHERE key = k` read with `db.get`: the position of the first
      row carrying `k`, or `None` when no row does. */
  function FindKey<T, K(==)>(xs: seq<T>, key: T -> K, k: K): (r: Js.Option<nat>)
    ensures r.Some? ==> r.value < |xs| && key(xs[r.value]) == k
    ensures r.Some? ==> forall j :: 0 <= j < r.value ==> key(xs[j]) != k
    ensures r.None? <==> forall j :: 0 <= j < |xs| ==> key(xs[j]) != k
  {
    if xs == [] then Js.None
    else if key(xs[0]) == k then Js.Some(0)
    else
      var r := FindKey(xs[1..], key, k);
      assert forall j :: 0 < j < |xs| ==> xs[j] == xs[1..][j - 1];
      if r.None? then Js.None else Js.Some(r.value + 1)
  }

  /** Under a unique key, the row found is the only one carrying it. */
  lemma FindUniqueKey<T, K>(xs: seq<T>, key: T -> K, i: nat)
    requires UniqueBy(xs, key) && i < |xs|
    ensures FindKey(xs, key, key(xs[i])) == Js.Some(i)
  {
  }

  /** A row appended under a key no earlier row carries is the one found. */
  lemma FindAppended<T, K>(xs: seq<T>, key: T -> K, x: T)
    requires forall j :: 0 <= j < |xs| ==> key(xs[j]) != key(x)
    ensures FindKey(xs + [x], key, key(x)) == Js.Some(|xs|)
  {
    var ys := xs + [x];
    assert forall j :: 0 <= j < |xs| ==> ys[j] == xs[j];
    assert ys[|xs|] == x;
  }
}

=== FILE: Text.dfy ===
/** String operations of the JavaScript runtime that the handlers rely on:
    substring search, case-insensitive search with an ASCII pattern,
    `String.prototype.trim` and `String.prototype.toUpperCase`.
    Every character these operations single out lies in the Basic
    Multilingual Plane, where one Dafny `char` is one JavaScript code unit. */
module Text {

  /** `t` occurs in `s` as a contiguous run (JavaScript `s.includes(t)`). */
  predicate Contains(s: string, t: string)
    decreases |s|
  {
    t <= s || (|s| > 0 && Contains(s[1..], t))
  }

  /** `t` occurs in `s` starting at position `i`. */
  predicate OccursAt(s: string, t: string, i: nat)
  {
    i + |t| <= |s| && s[i..i + |t|] == t
  }

  /** The recursive definition agrees with "some window of `s` equals `t`". */
  lemma {:induction false} ContainsIffOccurs(s: string, t: string)
    ensures Contains(s, t) <==> exists i: nat :: OccursAt(s, t, i)
    decreases |s|
  {
    if t <= s {
      assert OccursAt(s, t, 0);
    } else if |s| > 0 {
      ContainsIffOccurs(s[1..], t);
      if exists i: nat :: OccursAt(s, t, i) {
        var i: nat :| OccursAt(s, t, i);
        assert i != 0;
        assert OccursAt(s[1..], t, i - 1) by {
          assert s[1..][i - 1..i - 1 + |t|] == s[i..i + |t|];
        }
      }
      if Contains(s[1..], t) {
        var i: nat :| OccursAt(s[1..], t, i);
        assert OccursAt(s, t, i + 1) by {
          assert s[1..][i..i + |t|] == s[i + 1..i + 1 + |t|];
        }
      }
    } else {
      assert forall i: nat :: !OccursAt(s, t, i);
    }
  }

  /** An occurrence of `t` at position `i` is found by `Contains`. */
  lemma OccursContains(s: string, t: string, i: nat)
    requires OccursAt(s, t, i)
    ensures Contains(s, t)
  {
    ContainsIffOccurs(s, t);
  }

  /** Containment is transitive: a string containing `u` contains everything `u` contains. */
  lemma ContainsTransitive(s: string, u: string, t: string)
    requires Contains(s, u) && Contains(u, t)
    ensures Contains(s, t)
  {
    ContainsIffOccurs(s, u);
    ContainsIffOccurs(u, t);
    var i: nat :| OccursAt(s, u, i);
    var j: nat :| OccursAt(u, t, j);
    forall k | 0 <= k < |t|
      ensures s[i + j + k] == t[k]
    {
      assert u[j..j + |t|][k] == u[j + k];
      assert s[i..i + |u|][j + k] == s[i + j + k];
    }
    assert s[i + j..i + j + |t|] == t;
    OccursContains(s, t, i + j);
  }

  /** A pattern holding a character the text lacks does not occur in it. */
  lemma MissingCharNotContained(s: string, t: string, c: char)
    requires c in t && c !in s
    ensures !Contains(s, t)
  {
    var k :| 0 <= k < |t| && t[k] == c;
    forall i: nat | i + |t| <= |s|
      ensures !OccursAt(s, t, i)
    {
      assert s[i..i + |t|][k] == s[i + k] != c;
    }
    ContainsIffOccurs(s, t);
  }

  /** A padding-free string is its own trim. */
  lemma TrimOfUnpadded(s: string)
    requires s == [] || (!IsJsWhitespace(s[0]) && !IsJsWhitespace(s[|s| - 1]))
    ensures Trim(s) == s
  {
  }

  /** Trimming twice is trimming once. */
  lemma TrimIdempotent(s: string)
    ensures Trim(Trim(s)) == Trim(s)
  {
    TrimOfUnpadded(Trim(s));
  }

  /** Trimming a padding-free string behind leading blanks recovers it. */
  lemma TrimLeadingBlanks(w: string, s: string)
    requires AllWhitespace(w)
    requires s == [] || (!IsJsWhitespace(s[0]) && !IsJsWhitespace(s[|s| - 1]))
    ensures Trim(w + s) == s
  {
    TrimIgnoresSurroundingWhitespace(w, s, "");
    assert w + s + "" == w + s;
    TrimOfUnpadded(s);
  }

  /** A non-empty pattern never occurs in the empty string. */
  lemma EmptyContainsNothing(t: string)
    requires t != []
    ensures !Contains([], t)
  {
  }

  /** ASCII lower-casing of one code unit; every other code unit is kept. */
  function LowerChar(c: char): char
  {
    if 'A' <= c <= 'Z' then (c as int + 32) as char else c
  }

  /** ASCII lower-casing of a string, code unit by code unit. */
  function LowerAscii(s: string): (r: string)
    ensures |r| == |s|
    ensures forall i :: 0 <= i < |s| ==> r[i] == LowerChar(s[i])
  {
    seq(|s|, i requires 0 <= i < |s| => LowerChar(s[i]))
  }

  /** A regular expression `/p/i` with a lower-case ASCII pattern `p` matches `s`.
      Under the `i` flag JavaScript canonicalises both sides by upper-casing,
      but never maps a non-ASCII code unit to an ASCII one, so for an ASCII
      pattern this is exactly a search in the ASCII-lower-cased subject. */
  predicate MatchesIgnoringCase(s: string, p: string)
  {
    Contains(LowerAscii(s), p)
  }

  /** The code units `String.prototype.trim` removes: ECMAScript WhiteSpace
      (tab, vertical tab, form feed, space, no-break space, byte-order mark
      and the space separators) and LineTerminator (LF, CR, LS, PS). */
  predicate IsJsWhitespace(c: char)
  {
    || c == '\t' || c == '\n' || c == '\U{B}' || c == '\U{C}' || c == '\r' || c == ' '
    || c == '\U{A0}' || c == '\U{1680}' || ('\U{2000}' <= c <= '\U{200A}')
    || c == '\U{2028}' || c == '\U{2029}' || c == '\U{202F}' || c == '\U{205F}'
    || c == '\U{3000}' || c == '\U{FEFF}'
  }

  predicate AllWhitespace(s: string)
  {
    forall i :: 0 <= i < |s| ==> IsJsWhitespace(s[i])
  }

  function TrimStart(s: string): (r: string)
    ensures |r| <= |s| && s[|s| - |r|..] == r
    ensures AllWhitespace(s[..|s| - |r|])
    ensures r == [] || !IsJsWhitespace(r[0])
  {
    if |s| > 0 && IsJsWhitespace(s[0]) then
      var r := TrimStart(s[1..]);
      assert s[..|s| - |r|] == [s[0]] + s[1..][..|s| - 1 - |r|];
      r
    else s
  }

  function TrimEnd(s: string): (r: string)
    ensures |r| <= |s| && s[..|r|] == r
    ensures AllWhitespace(s[|r|..])
    ensures r == [] || !IsJsWhitespace(r[|r| - 1])
  {
    if |s| > 0 && IsJsWhitespace(s[|s| - 1]) then
      var r := TrimEnd(s[..|s| - 1]);
      assert s[|r|..] == s[..|s| - 1][|r|..] + [s[|s| - 1]];
      r
    else s
  }

  /** `s` is `r` with the whitespace run `s[..i]` before it and the
      whitespace run `s[i + |r|..]` after it. */
  predicate PaddedAt(s: string, r: string, i: nat)
  {
    i + |r| <= |s| && s[i..i + |r|] == r && AllWhitespace(s[..i]) && AllWhitespace(s[i + |r|..])
  }

  /** `String.prototype.trim`: `s` with its leading and trailing whitespace
      cut off, so that what is left neither starts nor ends with whitespace. */
  function Trim(s: string): (r: string)
    ensures exists i: nat :: PaddedAt(s, r, i)
    ensures r == [] || (!IsJsWhitespace(r[0]) && !IsJsWhitespace(r[|r| - 1]))
  {
    var a := TrimStart(s);
    var r := TrimEnd(a);
    TrimmedBothEnds(s, a, r);
    r
  }

  /** Cutting a whitespace run off the front of `s`, giving `a`, and then a
      whitespace run off the back of `a`, giving `r`, leaves `r` padded in `s`. */
  lemma TrimmedBothEnds(s: string, a: string, r: string)
    requires |a| <= |s| && s[|s| - |a|..] == a && AllWhitespace(s[..|s| - |a|])
    requires |r| <= |a| && a[..|r|] == r && AllWhitespace(a[|r|..])
    requires a == [] || !IsJsWhitespace(a[0])
    requires r == [] || !IsJsWhitespace(r[|r| - 1])
    ensures PaddedAt(s, r, |s| - |a|)
    ensures r == [] || (!IsJsWhitespace(r[0]) && !IsJsWhitespace(r[|r| - 1]))
  {
    if r != [] {
      assert r[0] == a[0];
    }
    var i := |s| - |a|;
    assert s[i..i + |r|] == a[..|r|];
    assert s[i + |r|..] == a[|r|..];
  }

  lemma TrimStartWhitespacePrefix(w: string, s: string)
    requires AllWhitespace(w)
    ensures TrimStart(w + s) == TrimStart(s)
    decreases |w|
  {
    if w != [] {
      assert (w + s)[1..] == w[1..] + s;
      TrimStartWhitespacePrefix(w[1..], s);
    } else {
      assert w + s == s;
    }
  }

  lemma TrimEndWhitespaceSuffix(s: string, w: string)
    requires AllWhitespace(w)
    ensures TrimEnd(s + w) == TrimEnd(s)
    decreases |w|
  {
    if w != [] {
      assert (s + w)[..|s + w| - 1] == s + w[..|w| - 1];
      TrimEndWhitespaceSuffix(s, w[..|w| - 1]);
    } else {
      assert s + w == s;
    }
  }

  lemma TrimStartOfAppend(s: string, w: string)
    ensures TrimStart(s + w) == TrimStart(s) + w || (AllWhitespace(s) && TrimStart(s + w) == TrimStart(w))
    decreases |s|
  {
    if s == [] {
      assert s + w == w;
    } else if IsJsWhitespace(s[0]) {
      assert (s + w)[1..] == s[1..] + w;
      TrimStartOfAppend(s[1..], w);
    }
  }

  /** Whitespace around a string never changes its trimmed form. */
  lemma {:induction false} TrimIgnoresSurroundingWhitespace(w1: string, s: string, w2: string)
    requires AllWhitespace(w1) && AllWhitespace(w2)
    ensures Trim(w1 + s + w2) == Trim(s)
  {
    assert w1 + s + w2 == w1 + (s + w2);
    TrimStartWhitespacePrefix(w1, s + w2);
    TrimStartOfAppend(s, w2);
    if TrimStart(s + w2) == TrimStart(s) + w2 {
      TrimEndWhitespaceSuffix(TrimStart(s), w2);
    } else {
      assert AllWhitespace(s) && TrimStart(s + w2) == TrimStart(w2);
      AllWhitespaceTrimsToEmpty(w2);
      AllWhitespaceTrimsToEmpty(s);
    }
  }

  lemma AllWhitespaceTrimsToEmpty(w: string)
    requires AllWhitespace(w)
    ensures TrimStart(w) == [] && Trim(w) == []
  {
    assert w == w + [];
    TrimStartWhitespacePrefix(w, []);
  }

  /** Upper-case form of one code unit under `String.prototype.toUpperCase`,
      exact for ASCII and for every code unit whose upper-case form contains
      an ASCII letter (dotless i, long s, sharp s, the Latin ligatures and the
      letters whose upper case adds a combining mark). Other non-ASCII code
      units are kept as they are: their upper-case forms hold no ASCII letter,
      so no decision made on ASCII words depends on them. */
  function UpperChar(c: char): string
  {
    if 'a' <= c <= 'z' then [(c as int - 32) as char]
    else if c == '\U{131}' then "I"              // dotless i
    else if c == '\U{17F}' then "S"              // long s
    else if c == '\U{DF}' then "SS"              // sharp s
    else if c == '\U{149}' then "\U{2BC}N"       // n preceded by apostrophe
    else if c == '\U{1F0}' then "J\U{30C}"       // j with caron
    else if c == '\U{1E96}' then "H\U{331}"      // h with line below
    else if c == '\U{1E97}' then "T\U{308}"      // t with diaeresis
    else if c == '\U{1E98}' then "W\U{30A}"      // w with ring above
    else if c == '\U{1E99}' then "Y\U{30A}"      // y with ring above
    else if c == '\U{1E9A}' then "A\U{2BE}"      // a with right half ring
    else if c == '\U{FB00}' then "FF"            // ligatures ff, fi, fl, ffi, ffl, long st, st
    else if c == '\U{FB01}' then "FI"
    else if c == '\U{FB02}' then "FL"
    else if c == '\U{FB03}' then "FFI"
    else if c == '\U{FB04}' then "FFL"
    else if c == '\U{FB05}' then "ST"
    else if c == '\U{FB06}' then "ST"
    else [c]
  }

  /** `String.prototype.toUpperCase`, code unit by code unit. */
  function Upper(s: string): string
  {
    if s == [] then [] else UpperChar(s[0]) + Upper(s[1..])
  }

  lemma UpperAppend(a: string, b: string)
    ensures Upper(a + b) == Upper(a) + Upper(b)
  {
    if a != [] {
      assert (a + b)[1..] == a[1..] + b;
    } else {
      assert a + b == b;
    }
  }

  lemma UpperOfFixedPoints(u: string)
    requires forall i :: 0 <= i < |u| ==> UpperChar(u[i]) == [u[i]]
    ensures Upper(u) == u
  {
    if u != [] {
      UpperOfFixedPoints(u[1..]);
    }
  }

  /** ASCII text without lower-case letters. */
  predicate PlainUpper(u: string)
  {
    forall i :: 0 <= i < |u| ==> u[i] < '\U{80}' && !('a' <= u[i] <= 'z')
  }

  /** ASCII text without lower-case letters is its own upper case. */
  lemma UpperOfPlainUpper(u: string)
    requires PlainUpper(u)
    ensures Upper(u) == u
  {
    UpperOfFixedPoints(u);
  }

  /** Every code unit `UpperChar` produces is its own upper case. */
  /** Upper-casing the ASCII lower-case form of plain upper-case text gives
      that text back. */
  lemma UpperOfLowered(q: string, n: string)
    requires PlainUpper(n) && LowerAscii(n) == q
    ensures Upper(q) == n
  {
    UpperOfLowerAscii(n);
    UpperOfPlainUpper(n);
  }

  lemma UpperCharFixed(c: char)
    ensures Upper(UpperChar(c)) == UpperChar(c)
  {
    UpperOfFixedPoints(UpperChar(c));
  }

  /** Upper-casing twice is upper-casing once. */
  lemma {:induction false} UpperIdempotent(s: string)
    ensures Upper(Upper(s)) == Upper(s)
  {
    if s != [] {
      UpperAppend(UpperChar(s[0]), Upper(s[1..]));
      UpperCharFixed(s[0]);
      UpperIdempotent(s[1..]);
    }
  }

  /** Upper-casing after ASCII lower-casing is plain upper-casing. */
  lemma {:induction false} UpperOfLowerAscii(s: string)
    ensures Upper(LowerAscii(s)) == Upper(s)
  {
    if s != [] {
      assert LowerAscii(s)[1..] == LowerAscii(s[1..]);
      UpperOfLowerAscii(s[1..]);
    }
  }

  lemma UpperAllWhitespace(w: string)
    requires AllWhitespace(w)
    ensures Upper(w) == w
  {
    if w != [] {
      UpperAllWhitespace(w[1..]);
    }
  }

  /** Upper-casing keeps exactly the whitespace it is given: a non-whitespace
      code unit never upper-cases to (or to a run starting or ending with) whitespace. */
  lemma UpperCharWhitespace(c: char)
    ensures IsJsWhitespace(c) ==> UpperChar(c) == [c]
    ensures !IsJsWhitespace(c) ==>
              (|UpperChar(c)| > 0 && !IsJsWhitespace(UpperChar(c)[0])
               && !IsJsWhitespace(UpperChar(c)[|UpperChar(c)| - 1]))
  {
  }

  lemma TrimStartUpper(s: string)
    ensures TrimStart(Upper(s)) == Upper(TrimStart(s))
  {
    if s != [] {
      UpperCharWhitespace(s[0]);
      if IsJsWhitespace(s[0]) {
        assert Upper(s) == [s[0]] + Upper(s[1..]);
        TrimStartUpper(s[1..]);
      }
    }
  }

  lemma TrimEndUpper(s: string)
    ensures TrimEnd(Upper(s)) == Upper(TrimEnd(s))
    decreases |s|
  {
    if s != [] {
      var init, last := s[..|s| - 1], s[|s| - 1];
      assert s == init + [last];
      UpperAppend(init, [last]);
      assert Upper([last]) == UpperChar(last) + Upper([]);
      UpperCharWhitespace(last);
      if IsJsWhitespace(last) {
        assert Upper(s) == Upper(init) + [last];
        assert Upper(s)[..|Upper(s)| - 1] == Upper(init);
        TrimEndUpper(init);
      } else {
        assert Upper(s) == Upper(init) + UpperChar(last);
      }
    }
  }

  /** Trimming and upper-casing commute. */
  lemma TrimUpper(s: string)
    ensures Trim(Upper(s)) == Upper(Trim(s))
  {
    TrimStartUpper(s);
    TrimEndUpper(TrimStart(s));
  }

  /** SQLite's `BINARY` collation on text: code unit by code unit, a proper
      prefix first. */
  predicate TextLe(a: string, b: string)
  {
    a == [] || (b != [] && (a[0] < b[0] || (a[0] == b[0] && TextLe(a[1..], b[1..]))))
  }

  lemma {:induction false} TextLeTotal(a: string, b: string)
    ensures TextLe(a, b) || TextLe(b, a)
  {
    if a != [] && b != [] && a[0] == b[0] {
      TextLeTotal(a[1..], b[1..]);
    }
  }

  lemma {:induction false} TextLeTransitive(a: string, b: string, c: string)
    requires TextLe(a, b) && TextLe(b, c)
    ensures TextLe(a, c)
  {
    if a != [] && b != [] && c != [] && a[0] == b[0] && b[0] == c[0] {
      TextLeTransitive(a[1..], b[1..], c[1..]);
    }
  }

  lemma {:induction false} TextLeAntisymmetric(a: string, b: string)
    requires TextLe(a, b) && TextLe(b, a)
    ensures a == b
  {
    if a != [] {
      TextLeAntisymmetric(a[1..], b[1..]);
      assert a == [a[0]] + a[1..] && b == [b[0]] + b[1..];
    }
  }
}

=== FILE: Users.dfy ===
/** The user handlers: get-or-create a user for a session, change a user's
    email, read a user.

    The session id comes from the `x-session-id` header, or is minted by the
    server when the header is missing, so it arrives as a parameter. The
    email check of the request validator is the abstract predicate
    `isEmail` on text. `uuidv4` is the fresh-id oracle `nextId`. Every
    database statement is taken to succeed. */
module Users {
  import opened Js
  import Rows

  type Id = nat
  type Props = seq<(string, JsValue)>

  /** A user row; `email` is `None` for an anonymous user. */
  datatype User = User(id: Id, email: Option<string>)

  /** A session row: the session id, its user, and the client it came from. */
  datatype Session = Session(id: string, userId: Id, ipAddress: string, userAgent: Option<string>)

  datatype Store = Store(users: seq<User>, sessions: seq<Session>, nextId: Id)

  /** The handlers' answers; `Ok` carries the user the response shows, which
      is absent when the row looked up is not there. */
  datatype Reply = BadRequest | Conflict | NotFound | Ok(user: Option<User>)

  datatype Outcome = Outcome(reply: Reply, store: Store)

  function Status(r: Reply): (code: nat)
    ensures code == 200 <==> r.Ok?
    ensures code in {200, 400, 404, 409}
  {
    match r
    case BadRequest => 400
    case Conflict => 409
    case NotFound => 404
    case Ok(_) => 200
  }

  // Row keys, as function values for the generic table operations.
  function UserId(u: User): Id { u.id }
  function UserEmail(u: User): Option<string> { u.email }
  function SessionId(s: Session): string { s.id }

  /** User ids are unique and issued, no two users share an email, session
      ids are unique, and every session belongs to a user. */
  predicate Valid(s: Store)
  {
    && Rows.Keyed(s.users, UserId, s.nextId)
    && UniqueEmails(s.users)
    && Rows.UniqueBy(s.sessions, SessionId)
    && forall j :: 0 <= j < |s.sessions| ==> Rows.FindKey(s.users, UserId, s.sessions[j].userId).Some?
  }

  /** Anonymous users aside, an email names at most one user. */
  predicate UniqueEmails(us: seq<User>)
  {
    forall i, j :: 0 <= i < j < |us| && us[i].email.Some? ==> us[i].email != us[j].email
  }

  /** `SELECT * FROM users WHERE id = ?`. */
  function UserById(us: seq<User>, id: Id): (r: Option<User>)
    ensures r.Some? ==> r.value in us && r.value.id == id
    ensures r.None? <==> forall i :: 0 <= i < |us| ==> us[i].id != id
  {
    match Rows.FindKey(us, UserId, id)
    case None => None
    case Some(i) => Some(us[i])
  }

  /** The validator's email rule: a string that `isEmail` accepts. */
  predicate IsEmail(isEmail: string -> bool, v: JsValue)
  {
    v.JStr? && isEmail(v.s)
  }

  // ---------------------------------------------------------------------
  // POST /session
  // ---------------------------------------------------------------------

  /** `optional().isEmail()`: an absent email passes, a present one must be
      an email. */
  predicate SessionEmailValid(isEmail: string -> bool, body: Props)
  {
    Member(body, "email").JUndefined? || IsEmail(isEmail, Member(body, "email"))
  }

  /** `POST /session`. With a truthy email: the first user holding it, or a
      new user carrying it. Without: the user of the session row, or a new
      anonymous user together with a session row for the session id. */
  function StartSession(s: Store, isEmail: string -> bool, sessionId: string,
                        ip: string, userAgent: Option<string>, body: Props): Outcome
  {
    var email := Member(body, "email");
    if !SessionEmailValid(isEmail, body) then Outcome(BadRequest, s)
    else if Truthy(email) then
      match Rows.FindKey(s.users, UserEmail, Some(email.s))
      case Some(i) => Outcome(Ok(Some(s.users[i])), s)
      case None =>
        var u := User(s.nextId, Some(email.s));
        Outcome(Ok(Some(u)), s.(users := s.users + [u], nextId := s.nextId + 1))
    else
      match Rows.FindKey(s.sessions, SessionId, sessionId)
      case Some(j) => Outcome(Ok(UserById(s.users, s.sessions[j].userId)), s)
      case None =>
        var u := User(s.nextId, None);
        var row := Session(sessionId, s.nextId, ip, userAgent);
        Outcome(Ok(Some(u)), s.(users := s.users + [u], sessions := s.sessions + [row], nextId := s.nextId + 1))
  }

  /** A present email that is not an email is refused with 400, before
      anything is read or written; every other request succeeds. */
  lemma StartSessionRejectsIff(s: Store, isEmail: string -> bool, sessionId: string,
                               ip: string, userAgent: Option<string>, body: Props)
    ensures var o := StartSession(s, isEmail, sessionId, ip, userAgent, body);
      && (o.reply == BadRequest <==> Member(body, "email") != JUndefined && !IsEmail(isEmail, Member(body, "email")))
      && (o.reply == BadRequest ==> o.store == s)
      && Status(o.reply) in {200, 400}
  {
  }

  /** With an email: a user already holding it is returned and nothing is
      written; otherwise exactly one user is added, with a fresh id and that
      email, and returned. Sessions are never touched. */
  lemma StartSessionWithEmail(s: Store, isEmail: string -> bool, sessionId: string,
                              ip: string, userAgent: Option<string>, body: Props, e: string)
    requires Valid(s)
    requires Member(body, "email") == JStr(e) && e != "" && isEmail(e)
    ensures var o := StartSession(s, isEmail, sessionId, ip, userAgent, body);
      && o.store.sessions == s.sessions
      && o.reply.Ok? && o.reply.user.Some? && o.reply.user.value.email == Some(e)
      && ((exists i :: 0 <= i < |s.users| && s.users[i].email == Some(e)) ==>
            o.store == s && o.reply.user.value in s.users)
      && ((forall i :: 0 <= i < |s.users| ==> s.users[i].email != Some(e)) ==>
            && o.store.users == s.users + [o.reply.user.value]
            && UserById(s.users, o.reply.user.value.id).None?)
  {
    var o := StartSession(s, isEmail, sessionId, ip, userAgent, body);
    if Rows.FindKey(s.users, UserEmail, Some(e)).None? {
      assert UserById(s.users, s.nextId).None? by {
        assert forall i :: 0 <= i < |s.users| ==> UserId(s.users[i]) < s.nextId;
      }
    }
  }

  /** Without an email and with a known session id, the session's user is
      returned (absent if that row is gone) and nothing is written. */
  lemma StartSessionResumes(s: Store, isEmail: string -> bool, sessionId: string,
                            ip: string, userAgent: Option<string>, body: Props, j: nat)
    requires Valid(s)
    requires !Truthy(Member(body, "email")) && SessionEmailValid(isEmail, body)
    requires j < |s.sessions| && s.sessions[j].id == sessionId
    ensures var o := StartSession(s, isEmail, sessionId, ip, userAgent, body);
      && o.store == s
      && o.reply == Ok(UserById(s.users, s.sessions[j].userId))
      && o.reply.user.Some?
  {
    Rows.FindUniqueKey(s.sessions, SessionId, j);
  }

  /** Without an email and with an unknown session id, exactly one
      anonymous user and one session row for the session id and that user
      are added, and the new user is returned. */
  lemma StartSessionAnonymous(s: Store, isEmail: string -> bool, sessionId: string,
                              ip: string, userAgent: Option<string>, body: Props)
    requires Valid(s)
    requires !Truthy(Member(body, "email")) && SessionEmailValid(isEmail, body)
    requires forall j :: 0 <= j < |s.sessions| ==> s.sessions[j].id != sessionId
    ensures var o := StartSession(s, isEmail, sessionId, ip, userAgent, body);
      && o.reply.Ok? && o.reply.user.Some?
      && o.reply.user.value.email.None?
      && UserById(s.users, o.reply.user.value.id).None?
      && o.store.users == s.users + [o.reply.user.value]
      && o.store.sessions == s.sessions + [Session(sessionId, o.reply.user.value.id, ip, userAgent)]
  {
    assert forall i :: 0 <= i < |s.users| ==> UserId(s.users[i]) < s.nextId;
  }

  /** Every answer of the handler keeps the store valid. */
  lemma StartSessionPreservesValid(s: Store, isEmail: string -> bool, sessionId: string,
                                   ip: string, userAgent: Option<string>, body: Props)
    requires Valid(s)
    ensures Valid(StartSession(s, isEmail, sessionId, ip, userAgent, body).store)
  {
    var o := StartSession(s, isEmail, sessionId, ip, userAgent, body);
    var t := o.store;
    if t != s {
      var u := User(s.nextId, t.users[|s.users|].email);
      assert t.users == s.users + [u];
      assert forall i :: 0 <= i < |s.users| ==> UserId(s.users[i]) < s.nextId;
      forall j | 0 <= j < |t.sessions|
        ensures Rows.FindKey(t.users, UserId, t.sessions[j].userId).Some?
      {
        if j < |s.sessions| {
          var k := Rows.FindKey(s.users, UserId, s.sessions[j].userId).value;
          assert t.users[k] == s.users[k];
        } else {
          assert t.users[|s.users|].id == t.sessions[j].userId;
        }
      }
    }
  }

  /** Asking again with the same request changes nothing and returns the
      same user: the first call leaves behind the user holding the email, or
      the session row for the session id. */
  lemma StartSessionIdempotent(s: Store, isEmail: string -> bool, sessionId: string,
                               ip: string, userAgent: Option<string>, body: Props)
    requires Valid(s)
    ensures var o := StartSession(s, isEmail, sessionId, ip, userAgent, body);
      var o2 := StartSession(o.store, isEmail, sessionId, ip, userAgent, body);
      o2 == Outcome(o.reply, o.store)
  {
    var o := StartSession(s, isEmail, sessionId, ip, userAgent, body);
    var email := Member(body, "email");
    if SessionEmailValid(isEmail, body) && o.store != s {
      if Truthy(email) {
        EmailUserFoundAgain(s, email.s);
      } else {
        SessionFoundAgain(s, sessionId, ip, userAgent);
      }
    }
  }

  lemma EmailUserFoundAgain(s: Store, e: string)
    requires Rows.FindKey(s.users, UserEmail, Some(e)).None?
    ensures var u := User(s.nextId, Some(e));
      Rows.FindKey(s.users + [u], UserEmail, Some(e)) == Some(|s.users|)
  {
    Rows.FindAppended(s.users, UserEmail, User(s.nextId, Some(e)));
  }

  lemma SessionFoundAgain(s: Store, sessionId: string, ip: string, userAgent: Option<string>)
    requires Valid(s)
    requires Rows.FindKey(s.sessions, SessionId, sessionId).None?
    ensures var u := User(s.nextId, None);
      var row := Session(sessionId, s.nextId, ip, userAgent);
      && Rows.FindKey(s.sessions + [row], SessionId, sessionId) == Some(|s.sessions|)
      && UserById(s.users + [u], s.nextId) == Some(u)
  {
    assert forall i :: 0 <= i < |s.users| ==> UserId(s.users[i]) < s.nextId;
    Rows.FindAppended(s.sessions, SessionId, Session(sessionId, s.nextId, ip, userAgent));
    Rows.FindAppended(s.users, UserId, User(s.nextId, None));
  }

  // ---------------------------------------------------------------------
  // PATCH /:userId
  // ---------------------------------------------------------------------

  /** `SELECT id FROM users WHERE email = ? AND id != ?` finds a row. */
  predicate HeldByOther(us: seq<User>, e: string, id: Id)
  {
    exists i :: 0 <= i < |us| && us[i].email == Some(e) && us[i].id != id
  }

  /** `UPDATE users SET email = ? WHERE id = ?`. */
  function SetEmail(us: seq<User>, id: Id, e: string): (r: seq<User>)
    ensures |r| == |us|
  {
    seq(|us|, i requires 0 <= i < |us| => if us[i].id == id then us[i].(email := Some(e)) else us[i])
  }

  /** `PATCH /:userId`: 400 unless the email is an email, 409 when another
      user holds it, otherwise the update and the user as now stored. */
  function ChangeEmail(s: Store, isEmail: string -> bool, userId: Id, body: Props): Outcome
  {
    var email := Member(body, "email");
    if !IsEmail(isEmail, email) then Outcome(BadRequest, s)
    else if HeldByOther(s.users, email.s, userId) then Outcome(Conflict, s)
    else
      var t := s.(users := SetEmail(s.users, userId, email.s));
      Outcome(Ok(UserById(t.users, userId)), t)
  }

  /** 400 exactly when the email is missing or not an email, 409 exactly
      when a different user already holds it; both write nothing. */
  lemma ChangeEmailStatusIff(s: Store, isEmail: string -> bool, userId: Id, body: Props)
    ensures var o := ChangeEmail(s, isEmail, userId, body);
      && (o.reply == BadRequest <==> !IsEmail(isEmail, Member(body, "email")))
      && (o.reply == Conflict <==> IsEmail(isEmail, Member(body, "email")) && HeldByOther(s.users, Member(body, "email").s, userId))
      && (!o.reply.Ok? ==> o.store == s)
      && Status(o.reply) in {200, 400, 409}
  {
  }

  /** Setting the email a user already holds is no conflict. */
  lemma ChangeEmailToOwn(s: Store, isEmail: string -> bool, body: Props, i: nat)
    requires Valid(s) && i < |s.users|
    requires s.users[i].email.Some? && Member(body, "email") == JStr(s.users[i].email.value)
    requires isEmail(s.users[i].email.value)
    ensures ChangeEmail(s, isEmail, s.users[i].id, body).reply.Ok?
  {
  }

  /** A successful change sets the email of the user with that id and of no
      one else; sessions and the id oracle stay as they were, and the reply
      shows the updated user, or nothing for an unknown id. */
  lemma ChangeEmailEffect(s: Store, isEmail: string -> bool, userId: Id, body: Props)
    requires ChangeEmail(s, isEmail, userId, body).reply.Ok?
    ensures var o := ChangeEmail(s, isEmail, userId, body);
      var e := Member(body, "email").s;
      && |o.store.users| == |s.users|
      && (forall i :: 0 <= i < |s.users| && s.users[i].id == userId ==> o.store.users[i] == User(userId, Some(e)))
      && (forall i :: 0 <= i < |s.users| && s.users[i].id != userId ==> o.store.users[i] == s.users[i])
      && o.store.sessions == s.sessions && o.store.nextId == s.nextId
      && (o.reply.user.Some? <==> UserById(s.users, userId).Some?)
      && (o.reply.user.Some? ==> o.reply.user.value == User(userId, Some(e)))
  {
    var o := ChangeEmail(s, isEmail, userId, body);
    var e := Member(body, "email").s;
    var t := o.store.users;
    assert forall i :: 0 <= i < |s.users| ==> (t[i].id == userId <==> s.users[i].id == userId);
  }

  /** A change keeps emails unique and every other part of validity. */
  lemma ChangeEmailPreservesValid(s: Store, isEmail: string -> bool, userId: Id, body: Props)
    requires Valid(s)
    ensures Valid(ChangeEmail(s, isEmail, userId, body).store)
  {
    var o := ChangeEmail(s, isEmail, userId, body);
    if o.reply.Ok? {
      var e := Member(body, "email").s;
      var us := s.users;
      var t := o.store.users;
      assert forall i :: 0 <= i < |us| ==> t[i].id == us[i].id;
      forall i, j | 0 <= i < j < |t| && t[i].email.Some?
        ensures t[i].email != t[j].email
      {
        if us[i].id == userId || us[j].id == userId {
          assert !(us[i].id == userId && us[j].id == userId);
        }
      }
      forall j | 0 <= j < |s.sessions|
        ensures Rows.FindKey(t, UserId, s.sessions[j].userId).Some?
      {
        var k := Rows.FindKey(us, UserId, s.sessions[j].userId).value;
        assert UserId(t[k]) == s.sessions[j].userId;
      }
    }
  }

  // ---------------------------------------------------------------------
  // GET /:userId
  // ---------------------------------------------------------------------

  /** `GET /:userId`: the user, or 404. */
  function GetUser(s: Store, userId: Id): Outcome
  {
    match UserById(s.users, userId)
    case None => Outcome(NotFound, s)
    case Some(u) => Outcome(Ok(Some(u)), s)
  }

  /** 404 exactly when no user has the id; otherwise the reply is a stored
      user with that id. Reading writes nothing. */
  lemma GetUserIff(s: Store, userId: Id)
    ensures var o := GetUser(s, userId);
      && o.store == s
      && (o.reply == NotFound <==> forall i :: 0 <= i < |s.users| ==> s.users[i].id != userId)
      && (o.reply.Ok? ==> o.reply.user.Some? && o.reply.user.value in s.users && o.reply.user.value.id == userId)
  {
  }

  /** A user created for a session can be read back under its id. */
  lemma CreatedUserReadable(s: Store, isEmail: string -> bool, sessionId: string,
                            ip: string, userAgent: Option<string>, body: Props)
    requires Valid(s)
    requires StartSession(s, isEmail, sessionId, ip, userAgent, body).reply.Ok?
    ensures var o := StartSession(s, isEmail, sessionId, ip, userAgent, body);
      o.reply.user.Some? ==> GetUser(o.store, o.reply.user.value.id).reply == Ok(o.reply.user)
  {
    var o := StartSession(s, isEmail, sessionId, ip, userAgent, body);
    StartSessionPreservesValid(s, isEmail, sessionId, ip, userAgent, body);
    if o.reply.user.Some? {
      var u := o.reply.user.value;
      assert u in o.store.users;
      var k :| 0 <= k < |o.store.users| && o.store.users[k] == u;
      Rows.FindUniqueKey(o.store.users, UserId, k);
    }
  }
}

=== FILE: Workspaces.dfy ===
/** The workspace handlers: create, update and delete. A workspace owns
    founders, reserved pools, a ratings row, equity adjustments, factor
    allocations and visited-question marks, each in its own table.

    Request bodies are parsed JSON objects and the handlers store what they
    are sent without checking its type, so columns hold JavaScript values.
    `uuidv4` is the fresh-id oracle `nextId`. A column the handler never
    writes holds `None`, its schema default. Every database statement is
    taken to succeed; an exception thrown by the handler's own code is the
    500 outcome, and the statements run before it stay applied, as the
    handler runs them one by one without a transaction. */
module Workspaces {
  import opened Js
  import opened Text
  import opened JsNumbers
  import Rows

  type Id = nat
  type Props = seq<(string, JsValue)>

  datatype Workspace = Workspace(
    id: Id, userId: JsValue, name: JsValue, companyName: JsValue,
    foundingTeamSize: Option<JsValue>, complete: Option<JsValue>)

  datatype Founder = Founder(
    id: Id, workspaceId: Id, name: JsValue, position: nat,
    cash: JsValue, time: JsValue, assets: JsValue)

  datatype Pool = Pool(id: Id, workspaceId: Id, poolName: string, weight: JsValue)

  datatype Rating = Rating(
    id: Id, workspaceId: Id, financialImpact: Option<JsValue>,
    timeImportance: Option<JsValue>, assetImportance: Option<JsValue>)

  datatype Adjustment = Adjustment(id: Id, workspaceId: Id, category: string, weight: JsValue)

  datatype Factor = Factor(
    id: Id, workspaceId: Id, factorType: string, factorName: JsValue,
    founderName: string, allocation: real)

  /** A visited-question mark; `index` is `None` when the key did not parse. */
  datatype VisitedQuestion = VisitedQuestion(
    id: Id, workspaceId: Id, part: nat, index: Option<int>, visited: bool)

  datatype Store = Store(
    workspaces: seq<Workspace>, founders: seq<Founder>, pools: seq<Pool>,
    ratings: seq<Rating>, adjustments: seq<Adjustment>, factors: seq<Factor>,
    visited: seq<VisitedQuestion>, nextId: Id)

  /** An HTTP status and the store the request leaves behind. */
  datatype Outcome = Outcome(status: nat, store: Store)

  // Row keys, as function values for the generic table operations.
  function WorkspaceId(w: Workspace): Id { w.id }
  function FounderWorkspace(f: Founder): Id { f.workspaceId }
  function PoolWorkspace(p: Pool): Id { p.workspaceId }
  function RatingWorkspace(r: Rating): Id { r.workspaceId }
  function AdjustmentWorkspace(a: Adjustment): Id { a.workspaceId }
  function FactorSlot(f: Factor): (Id, string) { (f.workspaceId, f.factorType) }
  function QuestionKey(q: VisitedQuestion): (Id, nat, Option<int>) { (q.workspaceId, q.part, q.index) }

  /** At most one mark per (workspace, part, index) among marks with an
      index. The upsert looks marks up with `question_index = ?`, which no
      NULL index ever satisfies. */
  predicate OneMarkPerQuestion(rows: seq<VisitedQuestion>)
  {
    forall i, j :: 0 <= i < j < |rows| && rows[i].index.Some? ==> QuestionKey(rows[i]) != QuestionKey(rows[j])
  }

  /** Workspace ids are unique and issued; question marks are unique. */
  predicate Valid(s: Store)
  {
    Rows.Keyed(s.workspaces, WorkspaceId, s.nextId) && OneMarkPerQuestion(s.visited)
  }

  /** `SELECT * FROM workspaces WHERE id = ?`: the first row with the id. */
  function FindWorkspace(ws: seq<Workspace>, id: Id): (r: Option<nat>)
    ensures r.Some? ==> r.value < |ws| && ws[r.value].id == id
    ensures r.None? <==> forall j :: 0 <= j < |ws| ==> ws[j].id != id
  {
    if ws == [] then None
    else if ws[0].id == id then Some(0)
    else
      var r := FindWorkspace(ws[1..], id);
      assert forall j :: 0 < j < |ws| ==> ws[j] == ws[1..][j - 1];
      if r.None? then None else Some(r.value + 1)
  }

  // ---------------------------------------------------------------------
  // Create
  // ---------------------------------------------------------------------

  /** express-validator's `notEmpty()`: `undefined`, `null` and the empty
      string are empty; numbers, booleans and objects are not. */
  predicate NotEmpty(v: JsValue)
  {
    !v.JUndefined? && !v.JNull? && v != JStr("")
  }

  /** The create validators: non-empty `userId` and `name`, and a
      `companyName` that is absent or a string. */
  predicate CreateValid(body: Props)
  {
    && NotEmpty(Member(body, "userId"))
    && NotEmpty(Member(body, "name"))
    && (Member(body, "companyName").JUndefined? || Member(body, "companyName").JStr?)
  }

  /** `POST /`: insert the workspace, then its ratings row with every
      rating at its schema default. */
  function Create(s: Store, body: Props): Outcome
  {
    if !CreateValid(body) then Outcome(400, s)
    else
      var id := s.nextId;
      var company := Member(body, "companyName");
      var w := Workspace(id, Member(body, "userId"), Member(body, "name"),
                         if company.JUndefined? then JStr("") else company, None, None);
      var r := Rating(id + 1, id, None, None, None);
      Outcome(201, s.(workspaces := s.workspaces + [w], ratings := s.ratings + [r], nextId := id + 2))
  }

  /** A failed validation answers 400 and writes nothing; otherwise 201. */
  lemma CreateValidation(s: Store, body: Props)
    ensures Create(s, body).status == 400 <==> !CreateValid(body)
    ensures Create(s, body).status == 400 ==> Create(s, body).store == s
    ensures Create(s, body).status in {201, 400}
  {
  }

  /** A valid create adds exactly one workspace, with a fresh id, the sent
      owner and name and the company name defaulting to the empty string,
      and exactly one ratings row for it, appended after the ratings rows of
      every other workspace; nothing else changes. */
  lemma CreateInserts(s: Store, body: Props)
    requires Valid(s) && CreateValid(body)
    ensures var t := Create(s, body).store;
      && |t.workspaces| == |s.workspaces| + 1
      && t.workspaces[..|s.workspaces|] == s.workspaces
      && FindWorkspace(s.workspaces, t.workspaces[|s.workspaces|].id).None?
      && t.workspaces[|s.workspaces|].userId == Member(body, "userId")
      && t.workspaces[|s.workspaces|].name == Member(body, "name")
      && t.workspaces[|s.workspaces|].companyName == (if Member(body, "companyName").JUndefined? then JStr("") else Member(body, "companyName"))
      && Rows.Select(t.ratings, RatingWorkspace, t.workspaces[|s.workspaces|].id) == Rows.Select(s.ratings, RatingWorkspace, t.workspaces[|s.workspaces|].id) + [Rating(s.nextId + 1, s.nextId, None, None, None)]
      && t.ratings == s.ratings + [Rating(s.nextId + 1, t.workspaces[|s.workspaces|].id, None, None, None)]
      && t.founders == s.founders && t.pools == s.pools && t.adjustments == s.adjustments
      && t.factors == s.factors && t.visited == s.visited
      && Valid(t)
  {
    var t := Create(s, body).store;
    var r := Rating(s.nextId + 1, s.nextId, None, None, None);
    Rows.SelectAppend(s.ratings, [r], RatingWorkspace, s.nextId);
    assert Rows.Select([r], RatingWorkspace, s.nextId) == [r];
    assert t.workspaces[..|s.workspaces|] == s.workspaces;
  }

  // ---------------------------------------------------------------------
  // Delete
  // ---------------------------------------------------------------------

  /** `DELETE /:workspaceId`: 404 when the statement changed no row. Child
      rows are the schema's business and stay as they are here. */
  function Delete(s: Store, id: Id): Outcome
  {
    var kept := Rows.Drop(s.workspaces, WorkspaceId, id);
    if |kept| == |s.workspaces| then Outcome(404, s)
    else Outcome(200, s.(workspaces := kept))
  }

  /** Deleting answers 404 exactly for an unknown id, and then changes
      nothing; otherwise the workspaces left are exactly the others, and
      nothing else changes. */
  lemma DeleteNotFoundIff(s: Store, id: Id)
    ensures Delete(s, id).status == 404 <==> FindWorkspace(s.workspaces, id).None?
    ensures Delete(s, id).status == 404 ==> Delete(s, id).store == s
    ensures Delete(s, id).status == 200 ==>
      && FindWorkspace(Delete(s, id).store.workspaces, id).None?
      && (forall w :: w in Delete(s, id).store.workspaces <==> w in s.workspaces && w.id != id)
      && Delete(s, id).store == s.(workspaces := Delete(s, id).store.workspaces)
  {
    var f := FindWorkspace(s.workspaces, id);
    if f.Some? {
      Rows.CountKeyPositive(s.workspaces, WorkspaceId, f.value);
    } else {
      Rows.KeyAbsentCountsZero(s.workspaces, WorkspaceId, id);
    }
    var kept := Rows.Drop(s.workspaces, WorkspaceId, id);
    forall w | w in s.workspaces && w.id != id
      ensures w in kept
    {
      DropKeepsRow(s.workspaces, id, w);
    }
    forall w | w in kept
      ensures w.id != id
    {
      var i :| 0 <= i < |kept| && kept[i] == w;
      assert WorkspaceId(kept[i]) != id;
    }
  }

  lemma {:induction false} DropKeepsRow(ws: seq<Workspace>, id: Id, w: Workspace)
    requires w in ws && w.id != id
    ensures w in Rows.Drop(ws, WorkspaceId, id)
  {
    if ws[0] != w {
      DropKeepsRow(ws[1..], id, w);
    }
  }

  /** Deleting keeps the store valid. */
  lemma DeletePreservesValid(s: Store, id: Id)
    requires Valid(s)
    ensures Valid(Delete(s, id).store)
  {
    var kept := Rows.Drop(s.workspaces, WorkspaceId, id);
    DropUnique(s.workspaces, id);
    forall i | 0 <= i < |kept|
      ensures kept[i].id < s.nextId
    {
      assert kept[i] in s.workspaces;
    }
  }

  lemma {:induction false} DropUnique(ws: seq<Workspace>, id: Id)
    requires Rows.UniqueBy(ws, WorkspaceId)
    ensures Rows.UniqueBy(Rows.Drop(ws, WorkspaceId, id), WorkspaceId)
  {
    if ws != [] {
      assert Rows.UniqueBy(ws[1..], WorkspaceId) by {
        forall a, b | 0 <= a < b < |ws[1..]| ensures ws[1..][a].id != ws[1..][b].id {
          assert ws[1..][a] == ws[a + 1] && ws[1..][b] == ws[b + 1];
        }
      }
      DropUnique(ws[1..], id);
      var rest := Rows.Drop(ws[1..], WorkspaceId, id);
      forall x | x in rest
        ensures x.id != ws[0].id
      {
        var k :| 0 <= k < |ws[1..]| && ws[1..][k] == x;
        assert ws[k + 1] == x;
      }
    }
  }

  // ---------------------------------------------------------------------
  // Update: the statements of `PUT /:workspaceId`, in order
  // ---------------------------------------------------------------------

  /** The store after a run of statements, and whether the handler threw. */
  datatype Step = Step(store: Store, threw: bool)

  /** The workspace row after the first statement: a falsy field falls back
      to the stored name, the empty company name, team size 0 and "not
      complete". */
  function Revised(w: Workspace, body: Props): Workspace
  {
    w.(name := Or(Member(body, "name"), w.name),
       companyName := Or(Member(body, "companyName"), JStr("")),
       foundingTeamSize := Some(Or(Member(body, "foundingTeamSize"), JNum(0))),
       complete := Some(Or(Member(body, "isFullQuestionnaireComplete"), JBool(false))))
  }

  /** How many indices `i = 0, 1, ...` pass the test `i < v.length`. An
      array or string has its own length; an object has whatever its
      `length` member holds, `true` comparing as 1; any other value has no
      length and passes no index. */
  function LoopCount(v: JsValue): nat
  {
    match v
    case JArr(items) => |items|
    case JStr(s) => |s|
    case JObj(props) =>
      (match Member(props, "length")
       case JNum(n) => if n > 0 then n else 0
       case JBool(b) => if b then 1 else 0
       case _ => 0)
    case _ => 0
  }

  /** `v[i]`: an array's element, a string's character, an object's member
      under the index's text. */
  function ElementAt(v: JsValue, i: nat): JsValue
  {
    match v
    case JArr(items) => if i < |items| then items[i] else JUndefined
    case JStr(s) => if i < |s| then JStr([s[i]]) else JUndefined
    case JObj(props) => Member(props, NumberString(i))
    case _ => JUndefined
  }

  /** The names the founders loop `for (i = 0; i < founders.length; i++)`
      visits: `founders[i]` for every index below the length. */
  function FounderNames(v: JsValue): (r: seq<JsValue>)
    ensures |r| == LoopCount(v)
    ensures forall i :: 0 <= i < |r| ==> r[i] == ElementAt(v, i)
  {
    seq(LoopCount(v), i requires 0 <= i < LoopCount(v) => ElementAt(v, i))
  }

  /** Reading a founder's amounts throws: one of the three amount tables is
      sent and the name does not convert to a property name. */
  predicate AmountsThrow(body: Props, name: JsValue)
  {
    || Lookup(Member(body, "foundersCashInvested"), name).None?
    || Lookup(Member(body, "foundersTime"), name).None?
    || Lookup(Member(body, "foundersAssets"), name).None?
  }

  /** `body[table]?.[founder] || 0`, for a lookup that does not throw. */
  function Amount(body: Props, table: string, founder: JsValue): JsValue
    requires Lookup(Member(body, table), founder).Some?
  {
    Or(Lookup(Member(body, table), founder).value, JNum(0))
  }

  function FounderRow(wid: Id, body: Props, name: JsValue, position: nat, id: Id): Founder
    requires !AmountsThrow(body, name)
  {
    Founder(id, wid, name, position,
            Amount(body, "foundersCashInvested", name),
            Amount(body, "foundersTime", name),
            Amount(body, "foundersAssets", name))
  }

  function FounderRows(wid: Id, body: Props, names: seq<JsValue>, next: Id): (r: seq<Founder>)
    requires forall i :: 0 <= i < |names| ==> !AmountsThrow(body, names[i])
    ensures |r| == |names|
    ensures forall i :: 0 <= i < |r| ==> r[i] == FounderRow(wid, body, names[i], i, next + i)
  {
    seq(|names|, i requires 0 <= i < |names| => FounderRow(wid, body, names[i], i, next + i))
  }

  /** How many names the founders loop inserts before reading some name's
      amounts throws. */
  function InsertedFounders(body: Props, names: seq<JsValue>): (k: nat)
    ensures k <= |names|
    ensures forall i :: 0 <= i < k ==> !AmountsThrow(body, names[i])
    ensures k < |names| ==> AmountsThrow(body, names[k])
    ensures k < |names| <==> exists i :: 0 <= i < |names| && AmountsThrow(body, names[i])
  {
    var k := Rows.StopIndex(names, (name: JsValue) => AmountsThrow(body, name));
    Rows.StopIndexIff(names, (name: JsValue) => AmountsThrow(body, name));
    k
  }

  /** When `founders` is truthy, the workspace's founders are deleted and the
      listed ones inserted, each at its index, until reading a name's
      amounts throws. */
  function ReplaceFounders(s: Store, wid: Id, body: Props): (r: Step)
    ensures r.store == s.(founders := r.store.founders, nextId := r.store.nextId) && r.store.nextId >= s.nextId
  {
    var v := Member(body, "founders");
    if !Truthy(v) then Step(s, false)
    else
      var names := FounderNames(v);
      var k := InsertedFounders(body, names);
      Step(s.(founders := Rows.Drop(s.founders, FounderWorkspace, wid) + FounderRows(wid, body, names[..k], s.nextId),
              nextId := s.nextId + k),
           k < |names|)
  }

  /** The reserved-pool filter: an object whose `poolName` is a string that
      is not blank. */
  predicate Accepted(pool: JsValue)
  {
    Named(pool) && Trim(Member(pool.props, "poolName").s) != ""
  }

  /** A pool with a string `poolName`, with that name trimmed. */
  predicate Named(pool: JsValue)
  {
    pool.JObj? && Member(pool.props, "poolName").JStr?
  }

  function PoolRow(wid: Id, pool: JsValue, id: Id): Pool
    requires Named(pool)
  {
    Pool(id, wid, Trim(Member(pool.props, "poolName").s), Or(Member(pool.props, "weight"), JNum(0)))
  }

  /** The accepted pools, in list order. */
  function PoolRows(wid: Id, pools: seq<JsValue>, next: Id): (r: seq<Pool>)
    ensures var accepted := Rows.Where(pools, Accepted);
      |r| == |accepted| && forall i :: 0 <= i < |r| ==> r[i] == PoolRow(wid, accepted[i], next + i)
  {
    AcceptedRows(wid, Rows.Where(pools, Accepted), next)
  }

  function AcceptedRows(wid: Id, accepted: seq<JsValue>, next: Id): (r: seq<Pool>)
    requires forall p :: p in accepted ==> Named(p)
    ensures |r| == |accepted| && forall i :: 0 <= i < |r| ==> r[i] == PoolRow(wid, accepted[i], next + i)
  {
    seq(|accepted|, i requires 0 <= i < |accepted| => PoolRow(wid, accepted[i], next + i))
  }

  /** When `reservedPools` is truthy, the workspace's pools are deleted and
      the accepted ones inserted; a value `for ... of` cannot iterate throws
      after the delete. */
  function ReplacePools(s: Store, wid: Id, body: Props): (r: Step)
    ensures r.store == s.(pools := r.store.pools, nextId := r.store.nextId) && r.store.nextId >= s.nextId
  {
    var v := Member(body, "reservedPools");
    if !Truthy(v) then Step(s, false)
    else
      var kept := Rows.Drop(s.pools, PoolWorkspace, wid);
      match Iterate(v)
      case None => Step(s.(pools := kept), true)
      case Some(items) =>
        var rows := PoolRows(wid, items, s.nextId);
        Step(s.(pools := kept + rows, nextId := s.nextId + |rows|), false)
  }

  /** A ratings row after the ratings statement: a falsy rating becomes 3. */
  function Rerated(r: Rating, ratings: JsValue): Rating
  {
    r.(financialImpact := Some(Or(OptionalProperty(ratings, "ratingFinancialImpact"), JNum(3))),
       timeImportance := Some(Or(OptionalProperty(ratings, "ratingTimeImportance"), JNum(3))),
       assetImportance := Some(Or(OptionalProperty(ratings, "ratingAssetImportance"), JNum(3))))
  }

  /** When `ratings` is truthy, the workspace's ratings rows are rewritten. */
  function UpdateRatings(s: Store, wid: Id, body: Props): (t: Store)
    ensures t == s.(ratings := t.ratings)
    ensures |t.ratings| == |s.ratings|
  {
    var v := Member(body, "ratings");
    if !Truthy(v) then s
    else
      s.(ratings := seq(|s.ratings|, i requires 0 <= i < |s.ratings| =>
                          if s.ratings[i].workspaceId == wid then Rerated(s.ratings[i], v) else s.ratings[i]))
  }

  function AdjustmentRows(wid: Id, entries: seq<(string, JsValue)>, next: Id): (r: seq<Adjustment>)
    ensures |r| == |entries|
    ensures forall i :: 0 <= i < |r| ==> r[i] == Adjustment(next + i, wid, entries[i].0, entries[i].1)
  {
    seq(|entries|, i requires 0 <= i < |entries| => Adjustment(next + i, wid, entries[i].0, entries[i].1))
  }

  /** When `equityDistributionAdjustment` is truthy, the workspace's
      adjustments become its entries. */
  function ReplaceAdjustments(s: Store, wid: Id, body: Props): (t: Store)
    ensures t == s.(adjustments := t.adjustments, nextId := t.nextId) && t.nextId >= s.nextId
  {
    var v := Member(body, "equityDistributionAdjustment");
    if !Truthy(v) then s
    else
      var entries := Entries(v);
      s.(adjustments := Rows.Drop(s.adjustments, AdjustmentWorkspace, wid) + AdjustmentRows(wid, entries, s.nextId),
         nextId := s.nextId + |entries|)
  }

  const FactorTypes: seq<string> := ["coreFactors", "preFormation", "roleResponsibility", "experienceNetworks"]

  /** `allocation && parseFloat(allocation) > 0` throws: the allocation is
      truthy, so `parseFloat` runs, and converting it to text throws. */
  predicate AllocationThrows(v: JsValue)
  {
    Truthy(v) && !Converts(v)
  }

  /** `allocation && parseFloat(allocation) > 0`, with the parsed value. */
  function Allocation(v: JsValue): (r: Option<real>)
    requires !AllocationThrows(v)
    ensures r.Some? ==> Truthy(v) && r == ParseFloat(v) && r.value > 0.0
    ensures r.None? ==> !Truthy(v) || ParseFloat(v).None? || ParseFloat(v).value <= 0.0
  {
    if Truthy(v) && ParseFloat(v).Some? && ParseFloat(v).value > 0.0 then ParseFloat(v) else None
  }

  /** An allocation entry that is stored. */
  predicate Passes(e: (string, JsValue))
  {
    !AllocationThrows(e.1) && Allocation(e.1).Some?
  }

  /** An allocation entry at which the allocations loop throws. */
  predicate EntryThrows(e: (string, JsValue))
  {
    AllocationThrows(e.1)
  }

  /** The rows one factor contributes: one per allocation entry that passes,
      in entry order. */
  function FactorRows(wid: Id, factorType: string, factor: JsValue, entries: seq<(string, JsValue)>, next: Id): (r: seq<Factor>)
    ensures var passing := Rows.Where(entries, Passes);
      && |r| == |passing|
      && forall i :: 0 <= i < |r| ==>
           r[i] == Factor(next + i, wid, factorType, OptionalProperty(factor, "factorName"),
                          passing[i].0, Allocation(passing[i].1).value)
  {
    var passing := Rows.Where(entries, Passes);
    seq(|passing|, i requires 0 <= i < |passing| =>
      Factor(next + i, wid, factorType, OptionalProperty(factor, "factorName"),
             passing[i].0, Allocation(passing[i].1).value))
  }

  /** The inner loops over the factors of one type: a factor that is
      `undefined` or `null` throws when its allocations are read. */
  function InsertFactors(s: Store, wid: Id, factorType: string, factors: seq<JsValue>): (r: Step)
    ensures r.store == s.(factors := r.store.factors, nextId := r.store.nextId) && r.store.nextId >= s.nextId
    ensures |r.store.factors| >= |s.factors| && r.store.factors[..|s.factors|] == s.factors
    ensures forall j :: |s.factors| <= j < |r.store.factors| ==> FactorSlot(r.store.factors[j]) == (wid, factorType)
    decreases |factors|
  {
    if factors == [] then Step(s, false)
    else if Unreadable(factors[0]) then Step(s, true)
    else
      var s' := FirstFactor(s, wid, factorType, factors[0]);
      if FactorThrows(factors[0]) then Step(s', true)
      else
      var r := InsertFactors(s', wid, factorType, factors[1..]);
      assert forall j :: |s.factors| <= j < |s'.factors| ==> r.store.factors[j] == s'.factors[j] by {
        forall j | |s.factors| <= j < |s'.factors| {
          PrefixIndex(s'.factors, r.store.factors, j);
        }
      }
      PrefixOfPrefix(s.factors, s'.factors, r.store.factors);
      r
  }

  lemma PrefixOfPrefix<T>(base: seq<T>, mid: seq<T>, all: seq<T>)
    requires |base| <= |mid| <= |all| && mid[..|base|] == base && all[..|mid|] == mid
    ensures all[..|base|] == base
  {
    assert all[..|base|] == all[..|mid|][..|base|];
  }

  /** One factor type: when present, its rows for the workspace are deleted
      and the passing allocations inserted; a value `for ... of` cannot
      iterate throws after the delete. */
  function ReplaceFactorType(s: Store, wid: Id, body: Props, factorType: string): (r: Step)
    ensures r.store == s.(factors := r.store.factors, nextId := r.store.nextId) && r.store.nextId >= s.nextId
  {
    var v := Member(body, factorType);
    if !Truthy(v) then Step(s, false)
    else
      var kept := s.(factors := Rows.Drop(s.factors, FactorSlot, (wid, factorType)));
      match Iterate(v)
      case None => Step(kept, true)
      case Some(factors) => InsertFactors(kept, wid, factorType, factors)
  }

  /** The factor types in order, stopping at the first that throws. */
  function ReplaceFactors(s: Store, wid: Id, body: Props, types: seq<string>): (r: Step)
    ensures r.store == s.(factors := r.store.factors, nextId := r.store.nextId) && r.store.nextId >= s.nextId
    decreases |types|
  {
    if types == [] then Step(s, false)
    else
      var step := ReplaceFactorType(s, wid, body, types[0]);
      if step.threw then step else ReplaceFactors(step.store, wid, body, types[1..])
  }

  /** The upsert's lookup: the first mark of (workspace, part, index); an
      index that did not parse matches nothing. */
  function FindMark(rows: seq<VisitedQuestion>, wid: Id, part: nat, index: Option<int>): (r: Option<nat>)
    ensures r.Some? ==> r.value < |rows| && index.Some? && QuestionKey(rows[r.value]) == (wid, part, index)
    ensures r.None? ==> index.None? || forall j :: 0 <= j < |rows| ==> QuestionKey(rows[j]) != (wid, part, index)
  {
    if index.None? || rows == [] then None
    else if QuestionKey(rows[0]) == (wid, part, index) then Some(0)
    else
      var r := FindMark(rows[1..], wid, part, index);
      assert forall j :: 0 < j < |rows| ==> rows[j] == rows[1..][j - 1];
      if r.None? then None else Some(r.value + 1)
  }

  /** Marks are only ever added or set visited: every earlier mark keeps
      its place, id and key, and stays visited once it is. */
  predicate Grows(a: seq<VisitedQuestion>, b: seq<VisitedQuestion>)
  {
    |a| <= |b| && forall k :: 0 <= k < |a| ==>
      b[k].id == a[k].id && QuestionKey(b[k]) == QuestionKey(a[k]) && (a[k].visited ==> b[k].visited)
  }

  /** Some mark of (workspace, part, index) is visited. */
  predicate Marked(rows: seq<VisitedQuestion>, wid: Id, part: nat, index: Option<int>)
  {
    exists k :: 0 <= k < |rows| && QuestionKey(rows[k]) == (wid, part, index) && rows[k].visited
  }

  lemma GrowsKeepsMarked(a: seq<VisitedQuestion>, b: seq<VisitedQuestion>, wid: Id, part: nat, index: Option<int>)
    requires Grows(a, b)
    ensures Marked(a, wid, part, index) ==> Marked(b, wid, part, index)
  {
    if Marked(a, wid, part, index) {
      var k :| 0 <= k < |a| && QuestionKey(a[k]) == (wid, part, index) && a[k].visited;
      assert QuestionKey(b[k]) == (wid, part, index) && b[k].visited;
    }
  }

  /** Mark one question visited: update the mark found, or insert one. */
  function MarkVisited(s: Store, wid: Id, part: nat, index: Option<int>): (t: Store)
    ensures t == s.(visited := t.visited, nextId := t.nextId) && t.nextId >= s.nextId
    ensures Grows(s.visited, t.visited)
    ensures Marked(t.visited, wid, part, index)
    ensures OneMarkPerQuestion(s.visited) ==> OneMarkPerQuestion(t.visited)
  {
    match FindMark(s.visited, wid, part, index)
    case Some(i) =>
      var t := s.(visited := s.visited[i := s.visited[i].(visited := true)]);
      assert QuestionKey(t.visited[i]) == (wid, part, index) && t.visited[i].visited;
      assert forall k :: 0 <= k < |t.visited| ==> QuestionKey(t.visited[k]) == QuestionKey(s.visited[k]);
      t
    case None =>
      var t := s.(visited := s.visited + [VisitedQuestion(s.nextId, wid, part, index, true)], nextId := s.nextId + 1);
      assert QuestionKey(t.visited[|s.visited|]) == (wid, part, index) && t.visited[|s.visited|].visited;
      t
  }

  /** The entries of one part's map: truthy ones are marked. */
  function MarkEntries(s: Store, wid: Id, part: nat, entries: seq<(string, JsValue)>): (t: Store)
    ensures t == s.(visited := t.visited, nextId := t.nextId) && t.nextId >= s.nextId
    ensures Grows(s.visited, t.visited)
    ensures forall e :: e in entries && Truthy(e.1) ==> Marked(t.visited, wid, part, ParseInt(e.0))
    ensures OneMarkPerQuestion(s.visited) ==> OneMarkPerQuestion(t.visited)
    decreases |entries|
  {
    if entries == [] then s
    else
      var s1 := if Truthy(entries[0].1) then MarkVisited(s, wid, part, ParseInt(entries[0].0)) else s;
      var t := MarkEntries(s1, wid, part, entries[1..]);
      GrowsKeepsMarked(s1.visited, t.visited, wid, part, ParseInt(entries[0].0));
      assert forall e :: e in entries ==> e == entries[0] || e in entries[1..];
      t
  }

  /** One part's map: a truthy `visitedQuestionsPart<n>` marks each of its
      truthy entries. */
  function MarkPart(s: Store, wid: Id, body: Props, key: string, part: nat): (t: Store)
    ensures t == s.(visited := t.visited, nextId := t.nextId) && t.nextId >= s.nextId
    ensures Grows(s.visited, t.visited)
    ensures OneMarkPerQuestion(s.visited) ==> OneMarkPerQuestion(t.visited)
    ensures Truthy(Member(body, key)) ==>
      forall e :: e in Entries(Member(body, key)) && Truthy(e.1) ==> Marked(t.visited, wid, part, ParseInt(e.0))
  {
    var v := Member(body, key);
    if !Truthy(v) then s else MarkEntries(s, wid, part, Entries(v))
  }

  /** Part 1's map, then part 2's. */
  function MarkQuestions(s: Store, wid: Id, body: Props): (t: Store)
    ensures t == s.(visited := t.visited, nextId := t.nextId) && t.nextId >= s.nextId
    ensures Grows(s.visited, t.visited)
    ensures OneMarkPerQuestion(s.visited) ==> OneMarkPerQuestion(t.visited)
  {
    MarkPart(MarkPart(s, wid, body, "visitedQuestionsPart1", 1), wid, body, "visitedQuestionsPart2", 2)
  }

  /** The first two statements of an update: the workspace row revised,
      then its founders replaced. */
  function FoundersStep(s: Store, wid: Id, body: Props): (r: Step)
    requires FindWorkspace(s.workspaces, wid).Some?
  {
    var i := FindWorkspace(s.workspaces, wid).value;
    ReplaceFounders(s.(workspaces := s.workspaces[i := Revised(s.workspaces[i], body)]), wid, body)
  }

  /** `PUT /:workspaceId`. */
  function Update(s: Store, wid: Id, body: Props): Outcome
  {
    match FindWorkspace(s.workspaces, wid)
    case None => Outcome(404, s)
    case Some(i) =>
      var founders := FoundersStep(s, wid, body);
      if founders.threw then Outcome(500, founders.store)
      else
      var pools := ReplacePools(founders.store, wid, body);
      if pools.threw then Outcome(500, pools.store)
      else
        var s4 := ReplaceAdjustments(UpdateRatings(pools.store, wid, body), wid, body);
        var factors := ReplaceFactors(s4, wid, body, FactorTypes);
        if factors.threw then Outcome(500, factors.store)
        else Outcome(200, MarkQuestions(factors.store, wid, body))
  }

  // ---------------------------------------------------------------------
  // What an update does
  // ---------------------------------------------------------------------

  /** `reservedPools` is sent but `for ... of` cannot iterate it. */
  predicate PoolsThrow(body: Props)
  {
    Truthy(Member(body, "reservedPools")) && Iterate(Member(body, "reservedPools")).None?
  }

  /** `founders` is sent and reading the amounts of some name it lists
      throws. */
  predicate FoundersThrow(body: Props)
  {
    var v := Member(body, "founders");
    Truthy(v) && exists k :: 0 <= k < |FounderNames(v)| && AmountsThrow(body, FounderNames(v)[k])
  }

  /** Answers 404 exactly for an unknown workspace, and then writes nothing;
      the answer is 200, 404 or 500, and a founder name that cannot be
      looked up or an unusable `reservedPools` is 500. */
  lemma UpdateStatus(s: Store, wid: Id, body: Props)
    ensures Update(s, wid, body).status in {200, 404, 500}
    ensures Update(s, wid, body).status == 404 <==> FindWorkspace(s.workspaces, wid).None?
    ensures Update(s, wid, body).status == 404 ==> Update(s, wid, body).store == s
    ensures FindWorkspace(s.workspaces, wid).Some? && (FoundersThrow(body) || PoolsThrow(body)) ==>
      Update(s, wid, body).status == 500
  {
  }

  /** Every outcome but 404 leaves the workspace row revised: the sent name
      or the old one, the sent company name or "", the sent team size or 0,
      the sent completion flag or false; the owner, the id and every other
      workspace stay as they were. */
  lemma UpdateRevisesWorkspace(s: Store, wid: Id, body: Props)
    requires FindWorkspace(s.workspaces, wid).Some?
    ensures var i := FindWorkspace(s.workspaces, wid).value;
      var t := Update(s, wid, body).store;
      && |t.workspaces| == |s.workspaces|
      && (forall j :: 0 <= j < |s.workspaces| && j != i ==> t.workspaces[j] == s.workspaces[j])
      && t.workspaces[i].id == wid && t.workspaces[i].userId == s.workspaces[i].userId
      && t.workspaces[i].name == (if Truthy(Member(body, "name")) then Member(body, "name") else s.workspaces[i].name)
      && t.workspaces[i].companyName == (if Truthy(Member(body, "companyName")) then Member(body, "companyName") else JStr(""))
      && t.workspaces[i].foundingTeamSize == Some(if Truthy(Member(body, "foundingTeamSize")) then Member(body, "foundingTeamSize") else JNum(0))
      && t.workspaces[i].complete == Some(if Truthy(Member(body, "isFullQuestionnaireComplete")) then Member(body, "isFullQuestionnaireComplete") else JBool(false))
  {
    var i := FindWorkspace(s.workspaces, wid).value;
    assert FoundersStep(s, wid, body).store.workspaces == s.workspaces[i := Revised(s.workspaces[i], body)];
    assert Update(s, wid, body).store.workspaces == s.workspaces[i := Revised(s.workspaces[i], body)];
  }

  /** Which statement each table's final rows come from. */
  lemma UpdateTables(s: Store, wid: Id, body: Props)
    requires FindWorkspace(s.workspaces, wid).Some?
    ensures var f := FoundersStep(s, wid, body);
      var p := ReplacePools(f.store, wid, body);
      var o := Update(s, wid, body);
      var t := o.store;
      && (f.threw <==> FoundersThrow(body))
      && t.founders == f.store.founders
      && (f.threw ==> o.status == 500 && t == f.store)
      && (!f.threw ==> t.pools == p.store.pools && (p.threw <==> PoolsThrow(body)))
      && (!f.threw && p.threw ==> o.status == 500 && t == p.store)
      && (!f.threw && !p.threw ==>
            var s4 := ReplaceAdjustments(UpdateRatings(p.store, wid, body), wid, body);
            var fs := ReplaceFactors(s4, wid, body, FactorTypes);
            && t.ratings == UpdateRatings(p.store, wid, body).ratings
            && t.adjustments == s4.adjustments
            && t.factors == fs.store.factors
            && o.status == (if fs.threw then 500 else 200)
            && (!fs.threw ==> t.visited == MarkQuestions(fs.store, wid, body).visited))
      && (o.status != 200 ==> t.visited == s.visited)
      && t.nextId >= s.nextId
  {
  }

  /** What the founders loop leaves in the founders table: for a truthy
      `founders`, one row per name it reaches, at its index, each amount
      read from its table under the name and defaulting to 0, and every
      other workspace's founders as before; for a falsy one, the table as
      before. */
  ghost predicate FoundersReplaced(before: seq<Founder>, after: seq<Founder>, wid: Id, body: Props)
  {
    var v := Member(body, "founders");
    && (!Truthy(v) ==> after == before)
    && (Truthy(v) ==>
          var rows := Rows.Select(after, FounderWorkspace, wid);
          var names := FounderNames(v);
          var n := InsertedFounders(body, names);
          && |rows| == n
          && (forall k :: 0 <= k < n ==>
                && rows[k].name == names[k] && rows[k].position == k
                && rows[k].cash == Or(Lookup(Member(body, "foundersCashInvested"), names[k]).value, JNum(0))
                && rows[k].time == Or(Lookup(Member(body, "foundersTime"), names[k]).value, JNum(0))
                && rows[k].assets == Or(Lookup(Member(body, "foundersAssets"), names[k]).value, JNum(0)))
          && forall w :: w != wid ==> Rows.Select(after, FounderWorkspace, w) == Rows.Select(before, FounderWorkspace, w))
  }

  lemma ReplaceFoundersEffect(s: Store, wid: Id, body: Props)
    ensures FoundersReplaced(s.founders, ReplaceFounders(s, wid, body).store.founders, wid, body)
  {
    var v := Member(body, "founders");
    if Truthy(v) {
      var names := FounderNames(v);
      var n := InsertedFounders(body, names);
      var added := FounderRows(wid, body, names[..n], s.nextId);
      Rows.Replace(s.founders, FounderWorkspace, wid, added);
      FounderRowsRead(wid, body, names, n, s.nextId);
    }
  }

  lemma FounderRowsRead(wid: Id, body: Props, names: seq<JsValue>, n: nat, next: Id)
    requires n <= |names| && forall i :: 0 <= i < n ==> !AmountsThrow(body, names[i])
    ensures var rows := FounderRows(wid, body, names[..n], next);
      forall k :: 0 <= k < n ==>
        && rows[k].name == names[k] && rows[k].position == k
        && rows[k].cash == Or(Lookup(Member(body, "foundersCashInvested"), names[k]).value, JNum(0))
        && rows[k].time == Or(Lookup(Member(body, "foundersTime"), names[k]).value, JNum(0))
        && rows[k].assets == Or(Lookup(Member(body, "foundersAssets"), names[k]).value, JNum(0))
  {
    assert forall k :: 0 <= k < n ==> names[..n][k] == names[k];
  }

  /** A truthy `founders` replaces the workspace's founders with one row per
      name, at its index, each amount read from its table under the name and
      defaulting to 0, until a name whose amounts cannot be read: the loop
      throws there, keeping the rows before it, and the update answers 500.
      Other workspaces keep their founders. A falsy `founders` changes no
      founder. */
  lemma UpdateReplacesFounders(s: Store, wid: Id, body: Props)
    requires FindWorkspace(s.workspaces, wid).Some?
    ensures FoundersReplaced(s.founders, Update(s, wid, body).store.founders, wid, body)
    ensures var names := FounderNames(Member(body, "founders"));
      var n := InsertedFounders(body, names);
      Truthy(Member(body, "founders")) ==>
        && (n == |names| <==> !FoundersThrow(body))
        && (n < |names| ==> AmountsThrow(body, names[n]) && Update(s, wid, body).status == 500)
  {
    UpdateTables(s, wid, body);
    var i := FindWorkspace(s.workspaces, wid).value;
    ReplaceFoundersEffect(s.(workspaces := s.workspaces[i := Revised(s.workspaces[i], body)]), wid, body);
  }

  /** The names a truthy `founders` lists: an array's elements and a
      string's characters, in order, as iterating them would give; for an
      array-like object, its members "0", "1", ... up to its `length`;
      none for a number or `true`. */
  lemma FounderNamesOf(v: JsValue)
    ensures v.JArr? ==> FounderNames(v) == v.items
    ensures v.JStr? ==> FounderNames(v) == Chars(v.s)
    ensures v.JObj? && Member(v.props, "length").JNum? && Member(v.props, "length").n >= 0 ==>
      |FounderNames(v)| == Member(v.props, "length").n
      && forall i :: 0 <= i < |FounderNames(v)| ==> FounderNames(v)[i] == Member(v.props, NumberString(i))
    ensures v.JNum? || v.JBool? ==> FounderNames(v) == []
  {
  }

  /** An object that names no `length` lists no founder, whatever members
      it has. */
  lemma FounderNamesNeedLength(props: Props)
    requires forall i :: 0 <= i < |props| ==> props[i].0 != "length"
    ensures FounderNames(JObj(props)) == []
  {
    assert Member(props, "length") == JUndefined;
  }

  /** What the pool statements leave in the pools table. */
  ghost predicate PoolsReplaced(before: seq<Pool>, after: seq<Pool>, wid: Id, body: Props)
  {
    var v := Member(body, "reservedPools");
    var rows := Rows.Select(after, PoolWorkspace, wid);
    && (!Truthy(v) ==> after == before)
    && (PoolsThrow(body) ==> rows == [])
    && (Truthy(v) && Iterate(v).Some? ==>
          var accepted := Rows.Where(Iterate(v).value, Accepted);
          && |rows| == |accepted|
          && forall k :: 0 <= k < |rows| ==>
               && accepted[k].JObj? && Member(accepted[k].props, "poolName").JStr?
               && rows[k].poolName == Trim(Member(accepted[k].props, "poolName").s)
               && rows[k].poolName != "" && Trim(rows[k].poolName) == rows[k].poolName
               && rows[k].weight == Or(Member(accepted[k].props, "weight"), JNum(0)))
    && (Truthy(v) ==> forall w :: w != wid ==> Rows.Select(after, PoolWorkspace, w) == Rows.Select(before, PoolWorkspace, w))
  }

  lemma ReplacePoolsEffect(s: Store, wid: Id, body: Props)
    ensures PoolsReplaced(s.pools, ReplacePools(s, wid, body).store.pools, wid, body)
  {
    var v := Member(body, "reservedPools");
    if Truthy(v) {
      var added := if Iterate(v).Some? then PoolRows(wid, Iterate(v).value, s.nextId) else [];
      Rows.Replace(s.pools, PoolWorkspace, wid, added);
      assert Rows.Drop(s.pools, PoolWorkspace, wid) + [] == Rows.Drop(s.pools, PoolWorkspace, wid);
      if Iterate(v).Some? {
        var accepted := Rows.Where(Iterate(v).value, Accepted);
        forall k | 0 <= k < |added|
          ensures Trim(added[k].poolName) == added[k].poolName
        {
          TrimIdempotent(Member(accepted[k].props, "poolName").s);
        }
      }
    }
  }

  /** Past the founders, a truthy `reservedPools` replaces the workspace's
      pools with the accepted entries, in order, each name trimmed and
      non-blank and each weight defaulting to 0; a value that cannot be
      iterated leaves the workspace with no pools. Other workspaces keep
      theirs, and a falsy value changes no pool. When the founders loop
      throws, no pool changes. */
  lemma UpdateReplacesPools(s: Store, wid: Id, body: Props)
    requires FindWorkspace(s.workspaces, wid).Some?
    ensures FoundersThrow(body) ==> Update(s, wid, body).store.pools == s.pools
    ensures !FoundersThrow(body) ==> PoolsReplaced(s.pools, Update(s, wid, body).store.pools, wid, body)
  {
    UpdateTables(s, wid, body);
    ReplacePoolsEffect(FoundersStep(s, wid, body).store, wid, body);
  }

  /** The pool filter keeps exactly the objects with a non-blank string name. */
  lemma PoolAcceptedIff(pools: seq<JsValue>, k: nat)
    requires k < |pools|
    ensures Accepted(pools[k]) ==> pools[k] in Rows.Where(pools, Accepted)
    ensures pools[k] in Rows.Where(pools, Accepted) ==>
      pools[k].JObj? && Member(pools[k].props, "poolName").JStr? && Trim(Member(pools[k].props, "poolName").s) != ""
  {
    if Accepted(pools[k]) {
      Rows.WhereKeeps(pools, Accepted, k);
    }
    var r := Rows.Where(pools, Accepted);
    if pools[k] in r {
      var j :| 0 <= j < |r| && r[j] == pools[k];
      assert Accepted(r[j]);
    }
  }

  /** Past the founders and the pools, a truthy `ratings` rewrites the
      workspace's ratings rows: each rating sent falsy, 0 included, or
      missing is stored as 3. Every other row is kept, and so is every row
      when `ratings` is falsy or an earlier statement threw. */
  lemma UpdateRewritesRatings(s: Store, wid: Id, body: Props)
    requires FindWorkspace(s.workspaces, wid).Some?
    ensures var t := Update(s, wid, body).store;
      var v := Member(body, "ratings");
      && |t.ratings| == |s.ratings|
      && (!Truthy(v) || FoundersThrow(body) || PoolsThrow(body) ==> t.ratings == s.ratings)
      && (Truthy(v) && !FoundersThrow(body) && !PoolsThrow(body) ==> forall k :: 0 <= k < |t.ratings| ==>
            if s.ratings[k].workspaceId != wid then t.ratings[k] == s.ratings[k]
            else
              && t.ratings[k].id == s.ratings[k].id && t.ratings[k].workspaceId == wid
              && t.ratings[k].financialImpact == Some(Or(OptionalProperty(v, "ratingFinancialImpact"), JNum(3)))
              && t.ratings[k].timeImportance == Some(Or(OptionalProperty(v, "ratingTimeImportance"), JNum(3)))
              && t.ratings[k].assetImportance == Some(Or(OptionalProperty(v, "ratingAssetImportance"), JNum(3))))
  {
    UpdateTables(s, wid, body);
  }

  /** A zero rating is falsy, so it is stored as 3 once the statements
      before the ratings have run. */
  lemma ZeroRatingStoredAsThree(s: Store, wid: Id, body: Props, k: nat)
    requires FindWorkspace(s.workspaces, wid).Some?
    requires Truthy(Member(body, "ratings")) && OptionalProperty(Member(body, "ratings"), "ratingTimeImportance") == JNum(0)
    requires k < |s.ratings| && s.ratings[k].workspaceId == wid
    ensures !FoundersThrow(body) && !PoolsThrow(body) ==>
      Update(s, wid, body).store.ratings[k].timeImportance == Some(JNum(3))
  {
    UpdateRewritesRatings(s, wid, body);
  }

  /** Past the founders and the pools, a truthy
      `equityDistributionAdjustment` replaces the workspace's adjustments
      with one row per entry, category and weight as sent, each category
      once; other workspaces keep theirs. A falsy value, or an earlier
      statement that threw, changes no adjustment. */
  lemma UpdateReplacesAdjustments(s: Store, wid: Id, body: Props)
    requires FindWorkspace(s.workspaces, wid).Some?
    ensures var t := Update(s, wid, body).store;
      var v := Member(body, "equityDistributionAdjustment");
      && (!Truthy(v) || FoundersThrow(body) || PoolsThrow(body) ==> t.adjustments == s.adjustments)
      && (Truthy(v) && !FoundersThrow(body) && !PoolsThrow(body) ==>
            var rows := Rows.Select(t.adjustments, AdjustmentWorkspace, wid);
            var entries := Entries(v);
            && |rows| == |entries|
            && (forall k :: 0 <= k < |rows| ==> rows[k].category == entries[k].0 && rows[k].weight == entries[k].1)
            && (forall a, b :: 0 <= a < b < |rows| ==> rows[a].category != rows[b].category)
            && forall w :: w != wid ==> Rows.Select(t.adjustments, AdjustmentWorkspace, w) == Rows.Select(s.adjustments, AdjustmentWorkspace, w))
  {
    UpdateTables(s, wid, body);
    var s3 := UpdateRatings(ReplacePools(FoundersStep(s, wid, body).store, wid, body).store, wid, body);
    if !FoundersThrow(body) && !PoolsThrow(body) {
      ReplaceAdjustmentsEffect(s3, wid, body);
    }
  }

  lemma ReplaceAdjustmentsEffect(s: Store, wid: Id, body: Props)
    ensures var t := ReplaceAdjustments(s, wid, body);
      var v := Member(body, "equityDistributionAdjustment");
      Truthy(v) ==>
        var rows := Rows.Select(t.adjustments, AdjustmentWorkspace, wid);
        var entries := Entries(v);
        && |rows| == |entries|
        && (forall k :: 0 <= k < |rows| ==> rows[k].category == entries[k].0 && rows[k].weight == entries[k].1)
        && (forall a, b :: 0 <= a < b < |rows| ==> rows[a].category != rows[b].category)
        && forall w :: w != wid ==> Rows.Select(t.adjustments, AdjustmentWorkspace, w) == Rows.Select(s.adjustments, AdjustmentWorkspace, w)
  {
    var v := Member(body, "equityDistributionAdjustment");
    if Truthy(v) {
      var added := AdjustmentRows(wid, Entries(v), s.nextId);
      Rows.Replace(s.adjustments, AdjustmentWorkspace, wid, added);
    }
  }

  /** A factor whose allocations cannot be read: `undefined` or `null`. */
  predicate Unreadable(f: JsValue)
  {
    f.JUndefined? || f.JNull?
  }

  /** A factor at which the inner loops throw: it is unreadable, or one of
      its allocations cannot be converted to text. */
  predicate FactorThrows(f: JsValue)
  {
    Unreadable(f) || exists j :: 0 <= j < |AllocationEntries(f)| && EntryThrows(AllocationEntries(f)[j])
  }

  /** A factor type whose statements throw: it is sent, and either cannot be
      iterated or lists a factor at which the inner loops throw. */
  predicate FactorsThrow(v: JsValue)
  {
    Truthy(v) && (Iterate(v).None? || exists k :: 0 <= k < |Iterate(v).value| && FactorThrows(Iterate(v).value[k]))
  }

  /** What a stored allocation says, leaving out its row id. */
  function Allocated(f: Factor): (JsValue, string, real)
  {
    (f.factorName, f.founderName, f.allocation)
  }

  function Projected(rows: seq<Factor>): (r: seq<(JsValue, string, real)>)
    ensures |r| == |rows| && forall i :: 0 <= i < |rows| ==> r[i] == Allocated(rows[i])
  {
    seq(|rows|, i requires 0 <= i < |rows| => Allocated(rows[i]))
  }

  /** The allocation entries of a readable factor: `Object.entries(factor.allocations || {})`. */
  function AllocationEntries(f: JsValue): seq<(string, JsValue)>
    requires !Unreadable(f)
  {
    Entries(Or(Property(f, "allocations").value, JObj([])))
  }

  /** The allocations one factor stores, in entry order: its name with
      every allocation entry whose amount is a positive number. */
  function Contribution(f: JsValue): (r: seq<(JsValue, string, real)>)
    requires !FactorThrows(f)
    ensures forall i :: 0 <= i < |r| ==> r[i].2 > 0.0
  {
    var passing := Rows.Where(AllocationEntries(f), Passes);
    seq(|passing|, i requires 0 <= i < |passing| => (OptionalProperty(f, "factorName"), passing[i].0, Allocation(passing[i].1).value))
  }

  /** The allocations a list of factors stores, in order: each factor's
      contribution in turn. Only positive amounts are ever stored. */
  function Contributions(factors: seq<JsValue>): (r: seq<(JsValue, string, real)>)
    requires forall k :: 0 <= k < |factors| ==> !FactorThrows(factors[k])
    ensures forall i :: 0 <= i < |r| ==> r[i].2 > 0.0
  {
    if factors == [] then []
    else Contribution(factors[0]) + Contributions(factors[1..])
  }

  /** The rows the first factor inserts, up to an allocation whose
      conversion throws, and the store the rest start from. */
  function FirstFactor(s: Store, wid: Id, factorType: string, factor: JsValue): (t: Store)
    requires !Unreadable(factor)
    ensures |t.factors| >= |s.factors| && t.factors[..|s.factors|] == s.factors
    ensures forall j :: |s.factors| <= j < |t.factors| ==> FactorSlot(t.factors[j]) == (wid, factorType)
  {
    var entries := AllocationEntries(factor);
    var rows := FactorRows(wid, factorType, factor, entries[..Rows.StopIndex(entries, EntryThrows)], s.nextId);
    var t := s.(factors := s.factors + rows, nextId := s.nextId + |rows|);
    assert t.factors[..|s.factors|] == s.factors;
    t
  }

  /** What the first factor inserts is its contribution. */
  lemma FirstFactorContribution(s: Store, wid: Id, factorType: string, factor: JsValue)
    requires !FactorThrows(factor)
    ensures Projected(FirstFactor(s, wid, factorType, factor).factors[|s.factors|..]) == Contribution(factor)
  {
    var entries := AllocationEntries(factor);
    Rows.StopIndexIff(entries, EntryThrows);
    assert entries[..Rows.StopIndex(entries, EntryThrows)] == entries;
    var rows := FactorRows(wid, factorType, factor, AllocationEntries(factor), s.nextId);
    assert FirstFactor(s, wid, factorType, factor).factors == s.factors + rows;
    assert (s.factors + rows)[|s.factors|..] == rows;
    FactorRowsProjected(wid, factorType, factor, s.nextId);
  }

  lemma FactorRowsProjected(wid: Id, factorType: string, factor: JsValue, next: Id)
    requires !FactorThrows(factor)
    ensures Projected(FactorRows(wid, factorType, factor, AllocationEntries(factor), next)) == Contribution(factor)
  {
    var p := Projected(FactorRows(wid, factorType, factor, AllocationEntries(factor), next));
    var c := Contribution(factor);
    assert |p| == |c|;
    forall i | 0 <= i < |p|
      ensures p[i] == c[i]
    {
    }
  }

  /** The inner loops throw exactly at an unreadable factor or at an
      allocation that cannot be converted. */
  lemma {:induction false} InsertFactorsThrows(s: Store, wid: Id, factorType: string, factors: seq<JsValue>)
    ensures InsertFactors(s, wid, factorType, factors).threw <==> exists k :: 0 <= k < |factors| && FactorThrows(factors[k])
    decreases |factors|
  {
    if factors != [] {
      if !FactorThrows(factors[0]) {
        InsertFactorsThrows(FirstFactor(s, wid, factorType, factors[0]), wid, factorType, factors[1..]);
        assert forall k :: 1 <= k < |factors| ==> factors[k] == factors[1..][k - 1];
      }
    }
  }

  lemma PrefixIndex<T>(mid: seq<T>, all: seq<T>, j: nat)
    requires |mid| <= |all| && all[..|mid|] == mid && j < |mid|
    ensures all[j] == mid[j]
  {
    assert all[..|mid|][j] == all[j];
  }

  /** When the inner loops finish, what they inserted is, row for row, the
      factors' contributions. */
  lemma {:induction false} InsertFactorsContents(s: Store, wid: Id, factorType: string, factors: seq<JsValue>)
    requires forall k :: 0 <= k < |factors| ==> !FactorThrows(factors[k])
    ensures var r := InsertFactors(s, wid, factorType, factors);
      Projected(r.store.factors[|s.factors|..]) == Contributions(factors)
    decreases |factors|
  {
    if factors != [] {
      var s' := FirstFactor(s, wid, factorType, factors[0]);
      InsertFactorsContents(s', wid, factorType, factors[1..]);
      FirstFactorContribution(s, wid, factorType, factors[0]);
      var all := InsertFactors(s', wid, factorType, factors[1..]).store.factors;
      SplitAfter(s.factors, s'.factors, all);
      ProjectedAppend(s'.factors[|s.factors|..], all[|s'.factors|..]);
    }
  }

  /** A table that extends `mid`, which extends `base`: what it adds to
      `base` is what `mid` adds, then what it adds to `mid`. */
  lemma SplitAfter(base: seq<Factor>, mid: seq<Factor>, all: seq<Factor>)
    requires |base| <= |mid| <= |all| && mid[..|base|] == base && all[..|mid|] == mid
    ensures all[|base|..] == mid[|base|..] + all[|mid|..]
  {
    assert all[|base|..|mid|] == mid[|base|..];
  }

  lemma ProjectedAppend(a: seq<Factor>, b: seq<Factor>)
    ensures Projected(a + b) == Projected(a) + Projected(b)
  {
  }

  /** What a factor type's statements leave under the workspace and type:
      the rows as before when the type is not sent, otherwise the
      contributions of the factors it lists. */
  ghost predicate SlotFilled(before: seq<Factor>, after: seq<Factor>, wid: Id, body: Props, factorType: string)
  {
    var v := Member(body, factorType);
    var rows := Rows.Select(after, FactorSlot, (wid, factorType));
    && (!Truthy(v) ==> rows == Rows.Select(before, FactorSlot, (wid, factorType)))
    && (Truthy(v) ==>
          && Iterate(v).Some? && (forall k :: 0 <= k < |Iterate(v).value| ==> !FactorThrows(Iterate(v).value[k]))
          && Projected(rows) == Contributions(Iterate(v).value))
  }

  /** One factor type throws exactly when its value is unusable, touches no
      other (workspace, type) slot, and otherwise fills its own. */
  lemma ReplaceFactorTypeEffect(s: Store, wid: Id, body: Props, factorType: string)
    ensures var r := ReplaceFactorType(s, wid, body, factorType);
      && (r.threw <==> FactorsThrow(Member(body, factorType)))
      && (forall slot :: slot != (wid, factorType) ==>
            Rows.Select(r.store.factors, FactorSlot, slot) == Rows.Select(s.factors, FactorSlot, slot))
      && (!r.threw ==> SlotFilled(s.factors, r.store.factors, wid, body, factorType))
  {
    ReplaceFactorTypeThrows(s, wid, body, factorType);
    ReplaceFactorTypeOthers(s, wid, body, factorType);
    ReplaceFactorTypeFills(s, wid, body, factorType);
  }

  lemma ReplaceFactorTypeThrows(s: Store, wid: Id, body: Props, factorType: string)
    ensures ReplaceFactorType(s, wid, body, factorType).threw <==> FactorsThrow(Member(body, factorType))
  {
    var v := Member(body, factorType);
    if Truthy(v) && Iterate(v).Some? {
      var kept := s.(factors := Rows.Drop(s.factors, FactorSlot, (wid, factorType)));
      InsertFactorsThrows(kept, wid, factorType, Iterate(v).value);
    }
  }

  /** The rows of a sent, iterable factor type: the kept rows, then what the
      inner loops add, all of it under the workspace and type. */
  lemma FactorTypeRows(s: Store, wid: Id, factorType: string, factors: seq<JsValue>)
    ensures var kept := s.(factors := Rows.Drop(s.factors, FactorSlot, (wid, factorType)));
      var r := InsertFactors(kept, wid, factorType, factors);
      var added := r.store.factors[|kept.factors|..];
      && r.store.factors == Rows.Drop(s.factors, FactorSlot, (wid, factorType)) + added
      && (forall i :: 0 <= i < |added| ==> FactorSlot(added[i]) == (wid, factorType))
  {
    var kept := s.(factors := Rows.Drop(s.factors, FactorSlot, (wid, factorType)));
    var all := InsertFactors(kept, wid, factorType, factors).store.factors;
    assert all == all[..|kept.factors|] + all[|kept.factors|..];
  }

  lemma ReplaceFactorTypeOthers(s: Store, wid: Id, body: Props, factorType: string)
    ensures var r := ReplaceFactorType(s, wid, body, factorType);
      forall slot :: slot != (wid, factorType) ==>
        Rows.Select(r.store.factors, FactorSlot, slot) == Rows.Select(s.factors, FactorSlot, slot)
  {
    var v := Member(body, factorType);
    if Truthy(v) {
      match Iterate(v)
      case None =>
        forall slot | slot != (wid, factorType)
          ensures Rows.Select(Rows.Drop(s.factors, FactorSlot, (wid, factorType)), FactorSlot, slot) == Rows.Select(s.factors, FactorSlot, slot)
        {
          Rows.DropKeepsOthers(s.factors, FactorSlot, (wid, factorType), slot);
        }
      case Some(factors) =>
        var kept := s.(factors := Rows.Drop(s.factors, FactorSlot, (wid, factorType)));
        FactorTypeRows(s, wid, factorType, factors);
        var added := InsertFactors(kept, wid, factorType, factors).store.factors[|kept.factors|..];
        Rows.Replace(s.factors, FactorSlot, (wid, factorType), added);
    }
  }

  lemma ReplaceFactorTypeFills(s: Store, wid: Id, body: Props, factorType: string)
    ensures var r := ReplaceFactorType(s, wid, body, factorType);
      !r.threw ==> SlotFilled(s.factors, r.store.factors, wid, body, factorType)
  {
    var v := Member(body, factorType);
    if Truthy(v) && Iterate(v).Some? {
      var factors := Iterate(v).value;
      var kept := s.(factors := Rows.Drop(s.factors, FactorSlot, (wid, factorType)));
      var r := InsertFactors(kept, wid, factorType, factors);
      InsertFactorsThrows(kept, wid, factorType, factors);
      if !r.threw {
        FactorTypeRows(s, wid, factorType, factors);
        Rows.Replace(s.factors, FactorSlot, (wid, factorType), r.store.factors[|kept.factors|..]);
        InsertFactorsContents(kept, wid, factorType, factors);
      }
    }
  }

  /** The factor types in turn: the statements throw exactly when some type
      is unusable; slots of other workspaces and of types not listed keep
      their rows; when nothing throws, every listed type's slot is filled. */
  lemma ReplaceFactorsEffect(s: Store, wid: Id, body: Props, types: seq<string>)
    requires forall a, b :: 0 <= a < b < |types| ==> types[a] != types[b]
    ensures var r := ReplaceFactors(s, wid, body, types);
      && (r.threw <==> exists k :: 0 <= k < |types| && FactorsThrow(Member(body, types[k])))
      && (forall slot: (Id, string) :: slot.0 != wid || slot.1 !in types ==>
            Rows.Select(r.store.factors, FactorSlot, slot) == Rows.Select(s.factors, FactorSlot, slot))
      && (!r.threw ==> forall k :: 0 <= k < |types| ==> SlotFilled(s.factors, r.store.factors, wid, body, types[k]))
  {
    ReplaceFactorsThrows(s, wid, body, types);
    ReplaceFactorsOthers(s, wid, body, types);
    ReplaceFactorsFill(s, wid, body, types);
  }

  lemma {:induction false} ReplaceFactorsThrows(s: Store, wid: Id, body: Props, types: seq<string>)
    ensures ReplaceFactors(s, wid, body, types).threw <==> exists k :: 0 <= k < |types| && FactorsThrow(Member(body, types[k]))
    decreases |types|
  {
    if types != [] {
      var step := ReplaceFactorType(s, wid, body, types[0]);
      ReplaceFactorTypeThrows(s, wid, body, types[0]);
      if !step.threw {
        var rest := types[1..];
        ReplaceFactorsThrows(step.store, wid, body, rest);
        if exists k :: 0 <= k < |types| && FactorsThrow(Member(body, types[k])) {
          var k :| 0 <= k < |types| && FactorsThrow(Member(body, types[k]));
          assert types[k] == rest[k - 1];
        }
        if exists k :: 0 <= k < |rest| && FactorsThrow(Member(body, rest[k])) {
          var k :| 0 <= k < |rest| && FactorsThrow(Member(body, rest[k]));
          assert rest[k] == types[k + 1];
        }
      }
    }
  }

  lemma {:induction false} ReplaceFactorsOthers(s: Store, wid: Id, body: Props, types: seq<string>)
    ensures var r := ReplaceFactors(s, wid, body, types);
      forall slot: (Id, string) :: slot.0 != wid || slot.1 !in types ==>
        Rows.Select(r.store.factors, FactorSlot, slot) == Rows.Select(s.factors, FactorSlot, slot)
    decreases |types|
  {
    if types != [] {
      var step := ReplaceFactorType(s, wid, body, types[0]);
      ReplaceFactorTypeOthers(s, wid, body, types[0]);
      if !step.threw {
        var rest := types[1..];
        ReplaceFactorsOthers(step.store, wid, body, rest);
        assert forall t :: t in rest ==> t in types;
      }
    }
  }

  lemma {:induction false} ReplaceFactorsFill(s: Store, wid: Id, body: Props, types: seq<string>)
    requires forall a, b :: 0 <= a < b < |types| ==> types[a] != types[b]
    ensures var r := ReplaceFactors(s, wid, body, types);
      !r.threw ==> forall k :: 0 <= k < |types| ==> SlotFilled(s.factors, r.store.factors, wid, body, types[k])
    decreases |types|
  {
    if types != [] {
      var step := ReplaceFactorType(s, wid, body, types[0]);
      if !step.threw {
        var rest := types[1..];
        var r := ReplaceFactors(step.store, wid, body, rest);
        ReplaceFactorsFill(step.store, wid, body, rest);
        if !r.threw {
          ReplaceFactorsOthers(step.store, wid, body, rest);
          ReplaceFactorTypeOthers(s, wid, body, types[0]);
          ReplaceFactorTypeFills(s, wid, body, types[0]);
          forall k | 0 <= k < |types|
            ensures SlotFilled(s.factors, r.store.factors, wid, body, types[k])
          {
            if k == 0 {
              assert types[0] !in rest;
              assert Rows.Select(r.store.factors, FactorSlot, (wid, types[0])) == Rows.Select(step.store.factors, FactorSlot, (wid, types[0]));
            } else {
              assert types[k] == rest[k - 1];
              assert SlotFilled(step.store.factors, r.store.factors, wid, body, rest[k - 1]);
              assert Rows.Select(step.store.factors, FactorSlot, (wid, types[k])) == Rows.Select(s.factors, FactorSlot, (wid, types[k]));
            }
          }
        }
      }
    }
  }


  lemma FactorTypesDistinct()
    ensures forall a, b :: 0 <= a < b < |FactorTypes| ==> FactorTypes[a] != FactorTypes[b]
  {
    var t := FactorTypes;
    assert t[0][0] == 'c' && t[1][0] == 'p' && t[2][0] == 'r' && t[3][0] == 'e';
  }

  /** For a known workspace the update fails exactly when a founder name
      cannot be looked up, the reserved pools cannot be iterated, or some
      factor type is unusable; the statements before stay applied. */
  lemma UpdateFailsIff(s: Store, wid: Id, body: Props)
    requires FindWorkspace(s.workspaces, wid).Some?
    ensures Update(s, wid, body).status == 500 <==>
      || FoundersThrow(body) || PoolsThrow(body)
      || exists k :: 0 <= k < |FactorTypes| && FactorsThrow(Member(body, FactorTypes[k]))
  {
    UpdateTables(s, wid, body);
    var f := FoundersStep(s, wid, body);
    var p := ReplacePools(f.store, wid, body);
    if !f.threw && !p.threw {
      FactorTypesDistinct();
      ReplaceFactorsEffect(ReplaceAdjustments(UpdateRatings(p.store, wid, body), wid, body), wid, body, FactorTypes);
    }
  }

  /** A successful update fills each factor type's slot for the workspace:
      as before when the type is not sent, otherwise with the contributions
      of the factors it lists, every allocation positive. Every slot of
      another workspace, or of another type, keeps its rows whatever the
      status. */
  lemma UpdateReplacesFactors(s: Store, wid: Id, body: Props)
    requires FindWorkspace(s.workspaces, wid).Some?
    ensures var t := Update(s, wid, body).store;
      forall slot: (Id, string) :: slot.0 != wid || slot.1 !in FactorTypes ==>
        Rows.Select(t.factors, FactorSlot, slot) == Rows.Select(s.factors, FactorSlot, slot)
    ensures Update(s, wid, body).status == 200 ==>
      forall k :: 0 <= k < |FactorTypes| ==> SlotFilled(s.factors, Update(s, wid, body).store.factors, wid, body, FactorTypes[k])
    ensures FoundersThrow(body) || PoolsThrow(body) ==> Update(s, wid, body).store.factors == s.factors
  {
    UpdateTables(s, wid, body);
    var f := FoundersStep(s, wid, body);
    var p := ReplacePools(f.store, wid, body);
    if !f.threw && !p.threw {
      FactorTypesDistinct();
      ReplaceFactorsEffect(ReplaceAdjustments(UpdateRatings(p.store, wid, body), wid, body), wid, body, FactorTypes);
    }
  }

  lemma GrowsTransitive(a: seq<VisitedQuestion>, b: seq<VisitedQuestion>, c: seq<VisitedQuestion>)
    requires Grows(a, b) && Grows(b, c)
    ensures Grows(a, c)
  {
  }

  /** Every truthy entry of a part's map is marked in `rows`. */
  ghost predicate PartMarked(rows: seq<VisitedQuestion>, wid: Id, body: Props, key: string, part: nat)
  {
    Truthy(Member(body, key)) ==>
      forall e :: e in Entries(Member(body, key)) && Truthy(e.1) ==> Marked(rows, wid, part, ParseInt(e.0))
  }

  lemma GrowsKeepsPartMarked(a: seq<VisitedQuestion>, b: seq<VisitedQuestion>, wid: Id, body: Props, key: string, part: nat)
    requires Grows(a, b) && PartMarked(a, wid, body, key, part)
    ensures PartMarked(b, wid, body, key, part)
  {
    forall e | Truthy(Member(body, key)) && e in Entries(Member(body, key)) && Truthy(e.1)
      ensures Marked(b, wid, part, ParseInt(e.0))
    {
      GrowsKeepsMarked(a, b, wid, part, ParseInt(e.0));
    }
  }

  /** The questions a map of entries asks to mark: the parsed index of each
      truthy entry, under the workspace and part. */
  ghost function AskedBy(wid: Id, part: nat, entries: seq<(string, JsValue)>): set<(Id, nat, Option<int>)>
  {
    set e | e in entries && Truthy(e.1) :: (wid, part, ParseInt(e.0))
  }

  /** The questions a part's map asks to mark; none when the map is falsy. */
  ghost function PartAsked(wid: Id, body: Props, key: string, part: nat): set<(Id, nat, Option<int>)>
  {
    if Truthy(Member(body, key)) then AskedBy(wid, part, Entries(Member(body, key))) else {}
  }

  ghost function QuestionsAsked(wid: Id, body: Props): set<(Id, nat, Option<int>)>
  {
    PartAsked(wid, body, "visitedQuestionsPart1", 1) + PartAsked(wid, body, "visitedQuestionsPart2", 2)
  }

  /** `b` differs from `a` only in questions of `asked`: an earlier mark is
      kept as it was, or, when its question is asked, set visited; every
      mark added is a visited mark of an asked question. */
  ghost predicate MarksOnly(a: seq<VisitedQuestion>, b: seq<VisitedQuestion>, asked: set<(Id, nat, Option<int>)>)
  {
    && |a| <= |b|
    && (forall k :: 0 <= k < |a| ==>
          b[k] == a[k] || (QuestionKey(a[k]) in asked && b[k] == a[k].(visited := true)))
    && (forall k :: |a| <= k < |b| ==> b[k].visited && QuestionKey(b[k]) in asked)
  }

  lemma MarksOnlyChain(a: seq<VisitedQuestion>, b: seq<VisitedQuestion>, c: seq<VisitedQuestion>,
                       x: set<(Id, nat, Option<int>)>, y: set<(Id, nat, Option<int>)>, z: set<(Id, nat, Option<int>)>)
    requires MarksOnly(a, b, x) && MarksOnly(b, c, y) && x + y <= z
    ensures MarksOnly(a, c, z)
  {
    forall k | 0 <= k < |a|
      ensures c[k] == a[k] || (QuestionKey(a[k]) in z && c[k] == a[k].(visited := true))
    {
      assert QuestionKey(b[k]) == QuestionKey(a[k]);
    }
    forall k | |a| <= k < |c|
      ensures c[k].visited && QuestionKey(c[k]) in z
    {
      if k < |b| {
        assert QuestionKey(c[k]) == QuestionKey(b[k]);
      }
    }
  }

  /** Marking one question touches that question only. */
  lemma MarkVisitedOnly(s: Store, wid: Id, part: nat, index: Option<int>)
    ensures MarksOnly(s.visited, MarkVisited(s, wid, part, index).visited, {(wid, part, index)})
  {
  }

  /** A part's entries touch only the questions its truthy entries name. */
  lemma {:induction false} MarkEntriesOnly(s: Store, wid: Id, part: nat, entries: seq<(string, JsValue)>)
    ensures MarksOnly(s.visited, MarkEntries(s, wid, part, entries).visited, AskedBy(wid, part, entries))
    decreases |entries|
  {
    if entries == [] {
      assert MarksOnly(s.visited, s.visited, {});
    } else {
      var e := entries[0];
      var first: set<(Id, nat, Option<int>)> := if Truthy(e.1) then {(wid, part, ParseInt(e.0))} else {};
      var s1 := if Truthy(e.1) then MarkVisited(s, wid, part, ParseInt(e.0)) else s;
      if Truthy(e.1) {
        MarkVisitedOnly(s, wid, part, ParseInt(e.0));
      } else {
        assert MarksOnly(s.visited, s1.visited, first);
      }
      MarkEntriesOnly(s1, wid, part, entries[1..]);
      assert forall x :: x in entries[1..] ==> x in entries;
      assert first + AskedBy(wid, part, entries[1..]) <= AskedBy(wid, part, entries);
      MarksOnlyChain(s.visited, s1.visited, MarkEntries(s, wid, part, entries).visited,
                     first, AskedBy(wid, part, entries[1..]), AskedBy(wid, part, entries));
    }
  }

  /** Both parts' maps together touch only the questions they ask for. */
  lemma MarkQuestionsOnly(s: Store, wid: Id, body: Props)
    ensures MarksOnly(s.visited, MarkQuestions(s, wid, body).visited, QuestionsAsked(wid, body))
  {
    var m1 := MarkPart(s, wid, body, "visitedQuestionsPart1", 1);
    var m2 := MarkPart(m1, wid, body, "visitedQuestionsPart2", 2);
    MarkPartOnly(s, wid, body, "visitedQuestionsPart1", 1);
    MarkPartOnly(m1, wid, body, "visitedQuestionsPart2", 2);
    MarksOnlyChain(s.visited, m1.visited, m2.visited,
                   PartAsked(wid, body, "visitedQuestionsPart1", 1), PartAsked(wid, body, "visitedQuestionsPart2", 2),
                   QuestionsAsked(wid, body));
  }

  lemma MarkPartOnly(s: Store, wid: Id, body: Props, key: string, part: nat)
    ensures MarksOnly(s.visited, MarkPart(s, wid, body, key, part).visited, PartAsked(wid, body, key, part))
  {
    if Truthy(Member(body, key)) {
      MarkEntriesOnly(s, wid, part, Entries(Member(body, key)));
    } else {
      assert MarksOnly(s.visited, s.visited, {});
    }
  }

  /** A successful update marks every truthy entry of both parts' maps,
      under the index its key parses to, and touches no other question: no
      mark is removed, moved or set back to unvisited, a mark of a question
      not asked for stays as it was, and every mark added is a visited mark
      of the workspace for an asked question. Any other outcome leaves the
      marks alone. */
  lemma UpdateMarksQuestions(s: Store, wid: Id, body: Props)
    requires FindWorkspace(s.workspaces, wid).Some?
    ensures var t := Update(s, wid, body).store;
      && Grows(s.visited, t.visited)
      && (Update(s, wid, body).status != 200 ==> t.visited == s.visited)
      && (Update(s, wid, body).status == 200 ==>
            && PartMarked(t.visited, wid, body, "visitedQuestionsPart1", 1)
            && PartMarked(t.visited, wid, body, "visitedQuestionsPart2", 2)
            && MarksOnly(s.visited, t.visited, QuestionsAsked(wid, body)))
  {
    UpdateTables(s, wid, body);
    var t := Update(s, wid, body).store;
    if Update(s, wid, body).status == 200 {
      var p := ReplacePools(FoundersStep(s, wid, body).store, wid, body);
      var f := ReplaceFactors(ReplaceAdjustments(UpdateRatings(p.store, wid, body), wid, body), wid, body, FactorTypes);
      var m1 := MarkPart(f.store, wid, body, "visitedQuestionsPart1", 1);
      var m2 := MarkPart(m1, wid, body, "visitedQuestionsPart2", 2);
      assert t.visited == m2.visited;
      assert f.store.visited == s.visited;
      GrowsTransitive(s.visited, m1.visited, m2.visited);
      GrowsKeepsPartMarked(m1.visited, m2.visited, wid, body, "visitedQuestionsPart1", 1);
      MarkQuestionsOnly(f.store, wid, body);
    }
  }

  /** The upsert's lookup compares indexes with `=`, which a NULL index
      never satisfies: an entry whose key does not parse inserts a new mark
      every time it is sent. */
  lemma UnparsedIndexAlwaysInserts(s: Store, wid: Id, part: nat)
    ensures MarkVisited(s, wid, part, None).visited == s.visited + [VisitedQuestion(s.nextId, wid, part, None, true)]
  {
  }

  /** An update keeps the store valid: workspace ids are untouched and ids
      are only ever issued fresh, and the marks stay one per question. */
  lemma UpdatePreservesValid(s: Store, wid: Id, body: Props)
    requires Valid(s)
    ensures Valid(Update(s, wid, body).store)
  {
    if FindWorkspace(s.workspaces, wid).Some? {
      UpdateKeepsWorkspaceIds(s, wid, body);
      UpdateKeepsOneMark(s, wid, body);
    }
  }

  lemma UpdateKeepsWorkspaceIds(s: Store, wid: Id, body: Props)
    requires FindWorkspace(s.workspaces, wid).Some?
    requires Rows.Keyed(s.workspaces, WorkspaceId, s.nextId)
    ensures Rows.Keyed(Update(s, wid, body).store.workspaces, WorkspaceId, Update(s, wid, body).store.nextId)
  {
    UpdateTables(s, wid, body);
    UpdateRevisesWorkspace(s, wid, body);
    var t := Update(s, wid, body).store;
    assert forall j :: 0 <= j < |t.workspaces| ==> t.workspaces[j].id == s.workspaces[j].id;
  }

  lemma UpdateKeepsOneMark(s: Store, wid: Id, body: Props)
    requires FindWorkspace(s.workspaces, wid).Some?
    requires OneMarkPerQuestion(s.visited)
    ensures OneMarkPerQuestion(Update(s, wid, body).store.visited)
  {
    UpdateTables(s, wid, body);
    if Update(s, wid, body).status == 200 {
      var p := ReplacePools(FoundersStep(s, wid, body).store, wid, body);
      var f := ReplaceFactors(ReplaceAdjustments(UpdateRatings(p.store, wid, body), wid, body), wid, body, FactorTypes);
      assert f.store.visited == s.visited;
    }
  }
}
